=== FILE: README.md ===
# Borrownix lending ledger — a Dafny model

Borrownix keeps a lender's book of borrowers, their loans and the monthly interest
collections each loan is owed. This project models the ledger's bookkeeping as pure
functions over immutable data.

- **Data.** The documents are datatypes: `Model.Loan`, `Model.Borrower` and
  `Model.Collection`. The document store is an in-memory `Model.Store` of two sequences.
- **Backend.** The controllers are state transformers `Store -> Result<Store>`:
  - create a borrower, add a loan with the lazy migration of the legacy single-loan fields,
    update, soft-delete, the duplicate-name check and the next-due listing (`Borrowers`);
  - the monthly schedule generator (`Schedule`, with the month arithmetic in `Calendar`);
  - list, mark collected, mark pending and the dashboard summary (`Collections`);
  - the reminder job's date buckets, per-owner grouping and mails (`Reminders`);
  - the one-off script that assigns null loan ids (`Migration`);
  - the admin statistics, the self-deactivation guard and the activity log (`Admin`).
- **Frontend.** The view-model helpers of the pages are modelled too:
  - the shared display helpers (`Helpers`);
  - the unified loan list, loan lookup, the per-loan collection filter and its counts, row
    amounts and labels, and the mark-collected dialog (`LoanView`);
  - the borrower form with its duplicate-name flow and request routing (`Forms`);
  - the sign-up form (`Signup`).

Conventions used throughout:

- **Dates and time.** A calendar date is `Date(year, month, day)`. An instant is an integer
  number of milliseconds. `Calendar.Midnight` maps a date to its midnight instant (UTC, no
  daylight saving).
- **Parameters for the environment.** "Now", "today", fresh document ids and the
  e-mail-configured flag are explicit parameters.
- **Amounts.** Amounts are exact `real`s.
- **Missing values.** JavaScript `undefined`/`null`/`NaN` become `None`.
- **Truthiness.** A legacy principal of 0 counts as absent, as JavaScript truthiness makes it.
- **Route validators.** The `express-validator` chains in backend/routes/borrowers.js become
  preconditions of the controller functions that consult them through `validationResult`
  (create and update). For example, `CreateBorrower` requires a name that is not blank after
  trimming. What the form sends is checked against the same chains by `Forms.BorrowerInputOf`
  (create) and `Forms.UpdateValidatorsPass` (update). The mark-collected chains in
  backend/routes/collections.js:14-21 are the `BadRequest` answer of
  `Collections.MarkCollected`, checked before the lookup. `isNumeric` tests the text
  `String(x)` of a number, so an amount JavaScript writes in exponent form (at least 10^21,
  or non-zero below 10^-6) fails it (`Model.NumericText`). The add-loan route's chains are
  inert, because `addLoanToBorrower` never reads their result. A missing amount or date there fails at save time, against the loan
  subschema's required fields (backend/models/Borrower.js:4-34).
- **Save-time validation.** A schema's `min: 0` and required-field checks at save time are the
  `Invalid` error.

Where the code's behaviour and what it evidently means to do differ, the model states the
behaviour as written. Where that behaviour is a defect, the model carries both halves, the
as-written one and the corrected one (see "## Findings"):

- **Mark-collected default amount.** When no amount is sent, `markCollected` computes the default
  from the borrower document's legacy fields, not from the loan the collection belongs to
  (backend/controllers/collectionController.js:80-86). `LoanView.ServerDefaultIgnoresLoan`
  exhibits a borrower whose stored default differs from the expected amount the collections page
  shows for the same row. For a legacy collection the two agree
  (`LoanView.LegacyExpectedIsStoredDefault`).
- **Blank borrower name.** The borrower form accepts a name of two or more spaces, but the
  server's `trim().notEmpty()` validator rejects it. `Forms.BlankNamePassesFormOnly` states
  this, and the lemmas that follow an accepted form to the server assume a non-blank name.
- **Reminder two-day window.** The job takes its two-day window from 23:59:59.999 two days
  ahead, for 24 hours. `Reminders.CheckAndSendReminders` runs with that window when given
  `AsWritten`, as the program does, and with the calendar day two days ahead when given
  `Intended`. See "## Findings".
- **Interest collected this month.** The dashboard's aggregate matches the owner by the
  uncast string id, which no stored ObjectId equals. `Collections.InterestThisMonthAsWritten`
  models that total, which is always 0. `Collections.Summary` is the corrected half and reports
  the owner's actual sum. See "## Findings".

## Model

| member | source | states |
|---|---|---|
| Model.ParseCollectionStatus | backend/models/InterestCollection.js:32-36 | a status name is accepted exactly when it is one of the enum's four names, and the accepted status has that name |
| Model.CollectionStatusNameRoundTrip | backend/models/InterestCollection.js:32-36 | parsing the stored name of any status gives that status back |
| Model.SaveBorrower | backend/models/Borrower.js:4-78 | saving a borrower succeeds, unchanged, exactly when the schema's required fields and `min: 0` bounds hold for the legacy fields and every loan; otherwise it is a validation error |
| Model.SaveCollection | backend/models/InterestCollection.js:3-48 | saving a collection succeeds, unchanged, exactly when its required ids are present and the collected amount is not negative |
| Model.NewLoan | backend/models/Borrower.js:4-34 | a new loan takes the sent amounts and date, defaults `interestIsPercent` to false and notes to '', starts active, and is valid exactly when both amounts are at least 0 |
| Model.NewCollection | backend/models/InterestCollection.js:3-48 | a new collection is pending, with amount 0, no collected date and empty notes, and is valid exactly when the borrower and owner ids are present |
| Calendar.DaysInMonth | backend/controllers/borrowerController.js:15-17 | month lengths are Gregorian: 29 days only in a leap February, 28 only in a common February, 30 only in April, June, September and November |
| Calendar.AddMonthsClamped | backend/controllers/borrowerController.js:10-17 | k months after a date lands in the month k later with the year carried; its day is the start day when that month has it, else the month's last day |
| Calendar.ScheduleDueDateIsClamped | backend/controllers/borrowerController.js:10-17 | the `setMonth(start + i + 1)` roll-over followed by `setDate(0)` gives exactly the clamped date i + 1 months after the start |
| Schedule.GenerateMonthlyCollections | backend/controllers/borrowerController.js:6-30 | the generator emits exactly `monthsCount` records; record i is pending with amount 0, carries the given borrower, owner and loan id, and falls due on the clamped date i + 1 months after the start |
| Schedule.ScheduleShape | backend/controllers/borrowerController.js:19-26 | every generated record is a default new collection for the given borrower, owner and loan, due at midnight of its month's due day |
| Schedule.ScheduleStrictlyIncreasing | backend/controllers/borrowerController.js:10-17 | consecutive due dates fall in consecutive months and strictly increase |
| Schedule.EndOfMonthExample | backend/controllers/borrowerController.js:10-17 | a loan given on 31 January 2024 falls due on 29 February, 31 March and 30 April; in 2023 the first due date is 28 February |
| Borrowers.CreateBorrower | backend/controllers/borrowerController.js:212-262 | creating appends one borrower holding the loan in the legacy fields with an empty loan list and the trimmed name, and appends its 12 monthly collections with a null loan id; it fails with a validation error exactly when an amount is negative or the owner is missing |
| Borrowers.CreateBorrowerKeepsValid | backend/controllers/borrowerController.js:212-247 | creating a borrower keeps every stored document passing its schema, the twelve generated collections included |
| Borrowers.Migrate | backend/controllers/borrowerController.js:150-166 | migration puts a copy of the legacy loan first in the list (status active) and clears the legacy fields; it fails only when the legacy interest is missing, and keeps a valid borrower valid |
| Borrowers.AddLoanToDocument | backend/controllers/borrowerController.js:150-176 | adding a loan fails as invalid exactly when a legacy loan to migrate has no interest or a sent amount is negative. It migrates exactly when the borrower still has only a legacy loan. Without migration the document is the old one with the new loan (active, defaults applied) appended. With migration it is the migrated document, with the legacy loan moved into the list and every legacy field cleared, and the new loan appended. Every other field is kept, and no legacy loan is left to migrate again |
| Borrowers.AddLoanToBorrower | backend/controllers/borrowerController.js:124-209 | adding a loan answers NotFound for a borrower the owner does not have, fails validation exactly on a negative amount or a legacy loan without interest, replaces only the found borrower's document, and appends a schedule carrying the new loan's id and its own date; the store stays valid |
| Borrowers.MigrationRunsOnce | backend/controllers/borrowerController.js:150-176 | a second loan added to a migrated borrower does not migrate again: the list is the migrated loan then the two new loans, and the legacy fields stay cleared |
| Borrowers.ApplyPatch | backend/controllers/borrowerController.js:321-334 | an update overwrites exactly the whitelisted fields that were sent, trimming the name, and never touches the loans, ids, owner, deleted flag or creation time |
| Borrowers.ApplyPatchValid | backend/controllers/borrowerController.js:321-336 | a patched valid borrower stays valid exactly when the sent amounts are not negative |
| Borrowers.UpdateBorrower | backend/controllers/borrowerController.js:295-351 | updating answers NotFound for a foreign or deleted borrower, fails validation exactly on a negative amount, and otherwise replaces only that borrower and leaves the collections alone |
| Borrowers.UpdateFoundBorrower | backend/controllers/borrowerController.js:321-336 | updating the owner's borrower with non-negative amounts replaces exactly that borrower by its patched copy and keeps every collection |
| Borrowers.UpdateBorrowerKeepsValid | backend/controllers/borrowerController.js:321-336 | an update that succeeds leaves every stored document passing its schema |
| Borrowers.DeleteBorrower | backend/controllers/borrowerController.js:354-384 | deleting answers NotFound exactly for a foreign or already deleted borrower, and otherwise only sets that borrower's deleted flag |
| Borrowers.DeleteTwiceIsNotFound | backend/controllers/borrowerController.js:356-370 | with unique ids, deleting the same borrower twice answers NotFound the second time |
| Borrowers.TotalLoans | backend/controllers/borrowerController.js:92-95 | a borrower's loan count is the length of its loan list, plus one exactly when the legacy principal is truthy |
| Borrowers.CheckDuplicateBorrower | backend/controllers/borrowerController.js:72-121 | a missing name is a bad request; otherwise there is no duplicate exactly when no live borrower of the owner has that name ignoring ASCII case, and a reported duplicate is such a borrower with its loan count |
| Borrowers.NextDue | backend/controllers/borrowerController.js:43-51 | the next due collection is absent exactly when the borrower has no pending collection, and otherwise is a pending one of that borrower with the earliest due date |
| Borrowers.RowFor | backend/controllers/borrowerController.js:41-52 | a listing row carries the borrower and the due date and status of its earliest pending collection, or none when there is none |
| Borrowers.ListBorrowers | backend/controllers/borrowerController.js:33-69 | the listing has one row per live borrower of the owner, newest first |
| Borrowers.GetBorrowerCollections | backend/controllers/borrowerController.js:387-419 | for an owned live borrower the result is a permutation of the collections carrying its id, each copy kept, sorted by due date; a foreign or deleted borrower is NotFound |
| Collections.ListCollections | backend/controllers/collectionController.js:6-35 | the list holds exactly the owner's collections that pass each filter that was given (status, calendar day, borrower), sorted by due date ascending |
| Collections.DayWindowIsCalendarDay | backend/controllers/collectionController.js:15-21 | the window [00:00, 23:59:59.999] of a day holds exactly the instants on that calendar day |
| Collections.UnknownStatusMatchesNothing | backend/controllers/collectionController.js:11-13 | a status filter that names no status lists nothing |
| Collections.LegacyDefaultAmount | backend/controllers/collectionController.js:80-86 | the default amount is the legacy principal times the legacy rate over 100 when the borrower's interest is a rate, else the legacy interest amount (0 when unset); a rate with a missing field gives no number, and a valid borrower never gets a negative default |
| Collections.AmountToStore | backend/controllers/collectionController.js:77-87 | a sent amount always wins; otherwise the borrower's legacy default is used, and the stored amount is kept when the borrower is missing |
| Collections.MarkCollected | backend/controllers/collectionController.js:47-108 | marking collected answers 400 exactly when the route's checks refuse the body: a sent date that is not ISO 8601 text (null, "", 0 and false included), or a sent amount that is not a number or is written in exponent form; it answers this whatever the collection. Otherwise it answers NotFound exactly for a collection the requester does not own; otherwise it sets received whatever the prior status, the sent date or now, the amount rule, and the notes only when sent, and changes no other collection |
| Collections.MarkPending | backend/controllers/collectionController.js:111-144 | marking pending answers NotFound exactly for a foreign collection; otherwise it sets pending, no collected date and amount 0, keeping notes and ids, and changes no other collection |
| Collections.MarkCollectedThenPending | backend/controllers/collectionController.js:74-127 | marking a pending collection collected and then pending restores its status, collected date and amount |
| Collections.Summary | backend/controllers/collectionController.js:147-244 | the summary counts the owner's live borrowers and the pending collections due today. The total lent is the sum of what each live borrower was lent. The interest total is the sum collected on the owner's collections received this month. The upcoming list is the 10 earliest-due of the owner's pending collections due from today to two days ahead (all of them when fewer), each copy at most once, sorted, and none left out is due earlier than one shown. The overdue list is a permutation of the owner's pending collections due before today, each copy kept once, sorted by due date. Both totals are non-negative in a valid store |
| Collections.AggregateMatchCast | backend/controllers/collectionController.js:211-226 | with the owner id cast to an ObjectId, the aggregate's match is exactly "the owner's, received this month"; with the uncast string id it matches nothing |
| Collections.InterestThisMonthAsWritten | backend/controllers/collectionController.js:211-228 | the month's interest total as written is 0 for every store, owner and day |
| Collections.InterestAsWrittenMissesReceived | backend/controllers/collectionController.js:211-228 | an owner who received 5 on the first of the month: the total as written is 0, the dashboard's total is 5 |
| Collections.InterestThisMonthCountsReceived | backend/controllers/collectionController.js:211-228 | in a valid store the dashboard's interest total is at least the amount of every collection the owner received this month |
| Collections.LentNonNegative | backend/controllers/collectionController.js:163-178 | the total lent over stored borrowers is not negative |
| Collections.CollectedNonNegative | backend/controllers/collectionController.js:212-230 | the interest collected this month over stored collections is not negative |
| Collections.DashboardBucketsDisjoint | backend/controllers/collectionController.js:180-210 | a collection due today is also in the upcoming window, and no overdue collection is |
| Reminders.Subject | backend/jobs/reminderJob.js:41-46 | every reminder kind has a non-empty subject; `SubjectInjective` states that the subjects tell the kinds apart |
| Reminders.SubjectInjective | backend/jobs/reminderJob.js:41-46 | different reminder kinds get different subjects |
| Reminders.TwoDayWindowAsWrittenSkipsDayTwo | backend/jobs/reminderJob.js:88-102 | the two-day window as written misses a collection due at midnight two days ahead and takes one due three days ahead |
| Reminders.DueInTwoDaysIsDayTwo | backend/jobs/reminderJob.js:88-102 | the corrected window holds exactly the instants on the calendar day two days after today |
| Reminders.TwoDayBucketWindows | backend/jobs/reminderJob.js:88-102 | the two-day bucket as written is the pending collections in the window from 23:59:59.999 two days ahead, and the intended bucket is the pending collections due on the calendar day two days ahead |
| Reminders.BucketsDisjoint | backend/jobs/reminderJob.js:95-117 | no collection falls in two of the three buckets |
| Reminders.OwnerBucket | backend/jobs/reminderJob.js:120-162 | an owner's list for a bucket holds exactly that owner's collections of the bucket |
| Reminders.OwnerBucketIsFilter | backend/jobs/reminderJob.js:120-162 | an owner's list for a bucket is the query result narrowed to that owner's collections of the bucket: in query order, each stored copy once, nothing added |
| Reminders.MailsFor | backend/jobs/reminderJob.js:165-179 | an owner gets one mail for each non-empty bucket and none for an empty one, each mail carrying exactly that bucket's collections, at most one per kind, in the order two days, today, overdue |
| Reminders.CheckAndSendReminders | backend/jobs/reminderJob.js:81-185 | without mail configuration nothing is sent; otherwise every mail fits its owner's bucket (under the window the job is given) and no owner gets two mails of one kind |
| Reminders.RemindersCoverBuckets | backend/jobs/reminderJob.js:120-179 | under either two-day window, every bucketed collection is in its owner's list, and that owner gets the mail for that bucket |
| Reminders.JobSkipsDayTwo | backend/jobs/reminderJob.js:88-102 | the job as written sends no two-day mail that carries a collection due at midnight two days after today |
| Reminders.IntendedJobRemindsDayTwo | backend/jobs/reminderJob.js:88-102 | with the intended window, every pending collection due two days after today reaches its owner in a two-day mail |
| Migration.Fixed | backend/scripts/fixNullLoanIds.js:36-57 | a null-loan-id collection whose borrower exists and has loans gets the first loan's id; any other collection is unchanged, and no other field ever changes |
| Migration.EntriesMatchFixable | backend/scripts/fixNullLoanIds.js:55-67 | the update log has one entry per collection that was fixed |
| Migration.FixNullLoanIds | backend/scripts/fixNullLoanIds.js:16-78 | the script keeps the borrowers, fixes each collection independently, counts as updated exactly the fixable ones, makes updated plus skipped the number of null-loan-id collections, and logs the updates in order |
| Migration.FixedIdempotent | backend/scripts/fixNullLoanIds.js:26-57 | a fixed collection is no longer fixable, so a rerun changes nothing |
| Migration.FixedNullIffSkipped | backend/scripts/fixNullLoanIds.js:36-57 | a collection keeps a null loan id after the script exactly when it had one and was skipped |
| Admin.OnlineIsRecent | backend/controllers/adminController.js:33-34 | a user online (login in the last 30 minutes) also counts as a recent login (last 24 hours) |
| Admin.UsersByLastLogin | backend/controllers/adminController.js:10-13 | users are ordered by last login, newest first, users who never logged in last, with no user lost or added |
| Admin.RowOf | backend/controllers/adminController.js:17-44 | a user's row counts its live borrowers, all its collections and its pending collections, with no more pending than all; the user is online exactly when they logged in during the last 30 minutes |
| Admin.GetAllUsers | backend/controllers/adminController.js:8-61 | there is one row per user, in last-login order |
| Admin.GetDashboardStats | backend/controllers/adminController.js:66-98 | the counters count exactly what their filters say, pending plus received never exceeds all collections, and recent logins include every online user. The collected total is the sum over all received collections, and it is non-negative in a valid store |
| Admin.ReceivedNonNegative | backend/controllers/adminController.js:86-97 | the sum of received amounts over stored collections is not negative |
| Admin.UpdateUserStatus | backend/controllers/adminController.js:132-175 | an unknown user is NotFound; deactivating oneself is a bad request; otherwise only that user's active flag changes to the requested value |
| Admin.ActorStaysActive | backend/controllers/adminController.js:146-152 | with a boolean `isActive`, as the admin page sends, a successful status update never deactivates the active admin who made it |
| Admin.RecentBorrowers | backend/controllers/adminController.js:194-200 | the activity log shows at most 5 of the user's live borrowers, newest first, and is the start of that user's full newest-first list |
| Admin.RecentCollections | backend/controllers/adminController.js:203-209 | the activity log shows the user's 10 most recently updated collections (all of them when fewer), each copy at most once, newest first, and none left out was updated later than one shown |
| Admin.GetUserActivity | backend/controllers/adminController.js:180-227 | an unknown user is NotFound; otherwise the log holds the user with its recent borrowers and collections |
| Helpers.CalculateInterest | frontend/src/utils/helpers.js:21-26 | the monthly interest is principal times rate over 100 for a rate and the flat amount otherwise; it is a number exactly when the interest is present, and not negative for non-negative terms |
| Helpers.DaysUntilDue | frontend/src/utils/helpers.js:28-32 | the day count is the number of whole days between now and the due date, rounded toward zero |
| Helpers.DaysUntilDueBoundaries | frontend/src/utils/helpers.js:28-32 | a date is overdue exactly from one full day after it, counts as today from a day before to a day after now, and as tomorrow from one to two days ahead |
| Helpers.GetStatusColor | frontend/src/utils/helpers.js:34-46 | received gets the received badge, missed or overdue the overdue badge, and everything else the pending badge |
| Helpers.StatusColorOfStoredStatus | frontend/src/utils/helpers.js:34-46 | of the stored statuses only missed shows the overdue badge and only received the received badge |
| Helpers.DueStatusExactlyOneLabel | frontend/src/utils/helpers.js:48-57 | exactly one due-status label applies to any day count and status, and it is the one shown: Received for a received status whatever the date, then Overdue, Due Today, Due Tomorrow, Due Soon or Pending by day count |
| Helpers.FormatDate | frontend/src/utils/helpers.js:3-11 | a missing date shows 'N/A' however dates are rendered, and a present one shows that date |
| LoanView.GetAllLoans | frontend/src/pages/CollectionsView.jsx:52-76 | the list is empty for a missing borrower; otherwise it is the legacy pseudo-loan first, only when the legacy principal and date are truthy, then the loan list in order; only the legacy entry is flagged legacy, and it is active |
| LoanView.AllLoansCountLikeDuplicateCheck | frontend/src/pages/CollectionsView.jsx:52-76 | the pages list as many loans as the duplicate check counts |
| LoanView.MigrationKeepsLoanView | backend/controllers/borrowerController.js:150-166 | migration keeps the terms the pages show for the borrower's loan, so the interest they compute is unchanged |
| LoanView.GetLoanById | frontend/src/pages/CollectionsView.jsx:79-86 | a missing or empty loan id resolves to the first loan, or to nothing when there is none; any other id resolves to the loan with that id, or to nothing when no loan has it |
| LoanView.ResolvesListedLoan | frontend/src/pages/Dashboard.jsx:56-63 | a collection carrying a listed loan's id resolves to exactly that loan |
| LoanView.ResolvesNullToFirst | frontend/src/components/MarkCollectionModal.jsx:46-53 | a null loan id resolves to the legacy loan when there is one, else to the first listed loan, else to nothing |
| LoanView.FixKeepsResolvedLoan | backend/scripts/fixNullLoanIds.js:52-57 | for a borrower without a legacy loan, the id-assignment script does not change which loan a collection resolves to |
| LoanView.FilterCollections | frontend/src/pages/CollectionsView.jsx:89-110 | 'all' keeps every collection; any other filter keeps exactly the collections shown for it (legacy: null loan id; first loan without a legacy loan: also null loan ids; other loans: exact id), as an order-preserving subsequence |
| LoanView.OptionCountMatchesFilter | frontend/src/pages/CollectionsView.jsx:225-244 | the count next to each loan option equals the length of the list that option filters to |
| LoanView.ExpectedAmountNonNegative | frontend/src/pages/CollectionsView.jsx:338-339 | for a stored borrower every row's expected amount is a number and not negative |
| LoanView.LegacyExpectedIsStoredDefault | backend/controllers/collectionController.js:80-86 | for a legacy collection the expected amount the page shows is the default the server stores |
| LoanView.ServerDefaultIgnoresLoan | backend/controllers/collectionController.js:80-86 | for a collection of a listed loan, the server's default can differ from the loan's interest the page shows |
| LoanView.ActionFor | frontend/src/pages/CollectionsView.jsx:374-388 | a row offers 'Mark Collected' exactly when the collection is pending, else 'Mark Pending' |
| LoanView.ActionsAlternate | frontend/src/pages/CollectionsView.jsx:374-388 | after either action succeeds, the row offers the other one |
| LoanView.TotalPrincipalIsLent | frontend/src/pages/BorrowerDetail.jsx:119 | the detail page's total principal equals what the dashboard counts as lent for the borrower |
| LoanView.TotalInterest | frontend/src/pages/BorrowerDetail.jsx:120 | the total interest is a number exactly when every loan has an interest, and is then not negative for non-negative terms |
| LoanView.TotalInterestOfStoredBorrower | frontend/src/pages/BorrowerDetail.jsx:120 | a stored borrower's total interest is a number and not negative |
| LoanView.ActiveCountOfBorrower | frontend/src/pages/BorrowerDetail.jsx:214 | the active count is the active loans of the list plus one for a legacy loan, which is always active |
| LoanView.HandleUpdateName | frontend/src/pages/BorrowerDetail.jsx:37-51 | a name that trims to nothing is refused with no request; any name sent is non-empty and already trimmed |
| LoanView.RenameRefusesBlank | frontend/src/pages/BorrowerDetail.jsx:37-51 | the refused names are exactly those made of white space only, and any other name is sent trimmed |
| LoanView.RenameAgreesWithServer | frontend/src/pages/BorrowerDetail.jsx:37-51 | for any name the page sends, the update succeeds for the owner's borrower and the store afterwards holds exactly the page's renamed copy, with nothing else changed |
| LoanView.ToggleExpanded | frontend/src/pages/BorrowersList.jsx:71-81 | toggling flips the membership of exactly that id |
| LoanView.ToggleTwice | frontend/src/pages/BorrowersList.jsx:71-81 | toggling twice restores the set |
| LoanView.ShortId | frontend/src/pages/BorrowersList.jsx:167 | the displayed id is the last six characters of the id, in upper case |
| LoanView.PrincipalCellOf | frontend/src/pages/BorrowersList.jsx:169-225 | the cell shows a total exactly when there are several loans, and its amount is the sum of all principals (0 with no loans) |
| LoanView.InterestCellOf | frontend/src/pages/BorrowersList.jsx:227-239 | several loans show 'Multiple'; one rate loan shows its rate and computed interest; otherwise the flat interest or 0 |
| LoanView.UpcomingLabelsWithinTwoDays | frontend/src/pages/Dashboard.jsx:195-199 | a collection in the dashboard's upcoming window is due 0, 1 or 2 days ahead, so its label is Due Today, Due Tomorrow or In 2 days |
| LoanView.OverdueDaysAreWholeDaysElapsed | frontend/src/pages/Dashboard.jsx:235-265 | an overdue row shows the number of whole days elapsed since the due date |
| LoanView.LoanBadge | frontend/src/pages/Dashboard.jsx:165-176 | the 'Loan #' badge shows exactly when the borrower has several loans and the collection's loan resolves, and its number is that loan's position |
| LoanView.PrefillAmount | frontend/src/components/MarkCollectionModal.jsx:63-68 | the amount field is set to the resolved loan's interest, and left as it was when no loan resolves |
| LoanView.OpenModal | frontend/src/components/MarkCollectionModal.jsx:55-74 | the dialog offers exactly the pending collections in fetched order, selects the first one (none when none is pending) and prefills its loan's interest |
| LoanView.SelectCollection | frontend/src/components/MarkCollectionModal.jsx:76-87 | choosing a collection selects it and prefills its loan's interest, keeping the amount when it is not offered |
| LoanView.ModalExpected | frontend/src/components/MarkCollectionModal.jsx:116-126 | with no selection, or a selection not among the pending collections, the displayed expected amount is 0. Otherwise it is the selected collection's row amount: the interest of its loan, or 0 when no loan resolves |
| LoanView.OpenModalPrefillsExpected | frontend/src/components/MarkCollectionModal.jsx:61-68 | when the first pending loan resolves with an interest, the prefilled amount is the expected amount displayed |
| LoanView.DefaultIsEarliestPending | frontend/src/components/MarkCollectionModal.jsx:59-62 | when collections arrive sorted by due date, the default selection is the pending collection due first |
| LoanView.SubmitModal | frontend/src/components/MarkCollectionModal.jsx:89-103 | with nothing selected no request is sent; otherwise the selected collection is marked with the chosen date, the amount typed and the notes |
| Forms.RequiredMinLength | frontend/src/pages/BorrowerForm.jsx:229-235 | a text field passes exactly when it is non-empty and long enough, reporting 'required' for an empty one and the length message otherwise |
| Forms.RequiredAtLeast | frontend/src/pages/BorrowerForm.jsx:252-258 | a number field passes exactly when it is present and at least the minimum, reporting 'required' for a missing one and the minimum message otherwise |
| Forms.ValidateBorrowerForm | frontend/src/pages/BorrowerForm.jsx:229-321 | each field's message is its rule's message, and the date message appears exactly when the date is missing |
| Forms.BorrowerFormAcceptedIff | frontend/src/pages/BorrowerForm.jsx:229-321 | the form is accepted exactly when the name has at least 2 characters, the principal is at least 1, the interest at least 0 and the date is present |
| Forms.DuplicateQuery | frontend/src/pages/BorrowerForm.jsx:47-57 | the duplicate check is skipped exactly for an empty name, a trimmed name shorter than 2, or edit mode, and otherwise queries the trimmed name |
| Forms.DuplicateQueryNeverBadRequest | frontend/src/pages/BorrowerForm.jsx:49-57 | every query the form sends is answered without a bad request |
| Forms.AfterDuplicateCheck | frontend/src/pages/BorrowerForm.jsx:55-66 | a duplicate is recorded exactly when the check ran and the server reported one, with that borrower's id; the check clears it otherwise |
| Forms.DuplicateFlagMeansSameName | frontend/src/pages/BorrowerForm.jsx:47-72 | a recorded duplicate is a live borrower of the owner with the trimmed name ignoring ASCII case |
| Forms.SaveRequest | frontend/src/pages/BorrowerForm.jsx:106-116 | the save request carries the form data |
| Forms.LoanPayloadOf | frontend/src/pages/BorrowerForm.jsx:139-145 | the add-loan payload carries the form's amounts, rate flag, date and notes |
| Forms.SaveRequestReachesController | backend/routes/borrowers.js:17-41 | an edit is a PUT that reaches the update route for that id; a create is a POST that reaches the create route |
| Forms.AddLoanRequestReachesController | backend/routes/borrowers.js:46-55 | the add-to-existing request reaches the add-loan route of the duplicate borrower |
| Forms.OnSubmit | frontend/src/pages/BorrowerForm.jsx:94-104 | submitting sends nothing and opens the duplicate dialog, holding the data, exactly when creating with a recorded duplicate; otherwise it sends the save request |
| Forms.AddToExisting | frontend/src/pages/BorrowerForm.jsx:132-158 | with held data and a duplicate the loan is posted to that borrower and the held data cleared; otherwise nothing happens |
| Forms.CreateSeparate | frontend/src/pages/BorrowerForm.jsx:160-166 | creating separately sends the held data as a save and closes the dialog |
| Forms.CancelDuplicate | frontend/src/pages/BorrowerForm.jsx:168-171 | cancelling closes the dialog and drops the held data |
| Forms.DeferredCreateSendsSameSave | frontend/src/pages/BorrowerForm.jsx:94-166 | choosing 'create separate' sends the save that submitting without a duplicate would have sent |
| Forms.DeferredAddPostsLoanToDuplicate | frontend/src/pages/BorrowerForm.jsx:94-158 | choosing 'add to existing' posts the submitted loan to the duplicate borrower |
| Forms.DeferredCancelSendsNothing | frontend/src/pages/BorrowerForm.jsx:94-171 | cancelling a deferred submit sends nothing and returns to the state before it |
| Forms.LoanInputOf | backend/models/Borrower.js:4-34 | an add-loan payload yields a loan input exactly when its amounts and date are present, which are the loan subschema's required fields checked at save, and passes them on unchanged |
| Forms.AcceptedFormMakesValidLoan | backend/models/Borrower.js:4-34 | an accepted form's loan has the amounts and date the add-loan save requires, and is a valid loan carrying the form's terms and notes |
| Forms.BorrowerInputOf | backend/routes/borrowers.js:17-26 | the create route accepts a body exactly when the name is not blank, both amounts are present and written without an exponent, and the date is present; it passes them on unchanged |
| Forms.AcceptedFormCreatesBorrower | backend/controllers/borrowerController.js:212-247 | an accepted form with a non-blank name passes the create route exactly when both amounts are written without an exponent, and then creates a borrower |
| Forms.ExponentAmountPassesFormOnly | backend/routes/borrowers.js:21 | a principal of 10^21 passes the form, which has no maximum, but the create route answers 400 |
| Forms.BlankNamePassesFormOnly | backend/routes/borrowers.js:20 | a name of two spaces passes the form but not the create route |
| Forms.PatchOf | frontend/src/pages/BorrowerForm.jsx:109-116 | an edit sends every field of the form as the update |
| Forms.AcceptedEditUpdatesBorrower | backend/controllers/borrowerController.js:321-336 | an accepted edit passes the update route exactly when both amounts are written without an exponent; then, for an owned borrower, it succeeds and stores the trimmed name and the form's values |
| Forms.Dispatch | backend/routes/borrowers.js:10-58 | a path reaches the update route only for a PUT with one id segment, and the add-loan route only for a POST to an id's loans; one trailing slash is allowed, and the fixed parts match in any letter case |
| Forms.DispatchIgnoresTrailingSlash | backend/routes/borrowers.js:10-58 | the router is not strict: a path with one trailing slash reaches the route the path without it reaches |
| Forms.DispatchIgnoresPrefixCase | backend/routes/borrowers.js:10-58 | the router is not case-sensitive: the `/borrowers` prefix in any letter case reaches the same route |
| Signup.MatchesEmailIffPattern | frontend/src/pages/Signup.jsx:104-110 | the scan accepts exactly the addresses the pattern matches: a local part of letters, digits and `._%+-`, one '@', a domain of letters, digits, '.' and '-', then a dot and at least two letters |
| Signup.EmailError | frontend/src/pages/Signup.jsx:104-110 | an empty address is 'required', and a non-empty one fails exactly when the pattern does not match it |
| Signup.ConfirmError | frontend/src/pages/Signup.jsx:165-169 | the confirmation passes exactly when it is non-empty and equals the password |
| Signup.SubmitSignup | frontend/src/pages/Signup.jsx:17-35 | a request is sent exactly when no field has a message, and it is the form without the confirmation |
| Signup.SignupAcceptedIff | frontend/src/pages/Signup.jsx:83-169 | sign-up is accepted exactly for a name of at least 2 characters, a matching address, a password of at least 6 and the same password typed twice |
| Signup.PayloadDropsConfirmation | frontend/src/pages/Signup.jsx:20-21 | two accepted forms that differ only in the confirmation send the same request |
| Signup.PlainAddressMatches | frontend/src/pages/Signup.jsx:104-110 | a plain address such as asha@example.com matches |
| Signup.ShortTopLevelFails | frontend/src/pages/Signup.jsx:104-110 | a one-letter top-level domain does not match |
| Signup.PatternHasOneAt | frontend/src/pages/Signup.jsx:104-110 | a matching address has exactly one '@' |
| Signup.SecondAtFails | frontend/src/pages/Signup.jsx:104-110 | an address with two '@' does not match |

## Left out

- Persistence: `find`, `populate`, `save`, `insertMany` and `aggregate` become operations on sequences. A bulk insert that partly fails, and errors of the database itself (the 500 answers), are not modelled.
- Concurrency: the `Promise.all` fan-outs and the unguarded read-modify-write of the add-loan migration are not modelled; each controller runs alone.
- Time zones and daylight saving: `setHours` works in local time; the model uses one zone without daylight saving. Due dates keep only the day of the loan date, not its time of day.
- Clocks, ids and configuration: `new Date()`, fresh ObjectIds and the SMTP configuration become parameters.
- E-mail: the cron schedule, nodemailer transport, the message text and the error logging of the reminder job are I/O.
- The migration script's database connection, console output and `process.exit` are I/O.
- Authentication and authorisation middleware, the routes' wiring beyond the borrower routes and the mark-collected validators, and backend/server.js are not modelled.
- Forms.Dispatch: repeated slashes, percent-decoding of parameters and query strings are not modelled; the form's paths have none of them.
- Collections.MarkCollected: an amount sent as numeral text (which `isNumeric` checks as written and the store then casts) is not modelled; the page sends numbers. A date is given as the instant its ISO 8601 text denotes; an ISO text that names no real date (which the store fails to cast) is not modelled.
- `getBorrower` (a plain lookup for the detail page) is not modelled separately; its lookup is the one `UpdateBorrower` uses.
- Borrowers.CheckDuplicateBorrower: the name is matched as ASCII case-insensitive equality; the source builds a regular expression from the unescaped name, so names holding regex metacharacters can match differently or fail.
- Text lengths count Unicode code points as Dafny characters; JavaScript counts UTF-16 units, so names outside the basic plane can differ in length.
- The browser's own `type="email"` and date-input checks are not modelled; form dates are assumed valid calendar dates.
- The debounce timer of the duplicate check, React state updates and rendering, toasts, navigation, number and date formatting (`Intl.NumberFormat`, date-fns `format`, `toLocaleDateString`) are not modelled.
- A number field left empty is `None`; the NaN that `parseFloat` produces, and its serialisation as null, are folded into that.
- Admin.UpdateUserStatus: the body's `isActive` is a boolean here, as the admin page sends it. The controller checks `!isActive` on the raw body value, which has no route validator, and the store then casts it. So a hand-made request with the string "false" passes the self-deactivation guard and deactivates the acting admin. `Admin.ActorStaysActive` holds only for boolean bodies.
- backend/models/User.js is not part of this model; the `User` datatype holds the fields the admin controller reads.
- frontend/src/pages/AdminDashboard.jsx, Home.jsx, App.jsx, Layout.jsx and DeleteConfirmationModal.jsx are presentation only.

## Findings

| source | as written | input that shows it | evidently intended | confidence | as-written member | corrected member |
|---|---|---|---|---|---|---|
| backend/jobs/reminderJob.js:88-102 | the two-day bucket starts at 23:59:59.999 two days ahead and lasts 24 hours, so it covers the end of day two and almost all of day three | a pending collection due at midnight two days after today gets no two-day reminder, and one due at midnight three days after today does | the bucket holds the collections due on the calendar day two days after today | not executed | Reminders.JobSkipsDayTwo | Reminders.IntendedJobRemindsDayTwo |
| backend/controllers/collectionController.js:211-228 | the aggregate's `$match` compares the stored ObjectId `ownerId` with `req.user.id`, a string (backend/controllers/adminController.js:147 compares it with `user._id.toString()`); aggregation stages are not cast to the schema, so nothing matches and the month's interest total is always 0 | an owner with a collection of 5 received on the first of this month sees a total of 0 | the total is the sum collected on the owner's collections received this month | not executed | Collections.InterestAsWrittenMissesReceived | Collections.InterestThisMonthCountsReceived |

=== FILE: admin.dfy ===
/** The admin controller: users with their counts and online flag, platform statistics,
    activating or deactivating a user, and one user's recent activity. */
module Admin {
  import opened Wrappers
  import opened Calendar
  import opened Model
  import opened Seqs
  import opened Borrowers

  datatype Role = RegularUser | AdminRole

  /** The fields of a user account the controller reads; the password hash is never returned. */
  datatype User = User(id: Id, name: string, email: string, role: Role, isActive: bool,
                       lastLoginAt: Option<Instant>)

  /** Logged in within the last 30 minutes. */
  const ONLINE_WINDOW_MS: int := 30 * MINUTE_MS

  predicate IsOnline(u: User, now: Instant) {
    u.lastLoginAt.Some? && u.lastLoginAt.value > now - ONLINE_WINDOW_MS
  }

  predicate RecentLogin(u: User, now: Instant) {
    u.lastLoginAt.Some? && u.lastLoginAt.value >= now - DAY_MS
  }

  /** An online user is also one of the day's recent logins. */
  lemma OnlineIsRecent(u: User, now: Instant)
    requires IsOnline(u, now)
    ensures RecentLogin(u, now)
  {
    assert ONLINE_WINDOW_MS == 1_800_000 && DAY_MS == 86_400_000;
  }

  function LoginKey(u: User): int {
    match u.lastLoginAt
    case Some(t) => t
    case None => 0
  }

  /** `.sort({lastLoginAt: -1})`: users with a login time newest first, then those without
      (a missing value sorts lowest). */
  function UsersByLastLogin(users: seq<User>): (r: seq<User>)
    ensures multiset(r) == multiset(users)
    ensures forall i, j :: 0 <= i < j < |r| && r[j].lastLoginAt.Some? ==>
      r[i].lastLoginAt.Some? && r[i].lastLoginAt.value >= r[j].lastLoginAt.value
  {
    var seen := Filter(users, (u: User) => u.lastLoginAt.Some?);
    var never := Filter(users, (u: User) => u.lastLoginAt.None?);
    var sorted := SortByDescending(seen, LoginKey);
    SplitMultiset(users, seen, never);
    SameElements(sorted, seen);
    LoginOrder(sorted, never);
    sorted + never
  }

  lemma SplitMultiset(users: seq<User>, seen: seq<User>, never: seq<User>)
    requires seen == Filter(users, (u: User) => u.lastLoginAt.Some?)
    requires never == Filter(users, (u: User) => u.lastLoginAt.None?)
    ensures multiset(seen) + multiset(never) == multiset(users)
  {
    forall u ensures (multiset(seen) + multiset(never))[u] == multiset(users)[u] {
      FilterMultiset(users, (u: User) => u.lastLoginAt.Some?, u);
      FilterMultiset(users, (u: User) => u.lastLoginAt.None?, u);
    }
  }

  lemma LoginOrder(sorted: seq<User>, never: seq<User>)
    requires forall u :: u in sorted ==> u.lastLoginAt.Some?
    requires forall i, j :: 0 <= i < j < |sorted| ==> LoginKey(sorted[i]) >= LoginKey(sorted[j])
    requires forall u :: u in never ==> u.lastLoginAt.None?
    ensures var r := sorted + never;
      forall i, j :: 0 <= i < j < |r| && r[j].lastLoginAt.Some? ==>
        r[i].lastLoginAt.Some? && r[i].lastLoginAt.value >= r[j].lastLoginAt.value
  {
    var r := sorted + never;
    forall i, j | 0 <= i < j < |r| && r[j].lastLoginAt.Some?
      ensures r[i].lastLoginAt.Some? && r[i].lastLoginAt.value >= r[j].lastLoginAt.value
    {
      if j < |sorted| {
        assert r[i] == sorted[i] && r[j] == sorted[j];
        assert sorted[i] in sorted;
      }
    }
  }

  datatype UserRow = UserRow(user: User, borrowerCount: nat, collectionCount: nat,
                             pendingCollections: nat, isOnline: bool)

  /** The per-user counts: live borrowers, all collections, pending collections. */
  function RowOf(s: Store, u: User, now: Instant): (row: UserRow)
    ensures row.user == u
    ensures row.borrowerCount == Count(s.borrowers, (b: Borrower) => b.ownerId == u.id && !b.deleted)
    ensures row.collectionCount == Count(s.collections, (c: Collection) => c.ownerId == u.id)
    ensures row.pendingCollections ==
      Count(s.collections, (c: Collection) => c.ownerId == u.id && c.status == Pending)
    ensures row.pendingCollections <= row.collectionCount
    ensures row.isOnline <==> IsOnline(u, now)
  {
    var owned := (c: Collection) => c.ownerId == u.id;
    var pending := (c: Collection) => c.ownerId == u.id && c.status == Pending;
    NarrowerCount(s.collections, pending, owned);
    UserRow(u,
            Count(s.borrowers, (b: Borrower) => b.ownerId == u.id && !b.deleted),
            Count(s.collections, owned),
            Count(s.collections, pending),
            IsOnline(u, now))
  }

  /** A filter whose matches all match a second one counts no more than the second. */
  lemma {:induction false} NarrowerCount<T(!new)>(s: seq<T>, p: T -> bool, q: T -> bool)
    requires forall x :: p(x) ==> q(x)
    ensures Count(s, p) <= Count(s, q)
  {
    if s != [] {
      assert s == [s[0]] + s[1..];
      NarrowerCount(s[1..], p, q);
    }
  }

  /** Two filters that never both match count no more than the whole sequence together. */
  lemma {:induction false} DisjointCounts<T(!new)>(s: seq<T>, p: T -> bool, q: T -> bool)
    requires forall x :: !(p(x) && q(x))
    ensures Count(s, p) + Count(s, q) <= |s|
  {
    if s != [] {
      assert s == [s[0]] + s[1..];
      DisjointCounts(s[1..], p, q);
    }
  }

  /** `getAllUsers`: every user, most recent login first, each with its counts. */
  function GetAllUsers(users: seq<User>, s: Store, now: Instant): (rows: seq<UserRow>)
    ensures |rows| == |users|
    ensures forall k :: 0 <= k < |rows| ==> rows[k] == RowOf(s, UsersByLastLogin(users)[k], now)
  {
    var ordered := UsersByLastLogin(users);
    assert |ordered| == |multiset(ordered)| == |multiset(users)| == |users|;
    seq(|ordered|, k requires 0 <= k < |ordered| => RowOf(s, ordered[k], now))
  }

  datatype Stats = Stats(
    totalUsers: nat, activeUsers: nat, adminUsers: nat, recentLogins: nat,
    totalBorrowers: nat,
    totalCollections: nat, pendingCollections: nat, receivedCollections: nat,
    totalAmountCollected: real)

  predicate IsPending(c: Collection) { c.status == Pending }
  predicate IsReceived(c: Collection) { c.status == Received }

  /** `getDashboardStats`: platform-wide counts, across every owner. */
  function GetDashboardStats(users: seq<User>, s: Store, now: Instant): (r: Stats)
    ensures r.totalUsers == |users|
    ensures r.activeUsers == Count(users, (u: User) => u.isActive)
    ensures r.adminUsers == Count(users, (u: User) => u.role == AdminRole)
    ensures r.recentLogins == Count(users, (u: User) => RecentLogin(u, now))
    ensures r.totalBorrowers == Count(s.borrowers, (b: Borrower) => !b.deleted)
    ensures r.totalCollections == |s.collections|
    ensures r.pendingCollections == Count(s.collections, IsPending)
    ensures r.receivedCollections == Count(s.collections, IsReceived)
    ensures r.pendingCollections + r.receivedCollections <= r.totalCollections
    ensures r.recentLogins >= Count(users, (u: User) => IsOnline(u, now))
    ensures r.totalAmountCollected == Sum(Filter(s.collections, IsReceived), (c: Collection) => c.amountCollected)
    ensures StoreValid(s) ==> r.totalAmountCollected >= 0.0
  {
    var received := Filter(s.collections, IsReceived);
    DisjointCounts(s.collections, IsPending, IsReceived);
    var online := (u: User) => IsOnline(u, now);
    var recent := (u: User) => RecentLogin(u, now);
    assert forall u :: online(u) ==> recent(u) by {
      forall u | online(u) ensures recent(u) { OnlineIsRecent(u, now); }
    }
    NarrowerCount(users, online, recent);
    var total := Sum(received, (c: Collection) => c.amountCollected);
    if StoreValid(s) then
      FilterMembers(s.collections, IsReceived);
      ReceivedNonNegative(s, received);
      Stats(|users|, Count(users, (u: User) => u.isActive), Count(users, (u: User) => u.role == AdminRole),
            Count(users, recent), Count(s.borrowers, (b: Borrower) => !b.deleted),
            |s.collections|, Count(s.collections, IsPending), Count(s.collections, IsReceived), total)
    else
      Stats(|users|, Count(users, (u: User) => u.isActive), Count(users, (u: User) => u.role == AdminRole),
            Count(users, recent), Count(s.borrowers, (b: Borrower) => !b.deleted),
            |s.collections|, Count(s.collections, IsPending), Count(s.collections, IsReceived), total)
  }

  lemma ReceivedNonNegative(s: Store, received: seq<Collection>)
    requires StoreValid(s)
    requires forall c :: c in received ==> c in s.collections
    ensures Sum(received, (c: Collection) => c.amountCollected) >= 0.0
  {
    forall k | 0 <= k < |received| ensures received[k].amountCollected >= 0.0 {
      assert received[k] in received;
      var j :| 0 <= j < |s.collections| && s.collections[j] == received[k];
      assert CollectionValid(s.collections[j]);
    }
    SumNonNegative(received, (c: Collection) => c.amountCollected);
  }

  /** `findById` on users: the index of the first user with the id. */
  function FindUser(users: seq<User>, id: Id): (r: Option<nat>)
    ensures r.Some? ==> r.value < |users| && users[r.value].id == id
    ensures r.None? <==> forall k :: 0 <= k < |users| ==> users[k].id != id
  {
    if users == [] then None
    else if users[0].id == id then Some(0)
    else
      match FindUser(users[1..], id)
      case None => None
      case Some(k) => Some(k + 1)
  }

  /** `updateUserStatus`: set the user's active flag; an admin may not deactivate themselves. */
  function UpdateUserStatus(users: seq<User>, actorId: Id, userId: Id, isActive: bool)
    : (r: Result<seq<User>>)
    ensures FindUser(users, userId).None? <==> r == Err(NotFound)
    ensures r == Err(BadRequest) <==>
      FindUser(users, userId).Some? && userId == actorId && !isActive
    ensures r.Ok? ==>
      var i := FindUser(users, userId).value;
      r.value == users[i := users[i].(isActive := isActive)]
  {
    match FindUser(users, userId)
    case None => Err(NotFound)
    case Some(i) =>
      if users[i].id == actorId && !isActive then Err(BadRequest)
      else Ok(users[i := users[i].(isActive := isActive)])
  }

  /** No status change leaves the acting admin inactive when they were active. */
  lemma ActorStaysActive(users: seq<User>, actorId: Id, userId: Id, isActive: bool, k: nat)
    requires UpdateUserStatus(users, actorId, userId, isActive).Ok?
    requires k < |users| && users[k].id == actorId && users[k].isActive
    ensures UpdateUserStatus(users, actorId, userId, isActive).value[k].isActive
  {
  }

  datatype Activity = Activity(user: User, recentBorrowers: seq<Borrower>, recentCollections: seq<Collection>)

  const RECENT_BORROWERS: nat := 5
  const RECENT_COLLECTIONS: nat := 10

  /** The user's five newest live borrowers: the head of the borrower listing. */
  function RecentBorrowers(s: Store, userId: Id): (r: seq<Borrower>)
    ensures |r| <= RECENT_BORROWERS
    ensures forall b :: b in r ==> b in s.borrowers && b.ownerId == userId && !b.deleted
    ensures forall i, j :: 0 <= i < j < |r| ==> r[i].createdAt >= r[j].createdAt
    ensures |r| <= |LiveBorrowers(s, userId)|
    ensures forall k :: 0 <= k < |r| ==> r[k] == LiveBorrowers(s, userId)[k]
    ensures |r| == RECENT_BORROWERS || r == LiveBorrowers(s, userId)
  {
    var live := LiveBorrowers(s, userId);
    var r := Take(live, RECENT_BORROWERS);
    assert forall k :: 0 <= k < |r| ==> r[k] == live[k];
    assert forall b :: b in r ==> b in live;
    r
  }

  /** The user's ten most recently updated collections: drawn from the user's collections, no
      copy more than stored, newest first, and none left out updated later than one shown. */
  function RecentCollections(s: Store, userId: Id): (r: seq<Collection>)
    ensures GreatestBy(r, Filter(s.collections, (c: Collection) => c.ownerId == userId),
                       RECENT_COLLECTIONS, (c: Collection) => c.updatedAt)
    ensures forall c :: c in r ==> c in s.collections && c.ownerId == userId
  {
    var owned := Filter(s.collections, (c: Collection) => c.ownerId == userId);
    FilterMembers(s.collections, (c: Collection) => c.ownerId == userId);
    var sorted := SortByDescending(owned, (c: Collection) => c.updatedAt);
    SameElements(sorted, owned);
    var r := Take(sorted, RECENT_COLLECTIONS);
    TakeDescendingIsGreatest(owned, RECENT_COLLECTIONS, (c: Collection) => c.updatedAt);
    assert forall c :: c in r ==> c in sorted;
    r
  }

  /** `getUserActivity`: NotFound for an unknown user, otherwise the user with their recent
      borrowers and collections. */
  function GetUserActivity(users: seq<User>, s: Store, userId: Id): (r: Result<Activity>)
    ensures FindUser(users, userId).None? <==> r == Err(NotFound)
    ensures r.Err? ==> r.error == NotFound
    ensures r.Ok? ==>
      && r.value.user.id == userId
      && r.value.recentBorrowers == RecentBorrowers(s, userId)
      && r.value.recentCollections == RecentCollections(s, userId)
  {
    match FindUser(users, userId)
    case None => Err(NotFound)
    case Some(i) => Ok(Activity(users[i], RecentBorrowers(s, userId), RecentCollections(s, userId)))
  }
}

=== FILE: borrowers.dfy ===
/** The borrower controller: create a legacy-shaped borrower, add a loan (migrating the legacy
    loan into the list on first use), update, soft-delete, duplicate-name check, listing with
    the next due date, and a borrower's collections. */
module Borrowers {
  import opened Wrappers
  import opened Calendar
  import opened Model
  import opened Schedule
  import opened Text
  import opened Seqs

  /** Every stored document passes its schema. */
  predicate StoreValid(s: Store) {
    && (forall k :: 0 <= k < |s.borrowers| ==> BorrowerValid(s.borrowers[k]) && s.borrowers[k].id != "")
    && (forall k :: 0 <= k < |s.collections| ==> CollectionValid(s.collections[k]))
  }

  /** A store extended or updated with valid documents stays valid. */
  lemma StoreValidAfter(s: Store, bs: seq<Borrower>, added: seq<Collection>)
    requires StoreValid(s)
    requires forall k :: 0 <= k < |bs| ==> BorrowerValid(bs[k]) && bs[k].id != ""
    requires forall k :: 0 <= k < |added| ==> CollectionValid(added[k])
    ensures StoreValid(Store(bs, s.collections + added))
  {
    var cs := s.collections + added;
    forall k | 0 <= k < |cs| ensures CollectionValid(cs[k]) {
      if k >= |s.collections| {
        assert cs[k] == added[k - |s.collections|];
      }
    }
  }

  /** The generated schedule passes the collection schema when borrower and owner are set. */
  lemma ScheduleValid(borrowerId: Id, ownerId: Id, start: Date, loanId: Option<Id>,
                      ids: seq<Id>, now: Instant)
    requires ValidDate(start) && |ids| == DEFAULT_MONTHS
    requires borrowerId != "" && ownerId != ""
    ensures var r := GenerateMonthlyCollections(borrowerId, ownerId, start, DEFAULT_MONTHS, loanId, ids, now);
      forall k :: 0 <= k < |r| ==> CollectionValid(r[k])
  {
  }

  /** `generateMonthlyCollections(borrower)` as borrower creation calls it: the default twelve
      months and a null loan id. */
  function LegacySchedule(borrowerId: Id, ownerId: Id, start: Date, ids: seq<Id>, now: Instant)
    : seq<Collection>
    requires ValidDate(start) && |ids| == DEFAULT_MONTHS
  {
    GenerateMonthlyCollections(borrowerId, ownerId, start, DEFAULT_MONTHS, None, ids, now)
  }

  /** The body of `POST /borrowers`, after the route's validators ran. */
  datatype BorrowerInput = BorrowerInput(
    borrowerName: string,
    principalAmount: real,
    interestAmount: real,
    interestIsPercent: Option<bool>,
    dateProvided: Date,
    notes: Option<string>)

  /** A new borrower with the schema defaults: the loan in the legacy fields, an empty loan
      list, not a percentage unless said so, empty notes, not deleted. */
  function NewBorrower(borrowerId: Id, ownerId: Id, input: BorrowerInput, now: Instant): (b: Borrower)
    requires Trim(input.borrowerName) != ""
    requires ValidDate(input.dateProvided)
    ensures b.id == borrowerId && b.ownerId == ownerId && b.borrowerName == Trim(input.borrowerName)
    ensures b.loans == [] && !b.deleted && b.createdAt == now
    ensures b.principalAmount == Some(input.principalAmount)
    ensures b.interestAmount == Some(input.interestAmount)
    ensures b.interestIsPercent <==> input.interestIsPercent == Some(true)
    ensures b.dateProvided == Some(input.dateProvided)
    ensures b.notes == (if input.notes.Some? then input.notes.value else "")
    ensures BorrowerValid(b) <==> ownerId != "" && input.principalAmount >= 0.0 && input.interestAmount >= 0.0
  {
    Borrower(borrowerId, ownerId, Trim(input.borrowerName), [],
             Some(input.principalAmount), Some(input.interestAmount),
             match input.interestIsPercent { case Some(p) => p case None => false },
             Some(input.dateProvided),
             match input.notes { case Some(n) => n case None => "" },
             false, now)
  }

  /** `createBorrower`: a borrower holding its loan in the legacy fields, and twelve collections
      with a null loan id. The route trims the name and requires it non-empty and the date valid;
      `borrowerId`, `now` and `collectionIds` are what the store assigns. */
  function CreateBorrower(s: Store, ownerId: Id, input: BorrowerInput, borrowerId: Id,
                          now: Instant, collectionIds: seq<Id>): (r: Result<Store>)
    requires Trim(input.borrowerName) != ""
    requires ValidDate(input.dateProvided)
    requires |collectionIds| == DEFAULT_MONTHS
    requires borrowerId != ""
    ensures r.Ok? <==> ownerId != "" && input.principalAmount >= 0.0 && input.interestAmount >= 0.0
    ensures r.Err? ==> r.error == Invalid
    ensures r.Ok? ==> r.value.borrowers == s.borrowers + [NewBorrower(borrowerId, ownerId, input, now)]
    ensures r.Ok? ==>
      r.value.collections == s.collections +
        LegacySchedule(borrowerId, ownerId, input.dateProvided, collectionIds, now)
  {
    var b := NewBorrower(borrowerId, ownerId, input, now);
    var generated := LegacySchedule(borrowerId, ownerId, input.dateProvided, collectionIds, now);
    match SaveBorrower(b)
    case Err(e) => Err(e)
    case Ok(saved) => Ok(Store(s.borrowers + [saved], s.collections + generated))
  }

  /** Creating a borrower keeps a valid store valid. */
  lemma CreateBorrowerKeepsValid(s: Store, ownerId: Id, input: BorrowerInput, borrowerId: Id,
                                 now: Instant, collectionIds: seq<Id>)
    requires Trim(input.borrowerName) != ""
    requires ValidDate(input.dateProvided)
    requires |collectionIds| == DEFAULT_MONTHS
    requires borrowerId != ""
    requires StoreValid(s)
    ensures var r := CreateBorrower(s, ownerId, input, borrowerId, now, collectionIds);
      r.Ok? ==> StoreValid(r.value)
  {
    var r := CreateBorrower(s, ownerId, input, borrowerId, now, collectionIds);
    if r.Ok? {
      var b := NewBorrower(borrowerId, ownerId, input, now);
      var generated := LegacySchedule(borrowerId, ownerId, input.dateProvided, collectionIds, now);
      ScheduleValid(borrowerId, ownerId, input.dateProvided, None, collectionIds, now);
      StoreValidAppend(s, b, generated);
    }
  }

  /** A valid store extended by one valid borrower and valid collections stays valid. */
  lemma StoreValidAppend(s: Store, b: Borrower, added: seq<Collection>)
    requires StoreValid(s)
    requires BorrowerValid(b) && b.id != ""
    requires forall k :: 0 <= k < |added| ==> CollectionValid(added[k])
    ensures StoreValid(Store(s.borrowers + [b], s.collections + added))
  {
    var bs := s.borrowers + [b];
    forall k | 0 <= k < |bs| ensures BorrowerValid(bs[k]) && bs[k].id != "" {
      if k < |s.borrowers| { assert bs[k] == s.borrowers[k]; }
    }
    StoreValidAfter(s, bs, added);
  }

  /** A valid store whose borrower `i` is replaced by a valid one, extended by valid
      collections, stays valid. */
  lemma StoreValidReplace(s: Store, i: nat, b: Borrower, added: seq<Collection>)
    requires StoreValid(s) && i < |s.borrowers|
    requires BorrowerValid(b) && b.id != ""
    requires forall k :: 0 <= k < |added| ==> CollectionValid(added[k])
    ensures StoreValid(Store(s.borrowers[i := b], s.collections + added))
  {
    var bs := s.borrowers[i := b];
    forall k | 0 <= k < |bs| ensures BorrowerValid(bs[k]) && bs[k].id != "" {
      if k != i { assert bs[k] == s.borrowers[k]; }
    }
    StoreValidAfter(s, bs, added);
  }

  // ----- adding a loan -----

  /** The lazy migration runs when the legacy principal is truthy, the legacy date is set and
      the loan list is still empty. */
  predicate NeedsMigration(b: Borrower) {
    HasLegacyPrincipal(b) && b.dateProvided.Some? && b.loans == []
  }

  /** The legacy loan moved into the list (active), and the legacy fields cleared. A legacy loan
      without an interest amount cannot be stored as a list entry, whose interest is required. */
  function Migrate(b: Borrower, loanId: Id): (r: Result<Borrower>)
    requires NeedsMigration(b)
    ensures r.Ok? <==> b.interestAmount.Some?
    ensures r.Err? ==> r.error == Invalid
    ensures r.Ok? ==> var m := r.value;
      && |m.loans| == 1
      && m.loans[0] == Loan(loanId, b.principalAmount.value, b.interestAmount.value,
                            b.interestIsPercent, b.dateProvided.value, b.notes, Active)
      && m.principalAmount.None? && m.interestAmount.None? && m.dateProvided.None?
      && !m.interestIsPercent && m.notes == ""
      && m.id == b.id && m.ownerId == b.ownerId && m.borrowerName == b.borrowerName
      && m.deleted == b.deleted && m.createdAt == b.createdAt
    ensures r.Ok? && BorrowerValid(b) ==> BorrowerValid(r.value)
  {
    match b.interestAmount
    case None => Err(Invalid)
    case Some(interest) =>
      var legacy := Loan(loanId, b.principalAmount.value, interest, b.interestIsPercent,
                         b.dateProvided.value, b.notes, Active);
      Ok(b.(loans := [legacy], principalAmount := None, interestAmount := None,
            interestIsPercent := false, dateProvided := None, notes := ""))
  }

  /** Appending a loan to a valid borrower gives a valid borrower exactly when the loan is valid. */
  lemma AppendLoanValid(b: Borrower, l: Loan)
    requires BorrowerValid(b)
    ensures BorrowerValid(b.(loans := b.loans + [l])) <==> LoanValid(l)
  {
    var loans := b.loans + [l];
    assert loans[|b.loans|] == l;
    assert forall k :: 0 <= k < |b.loans| ==> loans[k] == b.loans[k];
  }

  /** The borrower document after `addLoanToBorrower`, the loan appended, and whether the
      legacy loan was migrated. */
  datatype LoanAdded = LoanAdded(borrower: Borrower, newLoan: Loan, migrated: bool)

  /** The document part of `addLoanToBorrower`: migrate the legacy loan if needed, append the
      new loan (status active, schema defaults) last, and save. Nothing else of the document
      changes; the earlier loans stay in place. */
  function AddLoanToDocument(b: Borrower, input: LoanInput, migratedLoanId: Id, newLoanId: Id)
    : (r: Result<LoanAdded>)
    requires BorrowerValid(b) && ValidDate(input.dateProvided)
    ensures r.Ok? <==> (NeedsMigration(b) ==> b.interestAmount.Some?)
                       && input.principalAmount >= 0.0 && input.interestAmount >= 0.0
    ensures r.Err? ==> r.error == Invalid
    ensures r.Ok? ==>
      var b' := r.value.borrower;
      && (r.value.migrated <==> NeedsMigration(b))
      && |b'.loans| == |b.loans| + (if r.value.migrated then 2 else 1)
      && b'.loans[|b'.loans| - 1] == r.value.newLoan
      && r.value.newLoan == NewLoan(newLoanId, input)
      && (!r.value.migrated ==> b' == b.(loans := b.loans + [r.value.newLoan]))
      && (r.value.migrated ==>
            && Migrate(b, migratedLoanId).Ok?
            && var m := Migrate(b, migratedLoanId).value;
               b' == m.(loans := m.loans + [r.value.newLoan]))
      && !NeedsMigration(b')
      && b'.id == b.id && b'.ownerId == b.ownerId && b'.borrowerName == b.borrowerName
      && b'.deleted == b.deleted
      && BorrowerValid(b')
  {
    var migrated := NeedsMigration(b);
    var base :- if migrated then Migrate(b, migratedLoanId) else Ok(b);
    var newLoan := NewLoan(newLoanId, input);
    AppendLoanValid(base, newLoan);
    var saved :- SaveBorrower(base.(loans := base.loans + [newLoan]));
    Ok(LoanAdded(saved, newLoan, migrated))
  }

  datatype AddLoanOutcome = AddLoanOutcome(store: Store, newLoan: Loan, migrated: bool)

  /** `addLoanToBorrower`: look the owner's undeleted borrower up, update its document (see
      `AddLoanToDocument`) and schedule twelve collections for the new loan, under the new
      loan's id and from its own date. No other borrower changes. `migratedLoanId`,
      `newLoanId`, `now` and `collectionIds` are what the store assigns. */
  function AddLoanToBorrower(s: Store, ownerId: Id, borrowerId: Id, input: LoanInput,
                             migratedLoanId: Id, newLoanId: Id, now: Instant,
                             collectionIds: seq<Id>): (r: Result<AddLoanOutcome>)
    requires ValidDate(input.dateProvided)
    requires |collectionIds| == DEFAULT_MONTHS
    requires StoreValid(s)
    ensures FindOwnedBorrower(s.borrowers, ownerId, borrowerId).None? ==> r == Err(NotFound)
    ensures FindOwnedBorrower(s.borrowers, ownerId, borrowerId).Some? ==>
      var b := s.borrowers[FindOwnedBorrower(s.borrowers, ownerId, borrowerId).value];
      (r.Ok? <==> (NeedsMigration(b) ==> b.interestAmount.Some?)
                  && input.principalAmount >= 0.0 && input.interestAmount >= 0.0)
    ensures r.Err? ==> r.error in {NotFound, Invalid}
    ensures r.Ok? ==>
      var i := FindOwnedBorrower(s.borrowers, ownerId, borrowerId).value;
      var b := s.borrowers[i];
      var added := AddLoanToDocument(b, input, migratedLoanId, newLoanId).value;
      && r.value.store.borrowers == s.borrowers[i := added.borrower]
      && r.value.newLoan == added.newLoan && r.value.migrated == added.migrated
      && r.value.store.collections == s.collections +
           GenerateMonthlyCollections(b.id, b.ownerId, input.dateProvided, DEFAULT_MONTHS,
                                      Some(newLoanId), collectionIds, now)
    ensures r.Ok? ==> StoreValid(r.value.store)
  {
    match FindOwnedBorrower(s.borrowers, ownerId, borrowerId)
    case None => Err(NotFound)
    case Some(i) =>
      var b := s.borrowers[i];
      var added :- AddLoanToDocument(b, input, migratedLoanId, newLoanId);
      var generated := GenerateMonthlyCollections(b.id, b.ownerId, input.dateProvided,
                                                  DEFAULT_MONTHS, Some(newLoanId), collectionIds, now);
      ScheduleValid(b.id, b.ownerId, input.dateProvided, Some(newLoanId), collectionIds, now);
      StoreValidReplace(s, i, added.borrower, generated);
      Ok(AddLoanOutcome(Store(s.borrowers[i := added.borrower], s.collections + generated),
                        added.newLoan, added.migrated))
  }

  /** Adding two loans to a legacy borrower migrates once: the list ends with the migrated loan
      and the two new ones, and the legacy fields stay cleared. */
  lemma MigrationRunsOnce(s: Store, ownerId: Id, borrowerId: Id, first: LoanInput, second: LoanInput,
                          m1: Id, n1: Id, m2: Id, n2: Id, now: Instant, ids1: seq<Id>, ids2: seq<Id>)
    requires ValidDate(first.dateProvided) && ValidDate(second.dateProvided)
    requires |ids1| == DEFAULT_MONTHS && |ids2| == DEFAULT_MONTHS
    requires StoreValid(s)
    requires FindOwnedBorrower(s.borrowers, ownerId, borrowerId).Some?
    requires NeedsMigration(s.borrowers[FindOwnedBorrower(s.borrowers, ownerId, borrowerId).value])
    requires AddLoanToBorrower(s, ownerId, borrowerId, first, m1, n1, now, ids1).Ok?
    ensures var s1 := AddLoanToBorrower(s, ownerId, borrowerId, first, m1, n1, now, ids1).value.store;
      var r2 := AddLoanToBorrower(s1, ownerId, borrowerId, second, m2, n2, now, ids2);
      r2.Ok? ==>
        var i := FindOwnedBorrower(s.borrowers, ownerId, borrowerId).value;
        var b := r2.value.store.borrowers[i];
        && !r2.value.migrated && |b.loans| == 3
        && b.loans[1] == NewLoan(n1, first) && b.loans[2] == NewLoan(n2, second)
        && b.principalAmount.None? && b.dateProvided.None?
  {
    var i := FindOwnedBorrower(s.borrowers, ownerId, borrowerId).value;
    var s1 := AddLoanToBorrower(s, ownerId, borrowerId, first, m1, n1, now, ids1).value.store;
    var b1 := s1.borrowers[i];
    FindOwnedAfterReplace(s.borrowers, ownerId, borrowerId, i, b1);
  }

  /** Replacing the found borrower by one with the same id, owner and deleted flag leaves the
      lookup where it was. */
  lemma FindOwnedAfterReplace(bs: seq<Borrower>, ownerId: Id, id: Id, i: nat, b: Borrower)
    requires FindOwnedBorrower(bs, ownerId, id) == Some(i)
    requires b.id == bs[i].id && b.ownerId == bs[i].ownerId && b.deleted == bs[i].deleted
    ensures FindOwnedBorrower(bs[i := b], ownerId, id) == Some(i)
  {
    if i > 0 {
      assert bs[i := b][1..] == bs[1..][i - 1 := b];
      FindOwnedAfterReplace(bs[1..], ownerId, id, i - 1, b);
    }
  }

  // ----- update and soft delete -----

  /** The whitelisted fields of `PUT /borrowers/:id`; `None` means the field was not sent. */
  datatype BorrowerPatch = BorrowerPatch(
    borrowerName: Option<string>,
    principalAmount: Option<real>,
    interestAmount: Option<real>,
    interestIsPercent: Option<bool>,
    dateProvided: Option<Date>,
    notes: Option<string>)

  function Patched<T>(sent: Option<T>, current: T): T {
    match sent
    case Some(v) => v
    case None => current
  }

  /** The same for a field that may itself be unset: a sent value replaces it. */
  function PatchedOptional<T>(sent: Option<T>, current: Option<T>): Option<T> {
    if sent.Some? then sent else current
  }

  function TrimmedName(sent: Option<string>): Option<string> {
    match sent
    case Some(n) => Some(Trim(n))
    case None => None
  }

  /** The whitelisted copy: each sent field overwrites the stored one (a sent name trimmed);
      everything else, the loan list included, is kept. */
  function ApplyPatch(b: Borrower, patch: BorrowerPatch): (b': Borrower)
    ensures b'.loans == b.loans && b'.id == b.id && b'.ownerId == b.ownerId
    ensures b'.deleted == b.deleted && b'.createdAt == b.createdAt
    ensures b'.borrowerName == (if patch.borrowerName.Some? then Trim(patch.borrowerName.value) else b.borrowerName)
    ensures patch.principalAmount.Some? ==> b'.principalAmount == patch.principalAmount
    ensures patch.principalAmount.None? ==> b'.principalAmount == b.principalAmount
    ensures patch.interestAmount.Some? ==> b'.interestAmount == patch.interestAmount
    ensures patch.interestAmount.None? ==> b'.interestAmount == b.interestAmount
    ensures patch.interestIsPercent.Some? ==> b'.interestIsPercent == patch.interestIsPercent.value
    ensures patch.interestIsPercent.None? ==> b'.interestIsPercent == b.interestIsPercent
    ensures patch.dateProvided.Some? ==> b'.dateProvided == patch.dateProvided
    ensures patch.dateProvided.None? ==> b'.dateProvided == b.dateProvided
    ensures patch.notes.Some? ==> b'.notes == patch.notes.value
    ensures patch.notes.None? ==> b'.notes == b.notes
  {
    b.(borrowerName := Patched(TrimmedName(patch.borrowerName), b.borrowerName),
       principalAmount := PatchedOptional(patch.principalAmount, b.principalAmount),
       interestAmount := PatchedOptional(patch.interestAmount, b.interestAmount),
       interestIsPercent := Patched(patch.interestIsPercent, b.interestIsPercent),
       dateProvided := PatchedOptional(patch.dateProvided, b.dateProvided),
       notes := Patched(patch.notes, b.notes))
  }

  /** A patch keeps a valid borrower valid exactly when the amounts it sends are at least 0. */
  lemma ApplyPatchValid(b: Borrower, patch: BorrowerPatch)
    requires BorrowerValid(b)
    requires patch.borrowerName.Some? ==> Trim(patch.borrowerName.value) != ""
    requires patch.dateProvided.Some? ==> ValidDate(patch.dateProvided.value)
    ensures BorrowerValid(ApplyPatch(b, patch)) <==>
      OptionalAtLeastZero(patch.principalAmount) && OptionalAtLeastZero(patch.interestAmount)
  {
  }

  /** `updateBorrower`: overwrite exactly the sent whitelisted fields of the owner's undeleted
      borrower; the route trims a sent name and requires it non-empty. */
  function UpdateBorrower(s: Store, ownerId: Id, id: Id, patch: BorrowerPatch): (r: Result<Store>)
    requires patch.borrowerName.Some? ==> Trim(patch.borrowerName.value) != ""
    requires patch.dateProvided.Some? ==> ValidDate(patch.dateProvided.value)
    requires StoreValid(s)
    ensures FindOwnedBorrower(s.borrowers, ownerId, id).None? ==> r == Err(NotFound)
    ensures FindOwnedBorrower(s.borrowers, ownerId, id).Some? ==>
      (r.Ok? <==> OptionalAtLeastZero(patch.principalAmount) && OptionalAtLeastZero(patch.interestAmount))
    ensures r.Err? ==> r.error in {NotFound, Invalid}
    ensures r.Ok? ==>
      var i := FindOwnedBorrower(s.borrowers, ownerId, id).value;
      && r.value.collections == s.collections
      && r.value.borrowers == s.borrowers[i := ApplyPatch(s.borrowers[i], patch)]
  {
    match FindOwnedBorrower(s.borrowers, ownerId, id)
    case None => Err(NotFound)
    case Some(i) =>
      var b := s.borrowers[i];
      ApplyPatchValid(b, patch);
      var saved :- SaveBorrower(ApplyPatch(b, patch));
      Ok(s.(borrowers := s.borrowers[i := saved]))
  }

  /** An update of the owner's borrower with non-negative amounts replaces that borrower by its
      patched copy and changes nothing else. */
  lemma UpdateFoundBorrower(s: Store, ownerId: Id, id: Id, patch: BorrowerPatch, i: nat)
    requires patch.borrowerName.Some? ==> Trim(patch.borrowerName.value) != ""
    requires patch.dateProvided.Some? ==> ValidDate(patch.dateProvided.value)
    requires StoreValid(s)
    requires FindOwnedBorrower(s.borrowers, ownerId, id) == Some(i)
    requires OptionalAtLeastZero(patch.principalAmount) && OptionalAtLeastZero(patch.interestAmount)
    ensures UpdateBorrower(s, ownerId, id, patch) ==
      Ok(Store(s.borrowers[i := ApplyPatch(s.borrowers[i], patch)], s.collections))
  {
  }

  /** An update keeps a valid store valid. */
  lemma UpdateBorrowerKeepsValid(s: Store, ownerId: Id, id: Id, patch: BorrowerPatch)
    requires patch.borrowerName.Some? ==> Trim(patch.borrowerName.value) != ""
    requires patch.dateProvided.Some? ==> ValidDate(patch.dateProvided.value)
    requires StoreValid(s)
    ensures var r := UpdateBorrower(s, ownerId, id, patch);
      r.Ok? ==> StoreValid(r.value)
  {
    var r := UpdateBorrower(s, ownerId, id, patch);
    if r.Ok? {
      var i := FindOwnedBorrower(s.borrowers, ownerId, id).value;
      ApplyPatchValid(s.borrowers[i], patch);
      StoreValidAfter(s, r.value.borrowers, []);
      assert s.collections + [] == s.collections;
    }
  }

  /** `deleteBorrower`: sets the deleted flag and nothing else; collections are kept. */
  function DeleteBorrower(s: Store, ownerId: Id, id: Id): (r: Result<Store>)
    ensures FindOwnedBorrower(s.borrowers, ownerId, id).None? <==> r == Err(NotFound)
    ensures r.Err? ==> r.error == NotFound
    ensures r.Ok? ==>
      var i := FindOwnedBorrower(s.borrowers, ownerId, id).value;
      && r.value.collections == s.collections
      && r.value.borrowers == s.borrowers[i := s.borrowers[i].(deleted := true)]
  {
    match FindOwnedBorrower(s.borrowers, ownerId, id)
    case None => Err(NotFound)
    case Some(i) => Ok(s.(borrowers := s.borrowers[i := s.borrowers[i].(deleted := true)]))
  }

  /** After a delete no owned, undeleted borrower with that id is left, so a second delete
      answers NotFound, provided ids are unique. */
  lemma DeleteTwiceIsNotFound(s: Store, ownerId: Id, id: Id)
    requires forall j, k :: 0 <= j < k < |s.borrowers| ==> s.borrowers[j].id != s.borrowers[k].id
    requires DeleteBorrower(s, ownerId, id).Ok?
    ensures DeleteBorrower(DeleteBorrower(s, ownerId, id).value, ownerId, id) == Err(NotFound)
  {
    var i := FindOwnedBorrower(s.borrowers, ownerId, id).value;
    var bs := DeleteBorrower(s, ownerId, id).value.borrowers;
    forall k | 0 <= k < |bs|
      ensures !(bs[k].id == id && bs[k].ownerId == ownerId && !bs[k].deleted)
    {
      if k != i {
        assert s.borrowers[k].id != s.borrowers[i].id;
      }
    }
  }

  // ----- duplicate check -----

  /** Loans a borrower holds: the list plus one for a truthy legacy principal. */
  function TotalLoans(b: Borrower): (n: nat)
    ensures n == |b.loans| || (n == |b.loans| + 1 && HasLegacyPrincipal(b))
    ensures HasLegacyPrincipal(b) ==> n == |b.loans| + 1
  {
    |b.loans| + (if HasLegacyPrincipal(b) then 1 else 0)
  }

  datatype DuplicateCheck =
    | NoDuplicate
    | Duplicate(id: Id, borrowerName: string, totalLoans: nat, createdAt: Instant)

  predicate SameNameCandidate(b: Borrower, ownerId: Id, name: string) {
    b.ownerId == ownerId && !b.deleted && EqualsIgnoreCase(b.borrowerName, name)
  }

  /** `checkDuplicateBorrower`: 400 without a name; otherwise the first undeleted borrower of the
      owner whose name equals `name` ignoring case, with its loan count. */
  function CheckDuplicateBorrower(s: Store, ownerId: Id, name: string): (r: Result<DuplicateCheck>)
    ensures name == "" <==> r == Err(BadRequest)
    ensures r.Err? ==> r.error == BadRequest
    ensures r.Ok? && r.value.NoDuplicate? <==>
      name != "" && forall k :: 0 <= k < |s.borrowers| ==> !SameNameCandidate(s.borrowers[k], ownerId, name)
    ensures r.Ok? && r.value.Duplicate? ==>
      exists k :: && 0 <= k < |s.borrowers|
                  && SameNameCandidate(s.borrowers[k], ownerId, name)
                  && r.value == Duplicate(s.borrowers[k].id, s.borrowers[k].borrowerName,
                                          TotalLoans(s.borrowers[k]), s.borrowers[k].createdAt)
  {
    if name == "" then Err(BadRequest)
    else
      var same := (b: Borrower) => SameNameCandidate(b, ownerId, name);
      var matches := Filter(s.borrowers, same);
      FilterMembers(s.borrowers, same);
      if matches == [] then
        assert forall k :: 0 <= k < |s.borrowers| ==> !SameNameCandidate(s.borrowers[k], ownerId, name) by {
          forall k | 0 <= k < |s.borrowers| ensures !SameNameCandidate(s.borrowers[k], ownerId, name) {
            assert s.borrowers[k] in s.borrowers;
          }
        }
        Ok(NoDuplicate)
      else
        var b := matches[0];
        assert b in s.borrowers;
        Ok(Duplicate(b.id, b.borrowerName, TotalLoans(b), b.createdAt))
  }

  // ----- listing -----

  predicate PendingFor(c: Collection, borrowerId: Id) {
    c.borrowerId == borrowerId && c.status == Pending
  }

  /** `findOne({borrowerId, status: 'pending'}).sort({dueDate: 1})`: the earliest pending
      collection of the borrower, across all of its loans. */
  function NextDue(cs: seq<Collection>, borrowerId: Id): (r: Option<Collection>)
    ensures r.None? <==> forall k :: 0 <= k < |cs| ==> !PendingFor(cs[k], borrowerId)
    ensures r.Some? ==> r.value in cs && PendingFor(r.value, borrowerId)
    ensures r.Some? ==> forall k :: 0 <= k < |cs| && PendingFor(cs[k], borrowerId) ==>
                          r.value.dueDate <= cs[k].dueDate
  {
    if cs == [] then None
    else
      var rest := NextDue(cs[1..], borrowerId);
      assert forall k :: 1 <= k < |cs| ==> cs[k] == cs[1..][k - 1];
      if !PendingFor(cs[0], borrowerId) then rest
      else if rest.None? || cs[0].dueDate <= rest.value.dueDate then Some(cs[0])
      else rest
  }

  datatype BorrowerRow = BorrowerRow(borrower: Borrower, nextDueDate: Option<Instant>,
                                     nextDueStatus: Option<CollectionStatus>)

  function RowFor(cs: seq<Collection>, b: Borrower): (row: BorrowerRow)
    ensures row.borrower == b
    ensures row.nextDueDate.None? <==> forall k :: 0 <= k < |cs| ==> !PendingFor(cs[k], b.id)
    ensures row.nextDueDate.Some? ==>
      && row.nextDueStatus == Some(Pending)
      && (exists k :: 0 <= k < |cs| && PendingFor(cs[k], b.id) && cs[k].dueDate == row.nextDueDate.value)
      && (forall k :: 0 <= k < |cs| && PendingFor(cs[k], b.id) ==> row.nextDueDate.value <= cs[k].dueDate)
  {
    match NextDue(cs, b.id)
    case None => BorrowerRow(b, None, None)
    case Some(c) => BorrowerRow(b, Some(c.dueDate), Some(c.status))
  }

  predicate OwnedLive(b: Borrower, ownerId: Id) {
    b.ownerId == ownerId && !b.deleted
  }

  /** One row per borrower, in the given order. */
  function RowsFor(cs: seq<Collection>, bs: seq<Borrower>): (rows: seq<BorrowerRow>)
    ensures |rows| == |bs|
    ensures forall k :: 0 <= k < |bs| ==> rows[k] == RowFor(cs, bs[k])
  {
    if bs == [] then [] else [RowFor(cs, bs[0])] + RowsFor(cs, bs[1..])
  }

  /** The owner's undeleted borrowers, newest first. */
  function LiveBorrowers(s: Store, ownerId: Id): (live: seq<Borrower>)
    ensures forall b :: b in live <==> b in s.borrowers && OwnedLive(b, ownerId)
    ensures forall i, j :: 0 <= i < j < |live| ==> live[i].createdAt >= live[j].createdAt
    ensures multiset(live) == multiset(Filter(s.borrowers, (b: Borrower) => OwnedLive(b, ownerId)))
  {
    var live := SortByDescending(Filter(s.borrowers, (b: Borrower) => OwnedLive(b, ownerId)),
                                 (b: Borrower) => b.createdAt);
    LiveMembers(s.borrowers, ownerId, live);
    live
  }

  lemma LiveMembers(bs: seq<Borrower>, ownerId: Id, live: seq<Borrower>)
    requires multiset(live) == multiset(Filter(bs, (b: Borrower) => OwnedLive(b, ownerId)))
    ensures forall b :: b in live <==> b in bs && OwnedLive(b, ownerId)
  {
    var f := Filter(bs, (b: Borrower) => OwnedLive(b, ownerId));
    FilterMembers(bs, (b: Borrower) => OwnedLive(b, ownerId));
    forall b ensures b in live <==> b in bs && OwnedLive(b, ownerId) {
      assert b in live <==> b in multiset(live);
      assert b in f <==> b in multiset(f);
    }
  }

  /** `listBorrowers`: one row per live borrower of the owner, newest first, each with its next
      due date (null when nothing is pending). */
  function ListBorrowers(s: Store, ownerId: Id): (rows: seq<BorrowerRow>)
    ensures |rows| == |LiveBorrowers(s, ownerId)|
    ensures forall k :: 0 <= k < |rows| ==> rows[k] == RowFor(s.collections, LiveBorrowers(s, ownerId)[k])
  {
    RowsFor(s.collections, LiveBorrowers(s, ownerId))
  }

  /** `getBorrowerCollections`: NotFound unless the borrower is the owner's and undeleted;
      otherwise every collection of that borrower, earliest due first. */
  function GetBorrowerCollections(s: Store, ownerId: Id, id: Id): (r: Result<seq<Collection>>)
    ensures FindOwnedBorrower(s.borrowers, ownerId, id).None? <==> r == Err(NotFound)
    ensures r.Ok? ==> forall c :: c in r.value <==> c in s.collections && c.borrowerId == id
    ensures r.Ok? ==> multiset(r.value) == multiset(Filter(s.collections, (c: Collection) => c.borrowerId == id))
    ensures r.Ok? ==> SortedBy(r.value, (c: Collection) => c.dueDate)
  {
    match FindOwnedBorrower(s.borrowers, ownerId, id)
    case None => Err(NotFound)
    case Some(_) =>
      var ofBorrower := (c: Collection) => c.borrowerId == id;
      var found := SortBy(Filter(s.collections, ofBorrower), (c: Collection) => c.dueDate);
      FilterMembers(s.collections, ofBorrower);
      SameElements(found, Filter(s.collections, ofBorrower));
      Ok(found)
  }
}

=== FILE: calendar.dfy ===
/** Gregorian calendar arithmetic: the part of the JavaScript `Date` object the ledger relies on.
    A `Date` is a calendar day; an instant is a count of milliseconds, and the midnight that
    starts a day is `Midnight(d)`. Time zones and daylight saving are not part of this model. */
module Calendar {

  const SECOND_MS: int := 1000
  const MINUTE_MS: int := 60 * SECOND_MS
  const HOUR_MS: int := 60 * MINUTE_MS
  const DAY_MS: int := 24 * HOUR_MS

  datatype Date = Date(year: int, month: int, day: int)

  predicate IsLeapYear(y: int) {
    y % 4 == 0 && (y % 100 != 0 || y % 400 == 0)
  }

  function DaysInMonth(y: int, m: int): (n: int)
    requires 1 <= m <= 12
    ensures 28 <= n <= 31
    ensures n == 28 <==> m == 2 && !IsLeapYear(y)
    ensures n == 29 <==> m == 2 && IsLeapYear(y)
    ensures n == 30 <==> m == 4 || m == 6 || m == 9 || m == 11
  {
    if m == 2 then (if IsLeapYear(y) then 29 else 28)
    else if m == 4 || m == 6 || m == 9 || m == 11 then 30
    else 31
  }

  predicate ValidDate(d: Date) {
    1 <= d.month <= 12 && 1 <= d.day <= DaysInMonth(d.year, d.month)
  }

  /** Months counted from January of year 0; consecutive calendar months differ by one. */
  function MonthIndex(y: int, m: int): int {
    y * 12 + (m - 1)
  }

  /** Year of the month with the given index (Euclidean division carries the year). */
  function YearOfIndex(mi: int): int {
    mi / 12
  }

  function MonthOfIndex(mi: int): (m: int)
    ensures 1 <= m <= 12
    ensures MonthIndex(YearOfIndex(mi), m) == mi
  {
    mi % 12 + 1
  }

  lemma MonthIndexInjective(y1: int, m1: int, y2: int, m2: int)
    requires 1 <= m1 <= 12 && 1 <= m2 <= 12
    requires MonthIndex(y1, m1) == MonthIndex(y2, m2)
    ensures y1 == y2 && m1 == m2
  {
  }

  /** `start` moved `k` calendar months, the day clamped to the last day of the target month. */
  function AddMonthsClamped(start: Date, k: int): (r: Date)
    requires ValidDate(start)
    ensures ValidDate(r)
    ensures MonthIndex(r.year, r.month) == MonthIndex(start.year, start.month) + k
    ensures start.day <= DaysInMonth(r.year, r.month) ==> r.day == start.day
    ensures start.day > DaysInMonth(r.year, r.month) ==> r.day == DaysInMonth(r.year, r.month)
  {
    var mi := MonthIndex(start.year, start.month) + k;
    var y := YearOfIndex(mi);
    var m := MonthOfIndex(mi);
    var dim := DaysInMonth(y, m);
    Date(y, m, if start.day <= dim then start.day else dim)
  }

  // ----- the `Date` setters the schedule generator calls -----

  /** `new Date(year, monthIndex, date)` for a day of the month between 1 and 31: the month index
      is 0-based and may run past December (the year carries), and a day past the end of the
      month rolls over into the next month. */
  function JsMakeDate(year: int, monthIndex: int, date: int): (r: Date)
    requires 1 <= date <= 31
    ensures ValidDate(r)
  {
    var mi := year * 12 + monthIndex;
    var y := YearOfIndex(mi);
    var m := MonthOfIndex(mi);
    var dim := DaysInMonth(y, m);
    if date <= dim then Date(y, m, date)
    else Date(YearOfIndex(mi + 1), MonthOfIndex(mi + 1), date - dim)
  }

  /** `d.setMonth(monthIndex)`: keeps the year and the day of the month of `d`. */
  function JsSetMonth(d: Date, monthIndex: int): (r: Date)
    requires ValidDate(d)
    ensures ValidDate(r)
  {
    JsMakeDate(d.year, monthIndex, d.day)
  }

  /** `d.setDate(0)`: the last day of the month before the month of `d`. */
  function JsSetDateZero(d: Date): (r: Date)
    requires ValidDate(d)
    ensures ValidDate(r)
  {
    var mi := MonthIndex(d.year, d.month) - 1;
    Date(YearOfIndex(mi), MonthOfIndex(mi), DaysInMonth(YearOfIndex(mi), MonthOfIndex(mi)))
  }

  /** The due date the generator computes for 0-based offset `i`: copy the start date, call
      `setMonth(getMonth() + i + 1)`, and when the day of the month changed, `setDate(0)`. */
  function ScheduleDueDate(start: Date, i: nat): (r: Date)
    requires ValidDate(start)
    ensures ValidDate(r)
  {
    var candidate := JsSetMonth(start, (start.month - 1) + i + 1);
    if candidate.day != start.day then JsSetDateZero(candidate) else candidate
  }

  /** The setter sequence computes exactly the clamped month step: due date `i` lies `i + 1`
      months after the start, on the start's day when that day exists, else on the last day. */
  lemma ScheduleDueDateIsClamped(start: Date, i: nat)
    requires ValidDate(start)
    ensures ScheduleDueDate(start, i) == AddMonthsClamped(start, i + 1)
  {
    var mi := MonthIndex(start.year, start.month) + i + 1;
    assert start.year * 12 + ((start.month - 1) + i + 1) == mi;
    var y, m := YearOfIndex(mi), MonthOfIndex(mi);
    var candidate := JsSetMonth(start, (start.month - 1) + i + 1);
    if start.day > DaysInMonth(y, m) {
      assert candidate.day == start.day - DaysInMonth(y, m) < 4;
      assert MonthIndex(candidate.year, candidate.month) == mi + 1;
      MonthIndexInjective(YearOfIndex(mi), MonthOfIndex(mi),
                          YearOfIndex(MonthIndex(candidate.year, candidate.month) - 1),
                          MonthOfIndex(MonthIndex(candidate.year, candidate.month) - 1));
    }
  }

  /** Strict chronological order of calendar days. */
  predicate Before(a: Date, b: Date) {
    a.year < b.year
    || (a.year == b.year && a.month < b.month)
    || (a.year == b.year && a.month == b.month && a.day < b.day)
  }

  // ----- day numbers and instants -----

  /** Days from 0001-01-01 to January 1 of year `y` in the proleptic Gregorian calendar. */
  function DaysBeforeYear(y: int): int {
    var p := y - 1;
    365 * p + p / 4 - p / 100 + p / 400
  }

  function YearLength(y: int): int {
    if IsLeapYear(y) then 366 else 365
  }

  /** Days from January 1 to the first day of month `m` of year `y`. */
  function DaysBeforeMonth(y: int, m: int): int
    requires 1 <= m <= 12
  {
    var common :=
      if m == 1 then 0 else if m == 2 then 31 else if m == 3 then 59 else if m == 4 then 90
      else if m == 5 then 120 else if m == 6 then 151 else if m == 7 then 181
      else if m == 8 then 212 else if m == 9 then 243 else if m == 10 then 273
      else if m == 11 then 304 else 334;
    if m > 2 && IsLeapYear(y) then common + 1 else common
  }

  /** Days from 0001-01-01 to `d`. */
  function DayNumber(d: Date): int
    requires 1 <= d.month <= 12
  {
    DaysBeforeYear(d.year) + DaysBeforeMonth(d.year, d.month) + d.day - 1
  }

  /** The instant at which day `d` begins. */
  function Midnight(d: Date): int
    requires 1 <= d.month <= 12
  {
    DayNumber(d) * DAY_MS
  }

  /** Day number of the first day of the month with index `mi`. */
  function MonthStart(mi: int): int {
    DayNumber(Date(YearOfIndex(mi), MonthOfIndex(mi), 1))
  }

  lemma Div4Step(p: int)
    ensures (p + 1) / 4 == p / 4 + (if (p + 1) % 4 == 0 then 1 else 0)
  {
  }

  lemma Div100Step(p: int)
    ensures (p + 1) / 100 == p / 100 + (if (p + 1) % 100 == 0 then 1 else 0)
  {
  }

  lemma Div400Step(p: int)
    ensures (p + 1) / 400 == p / 400 + (if (p + 1) % 400 == 0 then 1 else 0)
  {
  }

  lemma DaysBeforeNextYear(y: int)
    ensures DaysBeforeYear(y + 1) == DaysBeforeYear(y) + YearLength(y)
  {
    var p := y - 1;
    Div4Step(p);
    Div100Step(p);
    Div400Step(p);
    DivisibilityChain(y);
    assert DaysBeforeYear(y + 1) == 365 * y + y / 4 - y / 100 + y / 400;
    assert DaysBeforeYear(y) == 365 * p + p / 4 - p / 100 + p / 400;
    if IsLeapYear(y) {
      assert YearLength(y) == 366;
    } else {
      assert YearLength(y) == 365;
    }
  }

  /** Every multiple of 400 is one of 100, and every multiple of 100 is one of 4. */
  lemma DivisibilityChain(y: int)
    ensures y % 400 == 0 ==> y % 100 == 0
    ensures y % 100 == 0 ==> y % 4 == 0
  {
    if y % 400 == 0 {
      var k := 4 * (y / 400);
      assert y == 100 * k;
      MultipleOf100(k);
    }
    if y % 100 == 0 {
      var k := 25 * (y / 100);
      assert y == 4 * k;
      MultipleOf4(k);
    }
  }

  lemma MultipleOf100(k: int)
    ensures (100 * k) % 100 == 0
  {
  }

  lemma MultipleOf4(k: int)
    ensures (4 * k) % 4 == 0
  {
  }

  /** The next month starts as many days later as the current month has. */
  lemma MonthStartStep(mi: int)
    ensures MonthStart(mi + 1) == MonthStart(mi) + DaysInMonth(YearOfIndex(mi), MonthOfIndex(mi))
  {
    var y, m := YearOfIndex(mi), MonthOfIndex(mi);
    if m == 12 {
      assert YearOfIndex(mi + 1) == y + 1 && MonthOfIndex(mi + 1) == 1;
      DaysBeforeNextYear(y);
    } else {
      assert YearOfIndex(mi + 1) == y && MonthOfIndex(mi + 1) == m + 1;
    }
  }

  /** A later month starts after every day of an earlier month. */
  lemma {:induction false} MonthStartGrows(mi: int, mj: int)
    requires mi < mj
    ensures MonthStart(mi) + DaysInMonth(YearOfIndex(mi), MonthOfIndex(mi)) <= MonthStart(mj)
    decreases mj - mi
  {
    MonthStartStep(mi);
    if mi + 1 < mj {
      MonthStartGrows(mi + 1, mj);
    }
  }

  lemma DayNumberInMonth(d: Date)
    requires ValidDate(d)
    ensures var mi := MonthIndex(d.year, d.month);
      && YearOfIndex(mi) == d.year && MonthOfIndex(mi) == d.month
      && MonthStart(mi) <= DayNumber(d) < MonthStart(mi) + DaysInMonth(d.year, d.month)
  {
    var mi := MonthIndex(d.year, d.month);
    MonthIndexInjective(YearOfIndex(mi), MonthOfIndex(mi), d.year, d.month);
  }

  lemma BeforeByMonthIndex(a: Date, b: Date)
    requires ValidDate(a) && ValidDate(b)
    ensures Before(a, b) <==>
      MonthIndex(a.year, a.month) < MonthIndex(b.year, b.month)
      || (MonthIndex(a.year, a.month) == MonthIndex(b.year, b.month) && a.day < b.day)
  {
    if MonthIndex(a.year, a.month) == MonthIndex(b.year, b.month) {
      MonthIndexInjective(a.year, a.month, b.year, b.month);
    }
  }

  lemma SameMonthDayNumber(a: Date, b: Date)
    requires 1 <= a.month <= 12
    requires a.year == b.year && a.month == b.month
    ensures DayNumber(a) - DayNumber(b) == a.day - b.day
  {
  }

  lemma EarlierMonthEarlierDay(a: Date, b: Date)
    requires ValidDate(a) && ValidDate(b)
    requires MonthIndex(a.year, a.month) < MonthIndex(b.year, b.month)
    ensures DayNumber(a) < DayNumber(b)
  {
    DayNumberInMonth(a);
    DayNumberInMonth(b);
    MonthStartGrows(MonthIndex(a.year, a.month), MonthIndex(b.year, b.month));
  }

  /** Day numbers put valid dates in calendar order, and distinct dates get distinct numbers. */
  lemma DayNumberOrder(a: Date, b: Date)
    requires ValidDate(a) && ValidDate(b)
    ensures Before(a, b) <==> DayNumber(a) < DayNumber(b)
    ensures a == b <==> DayNumber(a) == DayNumber(b)
  {
    var ma, mb := MonthIndex(a.year, a.month), MonthIndex(b.year, b.month);
    BeforeByMonthIndex(a, b);
    if ma < mb {
      EarlierMonthEarlierDay(a, b);
    } else if mb < ma {
      EarlierMonthEarlierDay(b, a);
    } else {
      MonthIndexInjective(a.year, a.month, b.year, b.month);
      SameMonthDayNumber(a, b);
    }
  }

  lemma MidnightOrder(a: Date, b: Date)
    requires ValidDate(a) && ValidDate(b)
    ensures Before(a, b) <==> Midnight(a) + DAY_MS <= Midnight(b)
    ensures a == b <==> Midnight(a) == Midnight(b)
  {
    DayNumberOrder(a, b);
    assert DAY_MS == 86_400_000;
  }
}

=== FILE: collections.dfy ===
/** The collection controller: the filtered list, marking a collection received or pending,
    and the owner's dashboard summary. */
module Collections {
  import opened Wrappers
  import opened Calendar
  import opened Model
  import opened Seqs
  import opened Borrowers

  // ----- listing -----

  /** The query string of `GET /collections`; an empty string means the parameter was absent
      (an empty value is falsy and adds no filter). `dueDate` is the requested calendar day. */
  datatype CollectionQuery = CollectionQuery(status: string, dueDate: Option<Date>, borrowerId: string)

  /** `setHours(0,0,0,0)` .. `setHours(23,59,59,999)` of the requested day. */
  predicate InDayWindow(t: Instant, d: Date)
    requires ValidDate(d)
  {
    Midnight(d) <= t <= Midnight(d) + DAY_MS - 1
  }

  predicate QueryValid(q: CollectionQuery) {
    q.dueDate.Some? ==> ValidDate(q.dueDate.value)
  }

  predicate MatchesQuery(c: Collection, ownerId: Id, q: CollectionQuery)
    requires QueryValid(q)
  {
    && c.ownerId == ownerId
    && (q.status != "" ==> CollectionStatusName(c.status) == q.status)
    && (q.dueDate.Some? ==> InDayWindow(c.dueDate, q.dueDate.value))
    && (q.borrowerId != "" ==> c.borrowerId == q.borrowerId)
  }

  /** `listCollections`: the owner's collections matching every given filter, earliest due first. */
  function ListCollections(s: Store, ownerId: Id, q: CollectionQuery): (r: seq<Collection>)
    requires QueryValid(q)
    ensures forall c :: c in r <==> c in s.collections && MatchesQuery(c, ownerId, q)
    ensures SortedBy(r, (c: Collection) => c.dueDate)
    ensures multiset(r) == multiset(Filter(s.collections, (c: Collection) => MatchesQuery(c, ownerId, q)))
  {
    var found := Filter(s.collections, (c: Collection) => MatchesQuery(c, ownerId, q));
    FilterMembers(s.collections, (c: Collection) => MatchesQuery(c, ownerId, q));
    var r := SortBy(found, (c: Collection) => c.dueDate);
    assert forall c :: c in r <==> c in found by {
      forall c ensures c in r <==> c in found {
        assert c in r <==> c in multiset(r);
        assert c in found <==> c in multiset(found);
      }
    }
    r
  }

  /** The day window holds exactly the instants of that calendar day: those whose whole number
      of days since the epoch is the day's number. */
  lemma DayWindowIsCalendarDay(t: Instant, d: Date)
    requires ValidDate(d)
    ensures InDayWindow(t, d) <==> t / DAY_MS == DayNumber(d)
  {
    assert DAY_MS == 86_400_000;
  }

  /** A status filter that is not one of the four status names matches nothing. */
  lemma UnknownStatusMatchesNothing(s: Store, ownerId: Id, q: CollectionQuery)
    requires QueryValid(q)
    requires q.status != "" && ParseCollectionStatus(q.status).None?
    ensures ListCollections(s, ownerId, q) == []
  {
    forall st: CollectionStatus ensures ParseCollectionStatus(CollectionStatusName(st)) == Some(st) {
      CollectionStatusNameRoundTrip(st);
    }
    FilterNone(s.collections, (c: Collection) => MatchesQuery(c, ownerId, q));
    assert |ListCollections(s, ownerId, q)| == |multiset(ListCollections(s, ownerId, q))|;
  }

  // ----- marking received / pending -----

  /** A collected date as sent: an ISO 8601 text, as the instant it denotes, or any other value
      (null, "", 0, false, a text that is not ISO 8601). */
  datatype DateField = IsoDate(at: Instant) | NotIsoDate

  /** An amount as sent: a JSON number, or any other value (null, a non-numeral text). */
  datatype AmountField = Number(value: real) | NotNumber

  /** The body of `PUT /collections/:id/mark-collected`; `None` is an absent field. */
  datatype MarkRequest = MarkRequest(collectedDate: Option<DateField>, amountCollected: Option<AmountField>,
                                     notes: Option<string>)

  /** The route's checks, `optional().isISO8601()` on the date and `optional().isNumeric()` on
      the amount: `optional()` skips only an absent field, so a sent null or empty value is
      checked and fails, and so does a number written in exponent form. */
  predicate MarkValidatorsPass(req: MarkRequest) {
    && (req.collectedDate.Some? ==> req.collectedDate.value.IsoDate?)
    && (req.amountCollected.Some? ==>
          req.amountCollected.value.Number? && NumericText(req.amountCollected.value.value))
  }

  /** The sent amount, once the route's checks have let it through. */
  function SentAmount(req: MarkRequest): Option<real>
    requires MarkValidatorsPass(req)
  {
    match req.amountCollected
    case Some(a) => Some(a.value)
    case None => None
  }

  /** The amount filled in from the borrower's legacy fields when the request sends none:
      `principal * interest / 100` for a percentage, otherwise the interest itself. `None` is
      NaN (an absent operand in the product), which the number schema rejects; an absent flat
      interest leaves the field unset, which reads back as the default 0. */
  function LegacyDefaultAmount(b: Borrower): (r: Option<real>)
    ensures r.None? <==> b.interestIsPercent && (b.principalAmount.None? || b.interestAmount.None?)
    ensures b.interestIsPercent && r.Some? ==>
      r.value * 100.0 == b.principalAmount.value * b.interestAmount.value
    ensures !b.interestIsPercent ==> r == Some(if b.interestAmount.Some? then b.interestAmount.value else 0.0)
    ensures BorrowerValid(b) && r.Some? ==> r.value >= 0.0
  {
    if b.interestIsPercent then
      match (b.principalAmount, b.interestAmount)
      case (Some(p), Some(i)) => Some(p * i / 100.0)
      case _ => None
    else
      match b.interestAmount
      case Some(i) => Some(i)
      case None => Some(0.0)
  }

  /** The amount `markCollected` stores: the sent one, else the default from the borrower the
      collection references (deleted or not), else the amount already there. */
  function AmountToStore(s: Store, c: Collection, sent: Option<real>): (r: Option<real>)
    ensures sent.Some? ==> r == sent
    ensures sent.None? && FindBorrowerById(s.borrowers, c.borrowerId).None? ==> r == Some(c.amountCollected)
    ensures sent.None? && FindBorrowerById(s.borrowers, c.borrowerId).Some? ==>
      r == LegacyDefaultAmount(FindBorrowerById(s.borrowers, c.borrowerId).value)
  {
    match sent
    case Some(a) => Some(a)
    case None =>
      match FindBorrowerById(s.borrowers, c.borrowerId)
      case Some(b) => LegacyDefaultAmount(b)
      case None => Some(c.amountCollected)
  }

  /** `markCollected`: a request the route's checks refuse is answered 400 before the lookup;
      otherwise the owner's collection becomes received, with the given date (else now), the
      chosen amount and, when sent, the notes. A negative or NaN amount fails the save. */
  function MarkCollected(s: Store, ownerId: Id, id: Id, req: MarkRequest, now: Instant)
    : (r: Result<Store>)
    requires StoreValid(s)
    ensures !MarkValidatorsPass(req) <==> r == Err(BadRequest)
    ensures MarkValidatorsPass(req) ==>
      (FindOwnedCollection(s.collections, ownerId, id).None? <==> r == Err(NotFound))
    ensures MarkValidatorsPass(req) && FindOwnedCollection(s.collections, ownerId, id).Some? ==>
      var c := s.collections[FindOwnedCollection(s.collections, ownerId, id).value];
      var amount := AmountToStore(s, c, SentAmount(req));
      (r.Ok? <==> amount.Some? && amount.value >= 0.0)
    ensures r.Err? ==> r.error in {BadRequest, NotFound, Invalid}
    ensures r.Ok? ==> MarkValidatorsPass(req) && |r.value.collections| == |s.collections|
    ensures r.Ok? ==>
      var i := FindOwnedCollection(s.collections, ownerId, id).value;
      var c, c' := s.collections[i], r.value.collections[i];
      && r.value.borrowers == s.borrowers
      && (forall k :: 0 <= k < |s.collections| && k != i ==> r.value.collections[k] == s.collections[k])
      && c'.status == Received
      && c'.collectedDate == Some(if req.collectedDate.Some? then req.collectedDate.value.at else now)
      && Some(c'.amountCollected) == AmountToStore(s, c, SentAmount(req))
      && c'.notes == (if req.notes.Some? then req.notes.value else c.notes)
      && c'.id == c.id && c'.borrowerId == c.borrowerId && c'.loanId == c.loanId
      && c'.ownerId == c.ownerId && c'.dueDate == c.dueDate && c'.updatedAt == now
    ensures r.Ok? ==> StoreValid(r.value)
  {
    if !MarkValidatorsPass(req) then Err(BadRequest)
    else
    match FindOwnedCollection(s.collections, ownerId, id)
    case None => Err(NotFound)
    case Some(i) =>
      var c := s.collections[i];
      assert CollectionValid(c);
      match AmountToStore(s, c, SentAmount(req))
      case None => Err(Invalid)
      case Some(amount) =>
        var marked := c.(
          collectedDate := Some(match req.collectedDate { case Some(d) => d.at case None => now }),
          status := Received,
          amountCollected := amount,
          notes := match req.notes { case Some(n) => n case None => c.notes },
          updatedAt := now);
        var saved :- SaveCollection(marked);
        StoreValidAfter(Store(s.borrowers, []), s.borrowers, s.collections[i := saved]);
        Ok(s.(collections := s.collections[i := saved]))
  }

  /** `markPending`: the owner's collection becomes pending with no date and nothing collected;
      its notes stay. */
  function MarkPending(s: Store, ownerId: Id, id: Id, now: Instant): (r: Result<Store>)
    requires StoreValid(s)
    ensures FindOwnedCollection(s.collections, ownerId, id).None? <==> r == Err(NotFound)
    ensures r.Err? ==> r.error == NotFound
    ensures r.Ok? ==> |r.value.collections| == |s.collections|
    ensures r.Ok? ==>
      var i := FindOwnedCollection(s.collections, ownerId, id).value;
      var c, c' := s.collections[i], r.value.collections[i];
      && r.value.borrowers == s.borrowers
      && (forall k :: 0 <= k < |s.collections| && k != i ==> r.value.collections[k] == s.collections[k])
      && c'.status == Pending && c'.collectedDate.None? && c'.amountCollected == 0.0
      && c'.notes == c.notes
      && c'.id == c.id && c'.borrowerId == c.borrowerId && c'.loanId == c.loanId
      && c'.ownerId == c.ownerId && c'.dueDate == c.dueDate && c'.updatedAt == now
    ensures r.Ok? ==> StoreValid(r.value)
  {
    match FindOwnedCollection(s.collections, ownerId, id)
    case None => Err(NotFound)
    case Some(i) =>
      var c := s.collections[i];
      assert CollectionValid(c);
      var reset := c.(status := Pending, collectedDate := None, amountCollected := 0.0, updatedAt := now);
      assert CollectionValid(reset);
      StoreValidAfter(Store(s.borrowers, []), s.borrowers, s.collections[i := reset]);
      Ok(s.(collections := s.collections[i := reset]))
  }

  /** Marking a collection received and then pending again returns a freshly generated
      collection to its generated state, except for the notes the first call may have set and
      the update time. */
  lemma MarkCollectedThenPending(s: Store, ownerId: Id, id: Id, req: MarkRequest, t1: Instant, t2: Instant)
    requires StoreValid(s)
    requires MarkCollected(s, ownerId, id, req, t1).Ok?
    requires var i := FindOwnedCollection(s.collections, ownerId, id).value;
      s.collections[i].status == Pending && s.collections[i].collectedDate.None?
      && s.collections[i].amountCollected == 0.0
    ensures var s1 := MarkCollected(s, ownerId, id, req, t1).value;
      var i := FindOwnedCollection(s.collections, ownerId, id).value;
      var r := MarkPending(s1, ownerId, id, t2);
      && r.Ok?
      && r.value.borrowers == s.borrowers
      && r.value.collections == s.collections[i := s.collections[i].(
           notes := s1.collections[i].notes, updatedAt := t2)]
  {
    var i := FindOwnedCollection(s.collections, ownerId, id).value;
    var s1 := MarkCollected(s, ownerId, id, req, t1).value;
    FindOwnedCollectionAfterUpdate(s.collections, ownerId, id, i, s1.collections);
    var r := MarkPending(s1, ownerId, id, t2).value;
    assert |r.collections| == |s.collections|;
    forall k | 0 <= k < |s.collections|
      ensures r.collections[k] == s.collections[i := s.collections[i].(
                notes := s1.collections[i].notes, updatedAt := t2)][k]
    {
    }
  }

  /** Changing fields other than id and owner of the found collection leaves the lookup where
      it was. */
  lemma FindOwnedCollectionAfterUpdate(cs: seq<Collection>, ownerId: Id, id: Id, i: nat, cs': seq<Collection>)
    requires FindOwnedCollection(cs, ownerId, id) == Some(i)
    requires |cs'| == |cs|
    requires forall k :: 0 <= k < |cs| && k != i ==> cs'[k] == cs[k]
    requires cs'[i].id == cs[i].id && cs'[i].ownerId == cs[i].ownerId
    ensures FindOwnedCollection(cs', ownerId, id) == Some(i)
  {
    if i > 0 {
      assert !(cs[0].id == id && cs[0].ownerId == ownerId);
      FindOwnedCollectionAfterUpdate(cs[1..], ownerId, id, i - 1, cs'[1..]);
    }
  }

  // ----- dashboard summary -----

  /** What one borrower adds to the total lent: a truthy legacy principal, plus every listed
      loan's principal. */
  function BorrowerLent(b: Borrower): real {
    (if HasLegacyPrincipal(b) then b.principalAmount.value else 0.0)
    + Sum(b.loans, LoanPrincipal)
  }

  datatype DashboardSummary = DashboardSummary(
    totalBorrowers: nat,
    totalLent: real,
    totalInterestThisMonth: real,
    dueToday: nat,
    upcoming: seq<Collection>,
    overdue: seq<Collection>)

  predicate OwnedPending(c: Collection, ownerId: Id) {
    c.ownerId == ownerId && c.status == Pending
  }

  /** The upcoming window: from today's midnight through the midnight two days later. */
  predicate InUpcomingWindow(t: Instant, today: Date)
    requires ValidDate(today)
  {
    Midnight(today) <= t <= Midnight(today) + 2 * DAY_MS
  }

  /** Received on or after the first of the current month (no upper bound). */
  predicate CollectedThisMonth(c: Collection, ownerId: Id, today: Date)
    requires ValidDate(today)
  {
    c.ownerId == ownerId && c.status == Received
    && c.collectedDate.Some? && c.collectedDate.value >= Midnight(Date(today.year, today.month, 1))
  }

  /** The upper limit on the upcoming list. */
  const UPCOMING_LIMIT: nat := 10

  /** `getDashboardSummary` for the owner on the local calendar day `today`. */
  function Summary(s: Store, ownerId: Id, today: Date): (r: DashboardSummary)
    requires ValidDate(today)
    ensures r.totalBorrowers == Count(s.borrowers, (b: Borrower) => OwnedLive(b, ownerId))
    ensures r.dueToday == Count(s.collections, (c: Collection) =>
      OwnedPending(c, ownerId) && InDayWindow(c.dueDate, today))
    ensures LeastBy(r.upcoming, Filter(s.collections, (c: Collection) =>
                      OwnedPending(c, ownerId) && InUpcomingWindow(c.dueDate, today)),
                    UPCOMING_LIMIT, (c: Collection) => c.dueDate)
    ensures forall c :: c in r.upcoming ==>
      c in s.collections && OwnedPending(c, ownerId) && InUpcomingWindow(c.dueDate, today)
    ensures forall c :: c in r.overdue <==>
      c in s.collections && OwnedPending(c, ownerId) && c.dueDate < Midnight(today)
    ensures multiset(r.overdue) == multiset(Filter(s.collections, (c: Collection) =>
                                              OwnedPending(c, ownerId) && c.dueDate < Midnight(today)))
    ensures SortedBy(r.overdue, (c: Collection) => c.dueDate)
    ensures r.totalLent == Sum(Filter(s.borrowers, (b: Borrower) => OwnedLive(b, ownerId)), BorrowerLent)
    ensures r.totalInterestThisMonth == Sum(Filter(s.collections, (c: Collection) =>
                                              CollectedThisMonth(c, ownerId, today)),
                                            (c: Collection) => c.amountCollected)
    ensures StoreValid(s) ==> r.totalLent >= 0.0 && r.totalInterestThisMonth >= 0.0
  {
    var live := Filter(s.borrowers, (b: Borrower) => OwnedLive(b, ownerId));
    var window := SortBy(Filter(s.collections, (c: Collection) =>
                           OwnedPending(c, ownerId) && InUpcomingWindow(c.dueDate, today)),
                         (c: Collection) => c.dueDate);
    var overdue := SortBy(Filter(s.collections, (c: Collection) =>
                            OwnedPending(c, ownerId) && c.dueDate < Midnight(today)),
                          (c: Collection) => c.dueDate);
    var received := Filter(s.collections, (c: Collection) => CollectedThisMonth(c, ownerId, today));
    var upcoming := Take(window, UPCOMING_LIMIT);
    TakeSortedIsLeast(Filter(s.collections, (c: Collection) =>
                        OwnedPending(c, ownerId) && InUpcomingWindow(c.dueDate, today)),
                      window, UPCOMING_LIMIT, (c: Collection) => c.dueDate);
    SortedMembers(s.collections, (c: Collection) =>
      OwnedPending(c, ownerId) && InUpcomingWindow(c.dueDate, today), window);
    SortedMembers(s.collections, (c: Collection) =>
      OwnedPending(c, ownerId) && c.dueDate < Midnight(today), overdue);
    assert forall c :: c in upcoming ==> c in window;
    var r := DashboardSummary(
      |live|,
      Sum(live, BorrowerLent),
      Sum(received, (c: Collection) => c.amountCollected),
      Count(s.collections, (c: Collection) => OwnedPending(c, ownerId) && InDayWindow(c.dueDate, today)),
      upcoming,
      overdue);
    if StoreValid(s) then
      FilterMembers(s.borrowers, (b: Borrower) => OwnedLive(b, ownerId));
      FilterMembers(s.collections, (c: Collection) => CollectedThisMonth(c, ownerId, today));
      LentNonNegative(s, live);
      CollectedNonNegative(s, received);
      r
    else
      r
  }

  lemma SortedMembers(cs: seq<Collection>, p: Collection -> bool, sorted: seq<Collection>)
    requires multiset(sorted) == multiset(Filter(cs, p))
    ensures forall c :: c in sorted <==> c in cs && p(c)
  {
    var f := Filter(cs, p);
    FilterMembers(cs, p);
    forall c ensures c in sorted <==> c in cs && p(c) {
      assert c in sorted <==> c in multiset(sorted);
      assert c in f <==> c in multiset(f);
    }
  }

  lemma LentNonNegative(s: Store, live: seq<Borrower>)
    requires StoreValid(s)
    requires forall b :: b in live ==> b in s.borrowers
    ensures Sum(live, BorrowerLent) >= 0.0
  {
    forall b | b in live ensures BorrowerLent(b) >= 0.0 {
      var k :| 0 <= k < |s.borrowers| && s.borrowers[k] == b;
      assert BorrowerValid(b);
      SumNonNegative(b.loans, LoanPrincipal);
    }
    SumNonNegative(live, BorrowerLent);
  }

  lemma CollectedNonNegative(s: Store, received: seq<Collection>)
    requires StoreValid(s)
    requires forall c :: c in received ==> c in s.collections
    ensures Sum(received, (c: Collection) => c.amountCollected) >= 0.0
  {
    forall c | c in received ensures c.amountCollected >= 0.0 {
      var k :| 0 <= k < |s.collections| && s.collections[k] == c;
      assert CollectionValid(c);
    }
    SumNonNegative(received, (c: Collection) => c.amountCollected);
  }

  // ----- the owner match of the month's interest aggregate -----

  /** A value as the database compares it: an ObjectId never equals a string, even one holding
      the same hex digits. */
  datatype BsonValue = ObjectIdValue(oid: Id) | StringValue(text: string)

  /** The owner value a query sends for the signed-in user's string id. Query filters
      (`find`, `countDocuments`) are cast to the schema's ObjectId type; the stages of an
      aggregation pipeline are sent as they are. */
  function OwnerFilterValue(ownerId: Id, castToSchema: bool): BsonValue {
    if castToSchema then ObjectIdValue(ownerId) else StringValue(ownerId)
  }

  /** A stored collection, whose owner is an ObjectId, matches the owner value. */
  predicate OwnerMatches(c: Collection, v: BsonValue) {
    ObjectIdValue(c.ownerId) == v
  }

  /** The month's received collections as the aggregate's `$match` selects them. */
  predicate AggregateMatch(c: Collection, ownerId: Id, today: Date, castToSchema: bool)
    requires ValidDate(today)
  {
    OwnerMatches(c, OwnerFilterValue(ownerId, castToSchema)) && c.status == Received
    && c.collectedDate.Some? && c.collectedDate.value >= Midnight(Date(today.year, today.month, 1))
  }

  /** A cast owner value selects exactly the owner's received collections of the month; the
      uncast one selects nothing. */
  lemma AggregateMatchCast(c: Collection, ownerId: Id, today: Date)
    requires ValidDate(today)
    ensures AggregateMatch(c, ownerId, today, true) <==> CollectedThisMonth(c, ownerId, today)
    ensures !AggregateMatch(c, ownerId, today, false)
  {
  }

  /** `totalInterestThisMonth` as written: the `$sum` over the uncast match, which no stored
      collection passes, so the total is always 0. */
  function InterestThisMonthAsWritten(s: Store, ownerId: Id, today: Date): (total: real)
    requires ValidDate(today)
    ensures total == 0.0
  {
    var matched := Filter(s.collections, (c: Collection) => AggregateMatch(c, ownerId, today, false));
    FilterNone(s.collections, (c: Collection) => AggregateMatch(c, ownerId, today, false));
    Sum(matched, (c: Collection) => c.amountCollected)
  }

  /** An owner who received 5 on the first of this month: the aggregate as written reports 0,
      the dashboard's total reports 5. */
  lemma InterestAsWrittenMissesReceived(today: Date)
    requires ValidDate(today)
    ensures var first := Midnight(Date(today.year, today.month, 1));
      var c := Collection("c1", "b1", None, "u1", first, Some(first), Received, 5.0, "", first);
      var s := Store([], [c]);
      && InterestThisMonthAsWritten(s, "u1", today) == 0.0
      && Summary(s, "u1", today).totalInterestThisMonth == 5.0
  {
    var first := Midnight(Date(today.year, today.month, 1));
    var c := Collection("c1", "b1", None, "u1", first, Some(first), Received, 5.0, "", first);
    var p := (x: Collection) => CollectedThisMonth(x, "u1", today);
    assert Filter([c], p) == [c] by {
      FilterCons(c, [], p);
    }
  }

  /** The dashboard's total counts every collection the owner received this month. */
  lemma InterestThisMonthCountsReceived(s: Store, ownerId: Id, today: Date, c: Collection)
    requires ValidDate(today) && StoreValid(s)
    requires c in s.collections && CollectedThisMonth(c, ownerId, today)
    ensures Summary(s, ownerId, today).totalInterestThisMonth >= c.amountCollected
  {
    var p := (x: Collection) => CollectedThisMonth(x, ownerId, today);
    var received := Filter(s.collections, p);
    FilterMembers(s.collections, p);
    forall k | 0 <= k < |received| ensures received[k].amountCollected >= 0.0 {
      assert received[k] in s.collections;
      var j :| 0 <= j < |s.collections| && s.collections[j] == received[k];
      assert CollectionValid(s.collections[j]);
    }
    SumAtLeastMember(received, (x: Collection) => x.amountCollected, c);
  }

  /** A pending collection due today lies in the upcoming window, and no collection is both
      overdue and upcoming. */
  lemma DashboardBucketsDisjoint(t: Instant, today: Date)
    requires ValidDate(today)
    ensures InDayWindow(t, today) ==> InUpcomingWindow(t, today)
    ensures !(t < Midnight(today) && InUpcomingWindow(t, today))
  {
  }
}

=== FILE: forms.dfy ===
/** The borrower form: its field rules, the duplicate-name check as the user types, and the
    submit flow, which saves the borrower, or defers to a dialog that adds the loan to the
    existing borrower, saves a separate one, or cancels. */
module Forms {
  import opened Wrappers
  import opened Calendar
  import opened Model
  import opened Text
  import opened Schedule
  import Borrowers

  // ----- field rules shared by the forms -----

  /** A text field with `required` and `minLength`: the required message for an empty value,
      else the length message when it is too short. White space counts toward the length. */
  function RequiredMinLength(v: string, min: nat, requiredMsg: string, minMsg: string): (r: Option<string>)
    ensures r.None? <==> v != "" && |v| >= min
    ensures v == "" ==> r == Some(requiredMsg)
    ensures v != "" && r.Some? ==> r == Some(minMsg)
  {
    if v == "" then Some(requiredMsg)
    else if |v| < min then Some(minMsg)
    else None
  }

  /** A number field with `required` and `min`; `None` is the empty field. */
  function RequiredAtLeast(v: Option<real>, min: real, requiredMsg: string, minMsg: string): (r: Option<string>)
    ensures r.None? <==> v.Some? && v.value >= min
    ensures v.None? ==> r == Some(requiredMsg)
    ensures v.Some? && r.Some? ==> r == Some(minMsg)
  {
    match v
    case None => Some(requiredMsg)
    case Some(x) => if x < min then Some(minMsg) else None
  }

  // ----- the borrower form -----

  /** The form values. Amount fields are number inputs (`None` when left empty, which is also
      what `parseFloat` makes of them: NaN); the date input holds a calendar day or nothing. */
  datatype BorrowerFormData = BorrowerFormData(
    borrowerName: string,
    principalAmount: Option<real>,
    interestAmount: Option<real>,
    interestIsPercent: bool,
    dateProvided: Option<Date>,
    notes: string)

  /** The message under each field, if any. */
  datatype BorrowerFormErrors = BorrowerFormErrors(
    borrowerName: Option<string>,
    principalAmount: Option<string>,
    interestAmount: Option<string>,
    dateProvided: Option<string>)

  function ValidateBorrowerForm(f: BorrowerFormData): (e: BorrowerFormErrors)
    ensures e.borrowerName.Some? ==>
      e.borrowerName.value in {"Borrower name is required", "Name must be at least 2 characters"}
    ensures e.principalAmount.Some? ==>
      e.principalAmount.value in {"Principal amount is required", "Amount must be greater than 0"}
    ensures e.interestAmount.Some? ==>
      e.interestAmount.value in {"Interest amount is required", "Interest must be 0 or greater"}
    ensures e.dateProvided == (if f.dateProvided.None? then Some("Date is required") else None)
  {
    BorrowerFormErrors(
      RequiredMinLength(f.borrowerName, 2, "Borrower name is required", "Name must be at least 2 characters"),
      RequiredAtLeast(f.principalAmount, 1.0, "Principal amount is required", "Amount must be greater than 0"),
      RequiredAtLeast(f.interestAmount, 0.0, "Interest amount is required", "Interest must be 0 or greater"),
      if f.dateProvided.None? then Some("Date is required") else None)
  }

  /** The form reaches its submit handler only when no field shows a message. */
  predicate BorrowerFormAccepted(f: BorrowerFormData) {
    ValidateBorrowerForm(f) == BorrowerFormErrors(None, None, None, None)
  }

  /** The rules in one line each: a name of at least two characters, a principal of at least 1,
      an interest of at least 0, and a date. */
  lemma BorrowerFormAcceptedIff(f: BorrowerFormData)
    ensures BorrowerFormAccepted(f) <==>
      && |f.borrowerName| >= 2
      && f.principalAmount.Some? && f.principalAmount.value >= 1.0
      && f.interestAmount.Some? && f.interestAmount.value >= 0.0
      && f.dateProvided.Some?
  {
  }

  // ----- duplicate-name check -----

  /** The name the duplicate check sends: none (and any earlier duplicate cleared) when the
      name is empty, trims to fewer than two characters, or the form edits a borrower. */
  function DuplicateQuery(name: string, editMode: bool): (q: Option<string>)
    ensures q.None? <==> name == "" || |Trim(name)| < 2 || editMode
    ensures q.Some? ==> q.value == Trim(name)
  {
    if name == "" || |Trim(name)| < 2 || editMode then None else Some(Trim(name))
  }

  /** A query the form sends always has a name, so the server never answers it with 400. */
  lemma DuplicateQueryNeverBadRequest(name: string, editMode: bool, s: Store, ownerId: Id)
    requires DuplicateQuery(name, editMode).Some?
    ensures Borrowers.CheckDuplicateBorrower(s, ownerId, DuplicateQuery(name, editMode).value).Ok?
  {
    assert |DuplicateQuery(name, editMode).value| >= 2;
  }

  /** The dialog-related state of the form: the duplicate found, the values held back while the
      dialog is open, and whether it is open. */
  datatype FormState = FormState(duplicate: Option<Id>, pending: Option<BorrowerFormData>, showModal: bool)

  const INITIAL_FORM: FormState := FormState(None, None, false)

  /** The duplicate after a check: cleared when no query is sent, else the found borrower's id
      when the answer is a duplicate; any other answer (or a failed request) clears it. */
  function AfterDuplicateCheck(st: FormState, name: string, editMode: bool,
                               answer: Result<Borrowers.DuplicateCheck>): (r: FormState)
    ensures r.pending == st.pending && r.showModal == st.showModal
    ensures r.duplicate.Some? <==>
      DuplicateQuery(name, editMode).Some? && answer.Ok? && answer.value.Duplicate?
    ensures r.duplicate.Some? ==> r.duplicate.value == answer.value.id
  {
    if DuplicateQuery(name, editMode).None? then st.(duplicate := None)
    else
      match answer
      case Ok(Duplicate(id, _, _, _)) => st.(duplicate := Some(id))
      case _ => st.(duplicate := None)
  }

  /** The form flags a duplicate exactly when the owner has an undeleted borrower whose name
      equals the trimmed name ignoring case, and the flag names such a borrower. */
  lemma DuplicateFlagMeansSameName(st: FormState, name: string, editMode: bool, s: Store, ownerId: Id)
    requires DuplicateQuery(name, editMode).Some?
    ensures var r := AfterDuplicateCheck(st, name, editMode,
                                         Borrowers.CheckDuplicateBorrower(s, ownerId, Trim(name)));
      && (r.duplicate.Some? <==>
            exists k :: 0 <= k < |s.borrowers| && Borrowers.SameNameCandidate(s.borrowers[k], ownerId, Trim(name)))
      && (r.duplicate.Some? ==>
            exists k :: && 0 <= k < |s.borrowers|
                        && Borrowers.SameNameCandidate(s.borrowers[k], ownerId, Trim(name))
                        && s.borrowers[k].id == r.duplicate.value)
  {
    var answer := Borrowers.CheckDuplicateBorrower(s, ownerId, Trim(name));
    assert answer.Ok?;
  }

  // ----- requests -----

  datatype Method = Post | Put

  /** The body of `POST /borrowers/:id/loans`; the notes default to the empty string. */
  datatype LoanPayload = LoanPayload(
    principalAmount: Option<real>,
    interestAmount: Option<real>,
    interestIsPercent: bool,
    dateProvided: Option<Date>,
    notes: string)

  /** A borrower body is the form values with both amounts passed through `parseFloat`, which
      gives back the number of a number input and NaN (`None`) for an empty one. */
  datatype Body = BorrowerBody(form: BorrowerFormData) | LoanBody(loan: LoanPayload)

  datatype Request = Request(verb: Method, path: string, body: Body)

  const BORROWERS_PATH: string := "/borrowers"

  /** `createNewBorrower`: `PUT /borrowers/:id` when editing, `POST /borrowers` otherwise. */
  function SaveRequest(editId: Option<Id>, data: BorrowerFormData): (r: Request)
    ensures r.body == BorrowerBody(data)
  {
    match editId
    case Some(id) => Request(Put, BORROWERS_PATH + "/" + id, BorrowerBody(data))
    case None => Request(Post, BORROWERS_PATH, BorrowerBody(data))
  }

  function LoanPayloadOf(data: BorrowerFormData): (p: LoanPayload)
    ensures p.principalAmount == data.principalAmount && p.interestAmount == data.interestAmount
    ensures p.interestIsPercent == data.interestIsPercent && p.dateProvided == data.dateProvided
    ensures p.notes == data.notes
  {
    LoanPayload(data.principalAmount, data.interestAmount, data.interestIsPercent,
                data.dateProvided, data.notes)
  }

  /** The request adding the held-back values as a loan of borrower `dupId`. */
  function AddLoanRequest(dupId: Id, data: BorrowerFormData): Request {
    Request(Post, BORROWERS_PATH + "/" + dupId + "/loans", LoanBody(LoanPayloadOf(data)))
  }

  /** The three borrower routes the form calls, and everything else. */
  datatype Route = CreateBorrowerRoute | UpdateBorrowerRoute(id: Id) | AddLoanRoute(borrowerId: Id) | OtherRoute

  /** A path segment: non-empty and without a slash. */
  predicate Segment(s: string) {
    s != [] && forall k :: 0 <= k < |s| ==> s[k] != '/'
  }

  /** The first slash in `s`. */
  function FirstSlash(s: string): (r: Option<nat>)
    ensures r.Some? ==> r.value < |s| && s[r.value] == '/'
    ensures r.Some? ==> forall k :: 0 <= k < r.value ==> s[k] != '/'
    ensures r.None? <==> forall k :: 0 <= k < |s| ==> s[k] != '/'
  {
    if s == [] then None
    else if s[0] == '/' then Some(0)
    else
      match FirstSlash(s[1..])
      case None => None
      case Some(k) => Some(k + 1)
  }

  /** `path` with one trailing slash dropped. */
  function DropTrailingSlash(path: string): (r: string)
    ensures path == r || path == r + "/"
    ensures path != [] && path[|path| - 1] == '/' ==> path == r + "/"
  {
    if path != [] && path[|path| - 1] == '/' then path[..|path| - 1] else path
  }

  /** How the borrower router matches a method and path: `POST /`, `PUT /:id` and
      `POST /:borrowerId/loans` under the `/borrowers` prefix. Express routes are neither
      strict nor case-sensitive by default: one trailing slash is allowed, and the fixed parts
      match in any letter case while a parameter keeps the case it was sent in. */
  function Dispatch(m: Method, path: string): (r: Route)
    ensures r.UpdateBorrowerRoute? ==> Segment(r.id) && m == Put
    ensures r.AddLoanRoute? ==> Segment(r.borrowerId) && m == Post
  {
    var p := DropTrailingSlash(path);
    var n := |BORROWERS_PATH|;
    if |p| < n || !EqualsIgnoreCase(p[..n], BORROWERS_PATH) then OtherRoute
    else RouteUnder(m, p[n..])
  }

  /** The route of what follows the prefix, its trailing slash already dropped. */
  function RouteUnder(m: Method, rest: string): (r: Route)
    ensures r.UpdateBorrowerRoute? ==> Segment(r.id) && m == Put
    ensures r.AddLoanRoute? ==> Segment(r.borrowerId) && m == Post
  {
    if rest == "" then (if m == Post then CreateBorrowerRoute else OtherRoute)
    else if rest[0] != '/' then OtherRoute
    else
      var tail := rest[1..];
      match FirstSlash(tail)
      case None => if tail != "" && m == Put then UpdateBorrowerRoute(tail) else OtherRoute
      case Some(k) =>
        if k > 0 && EqualsIgnoreCase(tail[k..], "/loans") && m == Post then AddLoanRoute(tail[..k])
        else OtherRoute
  }

  /** One trailing slash reaches the route the path without it reaches. */
  lemma DispatchIgnoresTrailingSlash(m: Method, path: string)
    requires path == [] || path[|path| - 1] != '/'
    ensures Dispatch(m, path + "/") == Dispatch(m, path)
  {
    assert (path + "/")[..|path|] == path;
  }

  /** The prefix matches in any letter case: a path reaches the same route whatever the case of
      its `/borrowers` part. */
  lemma DispatchIgnoresPrefixCase(m: Method, prefix: string, rest: string)
    requires EqualsIgnoreCase(prefix, BORROWERS_PATH)
    ensures Dispatch(m, prefix + rest) == Dispatch(m, BORROWERS_PATH + rest)
  {
    var n := |BORROWERS_PATH|;
    var p, q := DropTrailingSlash(prefix + rest), DropTrailingSlash(BORROWERS_PATH + rest);
    if rest == [] {
      assert ToLowerAscii(prefix[n - 1]) == ToLowerAscii('s');
      assert prefix + rest == prefix;
      assert p == prefix;
      assert q == BORROWERS_PATH;
    } else {
      var r := DropTrailingSlash(rest);
      assert (prefix + rest)[|prefix + rest| - 1] == rest[|rest| - 1];
      assert (BORROWERS_PATH + rest)[|BORROWERS_PATH + rest| - 1] == rest[|rest| - 1];
      if rest[|rest| - 1] == '/' {
        assert prefix + rest == (prefix + r) + "/";
        assert BORROWERS_PATH + rest == (BORROWERS_PATH + r) + "/";
      }
      assert p == prefix + r;
      assert q == BORROWERS_PATH + r;
    }
    assert p[..n] == prefix && p[n..] == q[n..] && q[..n] == BORROWERS_PATH;
  }

  /** The save request reaches the update route for the edited borrower, or the create route. */
  lemma SaveRequestReachesController(editId: Option<Id>, data: BorrowerFormData)
    requires editId.Some? ==> Segment(editId.value)
    ensures var r := SaveRequest(editId, data);
      Dispatch(r.verb, r.path) == (if editId.Some? then UpdateBorrowerRoute(editId.value) else CreateBorrowerRoute)
  {
    if editId.Some? {
      var path := BORROWERS_PATH + "/" + editId.value;
      var n := |BORROWERS_PATH|;
      assert path[..n] == BORROWERS_PATH;
      assert path[n] == '/';
      assert path[n + 1..] == editId.value;
    }
  }

  /** The add-loan request reaches the add-loan route of the duplicate. */
  lemma AddLoanRequestReachesController(dupId: Id, data: BorrowerFormData)
    requires Segment(dupId)
    ensures var r := AddLoanRequest(dupId, data);
      Dispatch(r.verb, r.path) == AddLoanRoute(dupId)
  {
    var path := BORROWERS_PATH + "/" + dupId + "/loans";
    var n := |BORROWERS_PATH|;
    var tail := dupId + "/loans";
    assert path[|path| - 1] == 's';
    assert DropTrailingSlash(path) == path;
    assert path[..n] == BORROWERS_PATH;
    assert path[n..] == "/" + tail;
    assert tail[|dupId|] == '/';
    assert FirstSlash(tail) == Some(|dupId|);
    assert tail[|dupId|..] == "/loans";
    assert tail[..|dupId|] == dupId;
    assert RouteUnder(Post, "/" + tail) == AddLoanRoute(dupId);
  }


  // ----- the submit flow -----

  /** The state after a handler and the request it sends, if any. */
  datatype Step = Step(state: FormState, request: Option<Request>)

  /** `onSubmit`, reached with accepted values: with a duplicate flagged while creating, hold the
      values back and open the dialog; otherwise save. */
  function OnSubmit(st: FormState, editId: Option<Id>, data: BorrowerFormData): (r: Step)
    ensures r.request.None? <==> st.duplicate.Some? && editId.None?
    ensures r.request.None? ==> r.state == st.(pending := Some(data), showModal := true)
    ensures r.request.Some? ==> r.state == st && r.request.value == SaveRequest(editId, data)
  {
    if st.duplicate.Some? && editId.None? then Step(st.(pending := Some(data), showModal := true), None)
    else Step(st, Some(SaveRequest(editId, data)))
  }

  /** `handleAddLoanToExisting`: without held-back values or a duplicate nothing happens (the
      dialog stays as it is); otherwise close the dialog, post the loan to the duplicate and
      drop the held-back values, whatever the answer. */
  function AddToExisting(st: FormState): (r: Step)
    ensures st.pending.None? || st.duplicate.None? ==> r == Step(st, None)
    ensures st.pending.Some? && st.duplicate.Some? ==>
      && r.request == Some(AddLoanRequest(st.duplicate.value, st.pending.value))
      && r.state == FormState(st.duplicate, None, false)
  {
    match (st.pending, st.duplicate)
    case (Some(data), Some(dupId)) =>
      Step(st.(showModal := false, pending := None), Some(AddLoanRequest(dupId, data)))
    case _ => Step(st, None)
  }

  /** `handleCreateSeparate`: close the dialog and, with held-back values, save them as a new
      borrower and drop them. */
  function CreateSeparate(st: FormState, editId: Option<Id>): (r: Step)
    ensures !r.state.showModal && r.state.pending.None? && r.state.duplicate == st.duplicate
    ensures r.request.Some? <==> st.pending.Some?
    ensures r.request.Some? ==> r.request.value == SaveRequest(editId, st.pending.value)
  {
    match st.pending
    case Some(data) => Step(st.(showModal := false, pending := None), Some(SaveRequest(editId, data)))
    case None => Step(st.(showModal := false), None)
  }

  /** `handleCancelDuplicate`: close the dialog and drop the held-back values. */
  function CancelDuplicate(st: FormState): (r: FormState)
    ensures !r.showModal && r.pending.None? && r.duplicate == st.duplicate
  {
    st.(showModal := false, pending := None)
  }

  /** Choosing "create separate" in the dialog sends exactly the request a submit without a
      duplicate would have sent, and leaves the dialog closed with nothing held back. */
  lemma DeferredCreateSendsSameSave(st: FormState, data: BorrowerFormData)
    requires st.duplicate.Some?
    ensures var held := OnSubmit(st, None, data);
      var done := CreateSeparate(held.state, None);
      && held.request.None?
      && done.request == OnSubmit(st.(duplicate := None), None, data).request
      && done.state == st.(pending := None, showModal := false)
  {
  }

  /** Choosing "add to existing" posts the held-back values as a loan of the flagged borrower,
      and the request reaches that borrower's add-loan route. */
  lemma DeferredAddPostsLoanToDuplicate(st: FormState, data: BorrowerFormData)
    requires st.duplicate.Some? && Segment(st.duplicate.value)
    ensures var done := AddToExisting(OnSubmit(st, None, data).state);
      && done.request == Some(AddLoanRequest(st.duplicate.value, data))
      && Dispatch(done.request.value.verb, done.request.value.path) == AddLoanRoute(st.duplicate.value)
      && done.state == st.(pending := None, showModal := false)
  {
    AddLoanRequestReachesController(st.duplicate.value, data);
  }

  /** Cancelling a deferred submit sends nothing and returns to the state before it, with the
      dialog closed. */
  lemma DeferredCancelSendsNothing(st: FormState, data: BorrowerFormData)
    requires st.duplicate.Some? && !st.showModal && st.pending.None?
    ensures var held := OnSubmit(st, None, data);
      held.request.None? && CancelDuplicate(held.state) == st
  {
  }

  // ----- what the server makes of the requests -----

  /** The loan input the add-loan controller reads from the body. `None` is the save-time
      failure of the loan subschema's required amounts and date (a 500, nothing stored); the
      route's validators are declared but never consulted by the controller. */
  function LoanInputOf(p: LoanPayload): (r: Option<LoanInput>)
    ensures r.Some? <==> p.principalAmount.Some? && p.interestAmount.Some? && p.dateProvided.Some?
    ensures r.Some? ==> r.value.principalAmount == p.principalAmount.value
    ensures r.Some? ==> r.value.interestAmount == p.interestAmount.value
    ensures r.Some? ==> r.value.interestIsPercent == Some(p.interestIsPercent)
    ensures r.Some? ==> r.value.dateProvided == p.dateProvided.value
    ensures r.Some? ==> r.value.notes == Some(p.notes)
  {
    match (p.principalAmount, p.interestAmount, p.dateProvided)
    case (Some(a), Some(i), Some(d)) => Some(LoanInput(a, i, Some(p.interestIsPercent), d, Some(p.notes)))
    case _ => None
  }

  /** Accepted form values carry every field the add-loan save requires and make a loan the
      schema accepts, with the form's terms and notes. */
  lemma AcceptedFormMakesValidLoan(data: BorrowerFormData, loanId: Id)
    requires BorrowerFormAccepted(data)
    requires ValidDate(data.dateProvided.value)
    ensures LoanInputOf(LoanPayloadOf(data)).Some?
    ensures var l := NewLoan(loanId, LoanInputOf(LoanPayloadOf(data)).value);
      && LoanValid(l)
      && l.principalAmount == data.principalAmount.value && l.interestAmount == data.interestAmount.value
      && l.interestIsPercent == data.interestIsPercent && l.notes == data.notes
  {
    BorrowerFormAcceptedIff(data);
  }

  /** The create route's validators (a name that is not blank once trimmed, amounts whose text
      is a plain numeral, an ISO 8601 date) and the body the controller reads; `None` is the
      400 answer. */
  function BorrowerInputOf(f: BorrowerFormData): (r: Option<Borrowers.BorrowerInput>)
    ensures r.Some? <==>
      && Trim(f.borrowerName) != ""
      && f.principalAmount.Some? && NumericText(f.principalAmount.value)
      && f.interestAmount.Some? && NumericText(f.interestAmount.value)
      && f.dateProvided.Some?
    ensures r.Some? ==> r.value.borrowerName == f.borrowerName
    ensures r.Some? ==> r.value.principalAmount == f.principalAmount.value
    ensures r.Some? ==> r.value.interestAmount == f.interestAmount.value
    ensures r.Some? ==> r.value.interestIsPercent == Some(f.interestIsPercent)
    ensures r.Some? ==> r.value.dateProvided == f.dateProvided.value
    ensures r.Some? ==> r.value.notes == Some(f.notes)
  {
    if Trim(f.borrowerName) == "" then None
    else
      match (f.principalAmount, f.interestAmount, f.dateProvided)
      case (Some(a), Some(i), Some(d)) =>
        if NumericText(a) && NumericText(i) then
          Some(Borrowers.BorrowerInput(f.borrowerName, a, i, Some(f.interestIsPercent), d, Some(f.notes)))
        else None
      case _ => None
  }

  /** Accepted form values whose name is not blank pass the create route exactly when both
      amounts are written without an exponent, and then create a borrower for a signed-in
      owner. */
  lemma AcceptedFormCreatesBorrower(data: BorrowerFormData, s: Store, ownerId: Id, borrowerId: Id,
                                    now: Instant, collectionIds: seq<Id>)
    requires BorrowerFormAccepted(data) && !AllSpace(data.borrowerName)
    requires ValidDate(data.dateProvided.value)
    requires ownerId != "" && borrowerId != "" && |collectionIds| == DEFAULT_MONTHS
    ensures BorrowerInputOf(data).Some? <==>
      NumericText(data.principalAmount.value) && NumericText(data.interestAmount.value)
    ensures BorrowerInputOf(data).Some? ==>
      Borrowers.CreateBorrower(s, ownerId, BorrowerInputOf(data).value, borrowerId, now, collectionIds).Ok?
  {
    BorrowerFormAcceptedIff(data);
    TrimEmptyIffBlank(data.borrowerName);
    var r := BorrowerInputOf(data);
    if r.Some? {
      var input := r.value;
      assert input.principalAmount >= 0.0 && input.interestAmount >= 0.0;
      assert Borrowers.CreateBorrower(s, ownerId, input, borrowerId, now, collectionIds).Ok?;
    }
  }

  /** The name rule counts white space, the route trims it: a name of two spaces passes the
      form and is answered with 400. */
  lemma BlankNamePassesFormOnly()
    ensures var f := BorrowerFormData("  ", Some(100.0), Some(2.0), true, Some(Date(2024, 1, 15)), "");
      BorrowerFormAccepted(f) && BorrowerInputOf(f).None?
  {
    var f := BorrowerFormData("  ", Some(100.0), Some(2.0), true, Some(Date(2024, 1, 15)), "");
    TrimEmptyIffBlank(f.borrowerName);
    assert AllSpace(f.borrowerName);
  }

  /** A principal of 10^21 passes the form, which sets no maximum, and is answered with 400:
      its text "1e+21" is not a numeral. */
  lemma ExponentAmountPassesFormOnly()
    ensures var f := BorrowerFormData("Ann", Some(EXPONENT_ABOVE), Some(2.0), true, Some(Date(2024, 1, 15)), "");
      BorrowerFormAccepted(f) && BorrowerInputOf(f).None?
  {
    var f := BorrowerFormData("Ann", Some(EXPONENT_ABOVE), Some(2.0), true, Some(Date(2024, 1, 15)), "");
    BorrowerFormAcceptedIff(f);
  }

  /** The update route's validators: each sent field is checked as on create, an absent one is
      skipped. */
  predicate UpdateValidatorsPass(p: Borrowers.BorrowerPatch) {
    && (p.borrowerName.Some? ==> Trim(p.borrowerName.value) != "")
    && (p.principalAmount.Some? ==> NumericText(p.principalAmount.value))
    && (p.interestAmount.Some? ==> NumericText(p.interestAmount.value))
  }

  /** The update route's body: every field sent. */
  function PatchOf(f: BorrowerFormData): (p: Borrowers.BorrowerPatch)
    ensures p.borrowerName == Some(f.borrowerName) && p.interestIsPercent == Some(f.interestIsPercent)
    ensures p.principalAmount == f.principalAmount && p.interestAmount == f.interestAmount
    ensures p.dateProvided == f.dateProvided && p.notes == Some(f.notes)
  {
    Borrowers.BorrowerPatch(Some(f.borrowerName), f.principalAmount, f.interestAmount,
                            Some(f.interestIsPercent), f.dateProvided, Some(f.notes))
  }

  /** Accepted values in edit mode pass the update route exactly when both amounts are written
      without an exponent; then the save succeeds for the owner's borrower and overwrites its
      legacy terms with the form's. */
  lemma AcceptedEditUpdatesBorrower(data: BorrowerFormData, s: Store, ownerId: Id, id: Id)
    requires BorrowerFormAccepted(data) && !AllSpace(data.borrowerName)
    requires ValidDate(data.dateProvided.value)
    requires Borrowers.StoreValid(s)
    requires FindOwnedBorrower(s.borrowers, ownerId, id).Some?
    ensures Trim(data.borrowerName) != ""
    ensures UpdateValidatorsPass(PatchOf(data)) <==>
      NumericText(data.principalAmount.value) && NumericText(data.interestAmount.value)
    ensures var r := Borrowers.UpdateBorrower(s, ownerId, id, PatchOf(data));
      UpdateValidatorsPass(PatchOf(data)) ==>
      && r.Ok?
      && var b := r.value.borrowers[FindOwnedBorrower(s.borrowers, ownerId, id).value];
         && b.borrowerName == Trim(data.borrowerName)
         && b.principalAmount == data.principalAmount && b.interestAmount == data.interestAmount
         && b.interestIsPercent == data.interestIsPercent && b.dateProvided == data.dateProvided
         && b.notes == data.notes
  {
    BorrowerFormAcceptedIff(data);
    TrimEmptyIffBlank(data.borrowerName);
    var patch := PatchOf(data);
    assert OptionalAtLeastZero(patch.principalAmount) && OptionalAtLeastZero(patch.interestAmount);
    var r := Borrowers.UpdateBorrower(s, ownerId, id, patch);
    var i := FindOwnedBorrower(s.borrowers, ownerId, id).value;
    assert r.Ok?;
    assert r.value.borrowers[i] == Borrowers.ApplyPatch(s.borrowers[i], patch);
  }
}

=== FILE: helpers.dfy ===
/** The display helpers the pages share: the monthly interest of a loan, whole days until a due
    date, status badge classes, the due-status label and the empty-date placeholder. */
module Helpers {
  import opened Wrappers
  import opened Calendar
  import opened Model

  /** What the pages treat as a loan: an entry of a borrower's `loans`, or the pseudo-loan built
      from the legacy fields. A legacy interest may be missing, hence the option; `isLegacy` is
      the flag the detail page adds (the other pages leave it unset). */
  datatype ViewLoan = ViewLoan(
    id: Id,
    principalAmount: real,
    interestAmount: Option<real>,
    interestIsPercent: bool,
    dateProvided: Date,
    notes: string,
    status: LoanStatus,
    isLegacy: bool)

  /** `calculateInterest`: the monthly interest, a percentage of the principal when the interest
      is a rate and the interest amount itself otherwise. `None` is the NaN (rate) or
      `undefined` (flat amount) a missing interest produces. */
  function CalculateInterest(l: ViewLoan): (r: Option<real>)
    ensures r.Some? <==> l.interestAmount.Some?
    ensures l.interestIsPercent && r.Some? ==> r.value * 100.0 == l.principalAmount * l.interestAmount.value
    ensures !l.interestIsPercent ==> r == l.interestAmount
    ensures r.Some? && l.principalAmount >= 0.0 && l.interestAmount.value >= 0.0 ==> r.value >= 0.0
  {
    match l.interestAmount
    case None => None
    case Some(i) => if l.interestIsPercent then Some(l.principalAmount * i / 100.0) else Some(i)
  }

  /** Division truncating toward zero, as `differenceInDays` rounds its day count. */
  function TruncDiv(a: int, d: int): int
    requires d > 0
  {
    if a >= 0 then a / d else -((-a) / d)
  }

  /** `getDaysUntilDue`: the whole days from `now` to `due`, rounded toward zero (the local
      calendar and daylight saving are not modelled). */
  function DaysUntilDue(due: Instant, now: Instant): (r: int)
    ensures due >= now ==> r >= 0 && r * DAY_MS <= due - now < (r + 1) * DAY_MS
    ensures due < now ==> r <= 0 && (r - 1) * DAY_MS < due - now <= r * DAY_MS
  {
    assert DAY_MS == 86_400_000;
    TruncDiv(due - now, DAY_MS)
  }

  /** A due date counts as overdue only once a whole day has passed, and as today from a day
      before to a day after `now`. */
  lemma DaysUntilDueBoundaries(due: Instant, now: Instant)
    ensures DaysUntilDue(due, now) < 0 <==> due <= now - DAY_MS
    ensures DaysUntilDue(due, now) == 0 <==> now - DAY_MS < due < now + DAY_MS
    ensures DaysUntilDue(due, now) == 1 <==> now + DAY_MS <= due < now + 2 * DAY_MS
  {
    var r := DaysUntilDue(due, now);
    if due >= now {
      assert r * DAY_MS <= due - now < (r + 1) * DAY_MS;
      if r >= 1 {
        assert r * DAY_MS >= DAY_MS;
      }
      if r >= 2 {
        assert r * DAY_MS >= 2 * DAY_MS;
      }
    } else {
      assert (r - 1) * DAY_MS < due - now <= r * DAY_MS;
      if r <= -1 {
        assert r * DAY_MS <= -DAY_MS;
      }
    }
  }

  /** `getStatusColor`: the badge class of a status name. */
  function GetStatusColor(status: string): (r: string)
    ensures r == "badge-received" || r == "badge-overdue" || r == "badge-pending"
    ensures r == "badge-received" <==> status == "received"
    ensures r == "badge-overdue" <==> status == "missed" || status == "overdue"
  {
    if status == "received" then "badge-received"
    else if status == "pending" then "badge-pending"
    else if status == "missed" || status == "overdue" then "badge-overdue"
    else "badge-pending"
  }

  /** Of the stored statuses, only a missed collection gets the overdue badge and only a
      received one the received badge; pending and provided share the pending badge. */
  lemma StatusColorOfStoredStatus(s: CollectionStatus)
    ensures GetStatusColor(CollectionStatusName(s)) == "badge-overdue" <==> s == Missed
    ensures GetStatusColor(CollectionStatusName(s)) == "badge-received" <==> s == Received
    ensures GetStatusColor(CollectionStatusName(s)) == "badge-pending" <==> s == Pending || s == Provided
  {
  }

  /** `formatDueStatus`, given the whole days until the due date. */
  function FormatDueStatus(daysUntil: int, status: string): string
  {
    if status == "received" then "Received"
    else if daysUntil < 0 then "Overdue"
    else if daysUntil == 0 then "Due Today"
    else if daysUntil == 1 then "Due Tomorrow"
    else if daysUntil <= 2 then "Due Soon"
    else "Pending"
  }

  /** When each label is meant to apply, one condition per label. */
  predicate LabelApplies(text: string, daysUntil: int, status: string) {
    || (text == "Received" && status == "received")
    || (text == "Overdue" && status != "received" && daysUntil < 0)
    || (text == "Due Today" && status != "received" && daysUntil == 0)
    || (text == "Due Tomorrow" && status != "received" && daysUntil == 1)
    || (text == "Due Soon" && status != "received" && daysUntil == 2)
    || (text == "Pending" && status != "received" && daysUntil > 2)
  }

  /** Exactly one label applies to every due date and status, and it is the one shown. */
  lemma DueStatusExactlyOneLabel(daysUntil: int, status: string)
    ensures forall text :: LabelApplies(text, daysUntil, status) <==> text == FormatDueStatus(daysUntil, status)
  {
  }

  /** What `formatDate` shows: the placeholder for a missing date, else the date itself
      (rendering with a pattern is formatting and is not modelled). */
  datatype DateText = NotAvailable | Formatted(instant: Instant)

  function DateTextString(t: DateText, render: Instant -> string): string {
    match t
    case NotAvailable => "N/A"
    case Formatted(i) => render(i)
  }

  /** `formatDate`: "N/A" exactly for a missing date. */
  function FormatDate(d: Option<Instant>): (r: DateText)
    ensures r.NotAvailable? <==> d.None?
    ensures d.Some? ==> r.instant == d.value
    ensures d.None? ==> forall render :: DateTextString(r, render) == "N/A"
  {
    match d
    case None => NotAvailable
    case Some(i) => Formatted(i)
  }
}

=== FILE: loanview.dfy ===
/** The loan view-model the pages build from a borrower document: the legacy loan and the loan
    list as one list, the loan a collection belongs to, the per-loan collection filter, and the
    amounts, badges and labels the tables show. */
module LoanView {
  import opened Wrappers
  import opened Calendar
  import opened Model
  import opened Seqs
  import opened Text
  import opened Helpers
  import Borrowers
  import Collections
  import Migration

  /** The id the pages give the pseudo-loan built from the legacy fields. */
  const LEGACY_ID: Id := "legacy"

  /** The filter value that selects every collection. */
  const ALL_LOANS: string := "all"

  /** The legacy single loan as the pages show it: always active. */
  function LegacyLoan(b: Borrower): ViewLoan
    requires HasLegacyLoan(b)
  {
    ViewLoan(LEGACY_ID, b.principalAmount.value, b.interestAmount, b.interestIsPercent,
             b.dateProvided.value, b.notes, Active, true)
  }

  function FromLoan(l: Loan): ViewLoan {
    ViewLoan(l.id, l.principalAmount, Some(l.interestAmount), l.interestIsPercent,
             l.dateProvided, l.notes, l.status, false)
  }

  function ListedLoans(ls: seq<Loan>): (r: seq<ViewLoan>)
    ensures |r| == |ls|
    ensures forall k :: 0 <= k < |ls| ==> r[k] == FromLoan(ls[k])
  {
    if ls == [] then [] else [FromLoan(ls[0])] + ListedLoans(ls[1..])
  }

  /** 1 when the borrower shows a legacy loan first, else 0. */
  function LegacyCount(b: Borrower): nat {
    if HasLegacyLoan(b) then 1 else 0
  }

  /** `getAllLoans`: nothing for a missing borrower; otherwise the legacy loan first when its
      principal and date are truthy, then the listed loans in order. Only the legacy entry is
      flagged legacy, and it is always active. */
  function GetAllLoans(b: Option<Borrower>): (r: seq<ViewLoan>)
    ensures b.None? ==> r == []
    ensures b.Some? ==> |r| == LegacyCount(b.value) + |b.value.loans|
    ensures b.Some? && HasLegacyLoan(b.value) ==> r[0] == LegacyLoan(b.value)
    ensures b.Some? ==> forall k :: 0 <= k < |b.value.loans| ==>
      r[LegacyCount(b.value) + k] == FromLoan(b.value.loans[k])
    ensures forall k :: 0 <= k < |r| ==> (r[k].isLegacy <==> k == 0 && b.Some? && HasLegacyLoan(b.value))
    ensures forall k :: 0 <= k < |r| ==> r[k].isLegacy ==> r[k].status == Active
  {
    match b
    case None => []
    case Some(x) => (if HasLegacyLoan(x) then [LegacyLoan(x)] else []) + ListedLoans(x.loans)
  }

  /** The pages and the duplicate check count loans alike, except for a legacy principal
      without a date, which only the duplicate check counts. */
  lemma AllLoansCountLikeDuplicateCheck(b: Borrower)
    ensures |GetAllLoans(Some(b))| == Borrowers.TotalLoans(b)
        <==> !(HasLegacyPrincipal(b) && b.dateProvided.None?)
  {
  }

  /** Same money terms, whatever the id and flag. */
  predicate SameTerms(a: ViewLoan, b: ViewLoan) {
    && a.principalAmount == b.principalAmount && a.interestAmount == b.interestAmount
    && a.interestIsPercent == b.interestIsPercent && a.dateProvided == b.dateProvided
    && a.notes == b.notes && a.status == b.status
  }

  lemma SameTermsSameInterest(a: ViewLoan, b: ViewLoan)
    requires SameTerms(a, b)
    ensures CalculateInterest(a) == CalculateInterest(b)
  {
    if a.interestAmount.Some? && a.interestIsPercent {
      var ra, rb := CalculateInterest(a).value, CalculateInterest(b).value;
      assert ra * 100.0 == a.principalAmount * a.interestAmount.value;
      assert rb * 100.0 == a.principalAmount * a.interestAmount.value;
    }
  }

  /** The lazy migration of add-loan does not change what the pages show of the old loan: the
      legacy entry becomes a listed one with the same terms, the same interest and its new id. */
  lemma MigrationKeepsLoanView(b: Borrower, loanId: Id)
    requires Borrowers.NeedsMigration(b) && Borrowers.Migrate(b, loanId).Ok?
    ensures var before := GetAllLoans(Some(b));
      var after := GetAllLoans(Some(Borrowers.Migrate(b, loanId).value));
      && |before| == 1 && |after| == 1
      && before[0].isLegacy && !after[0].isLegacy && after[0].id == loanId
      && SameTerms(before[0], after[0])
      && CalculateInterest(before[0]) == CalculateInterest(after[0])
  {
    var m := Borrowers.Migrate(b, loanId).value;
    assert !HasLegacyLoan(m);
    assert GetAllLoans(Some(b))[0] == LegacyLoan(b);
    assert GetAllLoans(Some(m))[0] == FromLoan(m.loans[0]);
    assert |GetAllLoans(Some(b))| == 1;
    assert |GetAllLoans(Some(m))| == 1;
    assert SameTerms(GetAllLoans(Some(b))[0], GetAllLoans(Some(m))[0]);
    SameTermsSameInterest(GetAllLoans(Some(b))[0], GetAllLoans(Some(m))[0]);
  }

  // ----- loan lookup -----

  /** JavaScript truthiness of a loan id: present and not empty. */
  predicate Truthy(id: Option<Id>) {
    id.Some? && id.value != ""
  }

  /** `findIndex(l => l._id === id)`: the first loan with that id. */
  function IndexOfId(ls: seq<ViewLoan>, id: Id): (r: Option<nat>)
    ensures r.Some? ==> r.value < |ls| && ls[r.value].id == id
    ensures r.Some? ==> forall k :: 0 <= k < r.value ==> ls[k].id != id
    ensures r.None? <==> forall k :: 0 <= k < |ls| ==> ls[k].id != id
  {
    if ls == [] then None
    else if ls[0].id == id then Some(0)
    else
      match IndexOfId(ls[1..], id)
      case None => None
      case Some(k) => Some(k + 1)
  }

  /** `getLoanById`: a collection without a (truthy) loan id belongs to the first loan, if any;
      otherwise to the first loan with its id, if any. */
  function GetLoanById(b: Option<Borrower>, loanId: Option<Id>): (r: Option<ViewLoan>)
    ensures r.Some? ==> r.value in GetAllLoans(b)
    ensures !Truthy(loanId) ==> (r.Some? <==> GetAllLoans(b) != [])
    ensures !Truthy(loanId) && r.Some? ==> r.value == GetAllLoans(b)[0]
    ensures Truthy(loanId) ==> (r.Some? <==> exists k :: 0 <= k < |GetAllLoans(b)| && GetAllLoans(b)[k].id == loanId.value)
    ensures Truthy(loanId) && r.Some? ==> r.value.id == loanId.value
  {
    var all := GetAllLoans(b);
    if !Truthy(loanId) then
      if all == [] then None else Some(all[0])
    else
      match IndexOfId(all, loanId.value)
      case None => None
      case Some(k) => Some(all[k])
  }

  /** Listed loan ids as the store makes them: non-empty, unique, and never one of the two
      filter words. */
  predicate OrdinaryLoanIds(b: Borrower) {
    && (forall k :: 0 <= k < |b.loans| ==> b.loans[k].id !in {"", LEGACY_ID, ALL_LOANS})
    && (forall i, j :: 0 <= i < j < |b.loans| ==> b.loans[i].id != b.loans[j].id)
  }

  /** A collection carrying a listed loan's id resolves to exactly that loan. */
  lemma ResolvesListedLoan(b: Borrower, k: nat)
    requires OrdinaryLoanIds(b) && k < |b.loans|
    ensures GetLoanById(Some(b), Some(b.loans[k].id)) == Some(FromLoan(b.loans[k]))
  {
    var all := GetAllLoans(Some(b));
    var off := LegacyCount(b);
    var id := b.loans[k].id;
    assert id !in {"", LEGACY_ID, ALL_LOANS};
    forall j | 0 <= j < |b.loans| && j != k
      ensures b.loans[j].id != id
    {
      if j < k {
        assert b.loans[j].id != b.loans[k].id;
      } else {
        assert b.loans[k].id != b.loans[j].id;
      }
    }
    forall q | 0 <= q < |all| && q != off + k
      ensures all[q].id != id
    {
      OtherEntryId(b, k, q);
    }
    IndexOfUnique(all, id, off + k);
  }

  /** No other entry of the list carries a listed loan's id, when that id is not the legacy
      one and no other listed loan has it. */
  lemma OtherEntryId(b: Borrower, k: nat, q: nat)
    requires k < |b.loans| && b.loans[k].id != LEGACY_ID
    requires forall j :: 0 <= j < |b.loans| && j != k ==> b.loans[j].id != b.loans[k].id
    requires q < |GetAllLoans(Some(b))| && q != LegacyCount(b) + k
    ensures GetAllLoans(Some(b))[q].id != b.loans[k].id
  {
    if q < LegacyCount(b) {
      LegacyEntry(b);
    } else {
      var j := q - LegacyCount(b);
      ListedEntry(b, j);
      assert b.loans[j].id != b.loans[k].id;
    }
  }

  /** The legacy loan, when shown, is the first entry. */
  lemma LegacyEntry(b: Borrower)
    requires HasLegacyLoan(b)
    ensures GetAllLoans(Some(b))[0] == LegacyLoan(b)
  {
  }

  /** Listed loan `j` sits after the legacy entry, if any. */
  lemma ListedEntry(b: Borrower, j: nat)
    requires j < |b.loans|
    ensures GetAllLoans(Some(b))[LegacyCount(b) + j] == FromLoan(b.loans[j])
  {
  }

  /** An id carried by exactly one entry is found at that entry. */
  lemma IndexOfUnique(ls: seq<ViewLoan>, id: Id, p: nat)
    requires p < |ls| && ls[p].id == id
    requires forall q :: 0 <= q < |ls| && q != p ==> ls[q].id != id
    ensures IndexOfId(ls, id) == Some(p)
  {
  }

  /** A collection without a loan id resolves to the legacy loan when there is one, else to the
      first listed loan. */
  lemma ResolvesNullToFirst(b: Borrower, c: Collection)
    requires !Truthy(c.loanId)
    ensures HasLegacyLoan(b) ==> GetLoanById(Some(b), c.loanId) == Some(LegacyLoan(b))
    ensures !HasLegacyLoan(b) && b.loans != [] ==> GetLoanById(Some(b), c.loanId) == Some(FromLoan(b.loans[0]))
    ensures !HasLegacyLoan(b) && b.loans == [] ==> GetLoanById(Some(b), c.loanId) == None
  {
  }

  /** Attaching an orphaned collection to its borrower's first loan (`fixNullLoanIds`) does not
      change the loan the pages show for it, when the borrower has no legacy loan. */
  lemma FixKeepsResolvedLoan(bs: seq<Borrower>, c: Collection, now: Instant)
    requires FindBorrowerById(bs, c.borrowerId).Some?
    requires !HasLegacyLoan(FindBorrowerById(bs, c.borrowerId).value)
    requires OrdinaryLoanIds(FindBorrowerById(bs, c.borrowerId).value)
    ensures var b := FindBorrowerById(bs, c.borrowerId).value;
      GetLoanById(Some(b), Migration.Fixed(bs, c, now).loanId) == GetLoanById(Some(b), c.loanId)
  {
    var b := FindBorrowerById(bs, c.borrowerId).value;
    if Migration.Fixable(bs, c) {
      ResolvesListedLoan(b, 0);
      ResolvesNullToFirst(b, c);
    }
  }

  // ----- the collection filter of the collections page -----

  /** `!c.loanId`. */
  predicate NoLoanId(c: Collection) {
    !Truthy(c.loanId)
  }

  /** `c.loanId && c.loanId.toString() === id`. */
  function OfLoan(id: Id): Collection -> bool {
    (c: Collection) => Truthy(c.loanId) && c.loanId.value == id
  }

  function OrphanOrOfLoan(id: Id): Collection -> bool {
    (c: Collection) => NoLoanId(c) || (Truthy(c.loanId) && c.loanId.value == id)
  }

  /** The selected loan is the first one and there is no legacy loan: orphaned collections are
      shown with it. */
  predicate FirstLoanTakesOrphans(b: Option<Borrower>, selected: string) {
    var all := GetAllLoans(b);
    !(b.Some? && HasLegacyLoan(b.value)) && |all| > 0 && all[0].id == selected
  }

  /** Whether the collection belongs on the page for the selected filter value. */
  predicate ShownFor(b: Option<Borrower>, selected: string, c: Collection) {
    || selected == ALL_LOANS
    || (selected == LEGACY_ID && NoLoanId(c))
    || (&& selected != ALL_LOANS && selected != LEGACY_ID
        && ((Truthy(c.loanId) && c.loanId.value == selected)
            || (NoLoanId(c) && FirstLoanTakesOrphans(b, selected))))
  }

  /** `getFilteredCollections`: the collections shown for a filter value, in their fetched
      order; 'all' shows them unchanged. */
  function FilterCollections(b: Option<Borrower>, cs: seq<Collection>, selected: string)
    : (r: seq<Collection>)
    ensures selected == ALL_LOANS ==> r == cs
    ensures IsSubsequence(r, cs)
    ensures forall c :: c in r <==> c in cs && ShownFor(b, selected, c)
  {
    if selected == ALL_LOANS then
      IsSubsequenceOfItself(cs);
      cs
    else if selected == LEGACY_ID then
      FilterIsSubsequence(cs, NoLoanId);
      FilterMembers(cs, NoLoanId);
      Filter(cs, NoLoanId)
    else if FirstLoanTakesOrphans(b, selected) then
      FilterIsSubsequence(cs, OrphanOrOfLoan(selected));
      FilterMembers(cs, OrphanOrOfLoan(selected));
      Filter(cs, OrphanOrOfLoan(selected))
    else
      FilterIsSubsequence(cs, OfLoan(selected));
      FilterMembers(cs, OfLoan(selected));
      Filter(cs, OfLoan(selected))
  }

  /** `c.loanId?.toString() === id`: no truthiness test. */
  function SameLoanId(id: Id): Collection -> bool {
    (c: Collection) => c.loanId.Some? && c.loanId.value == id
  }

  function OrphanOrSameLoanId(id: Id): Collection -> bool {
    (c: Collection) => NoLoanId(c) || (c.loanId.Some? && c.loanId.value == id)
  }

  /** The count the filter menu shows next to the loan at `index`. */
  function OptionCount(b: Option<Borrower>, cs: seq<Collection>, index: nat): nat
    requires index < |GetAllLoans(b)|
  {
    var loan := GetAllLoans(b)[index];
    if loan.id == LEGACY_ID then Count(cs, NoLoanId)
    else if !(b.Some? && HasLegacyLoan(b.value)) && index == 0 then Count(cs, OrphanOrSameLoanId(loan.id))
    else Count(cs, SameLoanId(loan.id))
  }

  /** Each menu entry's count is the number of collections the page shows once that entry is
      selected. */
  lemma OptionCountMatchesFilter(b: Borrower, cs: seq<Collection>, index: nat)
    requires OrdinaryLoanIds(b)
    requires index < |GetAllLoans(Some(b))|
    ensures OptionCount(Some(b), cs, index) == |FilterCollections(Some(b), cs, GetAllLoans(Some(b))[index].id)|
  {
    if index < LegacyCount(b) {
      LegacyOptionCount(b, cs);
    } else if !HasLegacyLoan(b) && index == 0 {
      FirstLoanOptionCount(b, cs);
    } else {
      OtherLoanOptionCount(b, cs, index);
    }
  }

  /** The legacy entry counts the collections without a loan id. */
  lemma LegacyOptionCount(b: Borrower, cs: seq<Collection>)
    requires HasLegacyLoan(b)
    ensures OptionCount(Some(b), cs, 0) == |FilterCollections(Some(b), cs, LEGACY_ID)|
  {
    assert GetAllLoans(Some(b))[0].id == LEGACY_ID;
    assert FilterCollections(Some(b), cs, LEGACY_ID) == Filter(cs, NoLoanId);
  }

  /** Without a legacy loan, the first listed loan also counts the orphaned collections. */
  lemma FirstLoanOptionCount(b: Borrower, cs: seq<Collection>)
    requires OrdinaryLoanIds(b) && !HasLegacyLoan(b) && b.loans != []
    ensures OptionCount(Some(b), cs, 0) == |FilterCollections(Some(b), cs, b.loans[0].id)|
  {
    var id := b.loans[0].id;
    ListedLoanId(b, 0);
    assert FirstLoanTakesOrphans(Some(b), id);
    assert FilterCollections(Some(b), cs, id) == Filter(cs, OrphanOrOfLoan(id));
    FilterCongruent(cs, OrphanOrOfLoan(id), OrphanOrSameLoanId(id));
  }

  /** Every other listed loan counts the collections carrying its id. */
  lemma OtherLoanOptionCount(b: Borrower, cs: seq<Collection>, index: nat)
    requires OrdinaryLoanIds(b)
    requires LegacyCount(b) <= index < |GetAllLoans(Some(b))|
    requires HasLegacyLoan(b) || index != 0
    ensures OptionCount(Some(b), cs, index) == |FilterCollections(Some(b), cs, GetAllLoans(Some(b))[index].id)|
  {
    var all := GetAllLoans(Some(b));
    var id := all[index].id;
    ListedLoanId(b, index);
    if !HasLegacyLoan(b) {
      assert all[0] == FromLoan(b.loans[0]);
      assert b.loans[0].id != b.loans[index].id;
    }
    assert !FirstLoanTakesOrphans(Some(b), id);
    assert FilterCollections(Some(b), cs, id) == Filter(cs, OfLoan(id));
    FilterCongruent(cs, OfLoan(id), SameLoanId(id));
  }

  /** A listed loan's entry carries its ordinary id. */
  lemma ListedLoanId(b: Borrower, index: nat)
    requires OrdinaryLoanIds(b)
    requires LegacyCount(b) <= index < |GetAllLoans(Some(b))|
    ensures GetAllLoans(Some(b))[index] == FromLoan(b.loans[index - LegacyCount(b)])
    ensures GetAllLoans(Some(b))[index].id !in {"", LEGACY_ID, ALL_LOANS}
  {
    assert b.loans[index - LegacyCount(b)].id !in {"", LEGACY_ID, ALL_LOANS};
  }

  // ----- amounts and row actions -----

  /** The expected amount of a row: the interest of the collection's loan, or 0 when no loan
      resolves. */
  function ExpectedAmount(b: Option<Borrower>, c: Collection): Option<real> {
    match GetLoanById(b, c.loanId)
    case None => Some(0.0)
    case Some(l) => CalculateInterest(l)
  }

  /** For a stored borrower whose legacy loan (if shown) has an interest, every row has a
      non-negative expected amount. */
  lemma ExpectedAmountNonNegative(b: Borrower, c: Collection)
    requires BorrowerValid(b)
    requires HasLegacyLoan(b) ==> b.interestAmount.Some?
    ensures ExpectedAmount(Some(b), c).Some? && ExpectedAmount(Some(b), c).value >= 0.0
  {
    var found := GetLoanById(Some(b), c.loanId);
    if found.Some? {
      ValidBorrowerLoansPriced(b);
      assert Priced(found.value);
    }
  }

  /** A loan with a known, non-negative principal and interest. */
  predicate Priced(l: ViewLoan) {
    l.interestAmount.Some? && l.principalAmount >= 0.0 && l.interestAmount.value >= 0.0
  }

  lemma ValidBorrowerLoansPriced(b: Borrower)
    requires BorrowerValid(b)
    requires HasLegacyLoan(b) ==> b.interestAmount.Some?
    ensures forall l :: l in GetAllLoans(Some(b)) ==> Priced(l)
  {
    var all := GetAllLoans(Some(b));
    forall l | l in all ensures Priced(l) {
      var k :| 0 <= k < |all| && all[k] == l;
      PricedEntry(b, k);
    }
  }

  /** Entry `k` of a stored borrower's loan list is priced. */
  lemma PricedEntry(b: Borrower, k: nat)
    requires BorrowerValid(b)
    requires HasLegacyLoan(b) ==> b.interestAmount.Some?
    requires k < |GetAllLoans(Some(b))|
    ensures Priced(GetAllLoans(Some(b))[k])
  {
    if k < LegacyCount(b) {
      LegacyEntry(b);
    } else {
      var j := k - LegacyCount(b);
      ListedEntry(b, j);
      assert LoanValid(b.loans[j]);
    }
  }

  /** For a legacy collection of a legacy borrower, the amount the page expects is the amount
      the server stores when marking it without an amount. */
  lemma LegacyExpectedIsStoredDefault(b: Borrower, c: Collection)
    requires HasLegacyLoan(b) && !Truthy(c.loanId) && b.interestAmount.Some?
    ensures ExpectedAmount(Some(b), c) == Collections.LegacyDefaultAmount(b)
  {
    ResolvesNullToFirst(b, c);
    var page := CalculateInterest(LegacyLoan(b));
    var server := Collections.LegacyDefaultAmount(b);
    assert ExpectedAmount(Some(b), c) == page;
    if b.interestIsPercent {
      assert page.value * 100.0 == b.principalAmount.value * b.interestAmount.value;
      assert server.value * 100.0 == b.principalAmount.value * b.interestAmount.value;
    }
  }

  /** The server's default ignores the collection's loan: for a borrower with one listed loan of
      50 a month and no legacy fields, the page expects 50 while the server would store 0. */
  lemma ServerDefaultIgnoresLoan()
    ensures var l := Loan("l1", 1000.0, 50.0, false, Date(2024, 1, 15), "", Active);
      var b := Borrower("b1", "u1", "Asha", [l], None, None, false, None, "", false, 0);
      var c := NewCollection("c1", "b1", Some("l1"), "u1", 0, 0);
      && ExpectedAmount(Some(b), c) == Some(50.0)
      && Collections.LegacyDefaultAmount(b) == Some(0.0)
  {
    var l := Loan("l1", 1000.0, 50.0, false, Date(2024, 1, 15), "", Active);
    var b := Borrower("b1", "u1", "Asha", [l], None, None, false, None, "", false, 0);
    ResolvesListedLoan(b, 0);
  }

  datatype RowAction = MarkCollectedAction | MarkPendingAction

  /** The action button of a row: a pending collection can be marked collected, any other can
      be put back to pending. */
  function ActionFor(c: Collection): (r: RowAction)
    ensures r == MarkCollectedAction <==> c.status == Pending
  {
    if c.status == Pending then MarkCollectedAction else MarkPendingAction
  }

  /** Each button's request flips the row to the other button. */
  lemma ActionsAlternate(s: Store, ownerId: Id, id: Id, req: Collections.MarkRequest, now: Instant)
    requires Borrowers.StoreValid(s)
    ensures var r := Collections.MarkCollected(s, ownerId, id, req, now);
      r.Ok? ==> ActionFor(r.value.collections[FindOwnedCollection(s.collections, ownerId, id).value]) == MarkPendingAction
    ensures var r := Collections.MarkPending(s, ownerId, id, now);
      r.Ok? ==> ActionFor(r.value.collections[FindOwnedCollection(s.collections, ownerId, id).value]) == MarkCollectedAction
  {
  }

  // ----- totals of the detail page -----

  function ViewPrincipal(l: ViewLoan): real {
    l.principalAmount
  }

  /** `totalPrincipal`: the principals of all loans, legacy included. */
  function TotalPrincipal(ls: seq<ViewLoan>): real {
    Sum(ls, ViewPrincipal)
  }

  lemma {:induction false} ListedPrincipals(ls: seq<Loan>)
    ensures Sum(ListedLoans(ls), ViewPrincipal) == Sum(ls, LoanPrincipal)
  {
    if ls != [] {
      assert ListedLoans(ls)[1..] == ListedLoans(ls[1..]);
      ListedPrincipals(ls[1..]);
    }
  }

  /** The page's total principal is what the dashboard counts as lent to the borrower, unless
      a legacy principal has no date (the dashboard counts it, the page does not show it). */
  lemma TotalPrincipalIsLent(b: Borrower)
    requires !(HasLegacyPrincipal(b) && b.dateProvided.None?)
    ensures TotalPrincipal(GetAllLoans(Some(b))) == Collections.BorrowerLent(b)
  {
    var head := if HasLegacyLoan(b) then [LegacyLoan(b)] else [];
    assert GetAllLoans(Some(b)) == head + ListedLoans(b.loans);
    SumAppend(head, ListedLoans(b.loans), ViewPrincipal);
    ListedPrincipals(b.loans);
    if head != [] {
      assert head[1..] == [];
    }
  }

  /** `totalInterest`: the monthly interest summed over all loans; one missing interest makes
      the total NaN (`None`). */
  function TotalInterest(ls: seq<ViewLoan>): (r: Option<real>)
    ensures r.Some? <==> forall k :: 0 <= k < |ls| ==> ls[k].interestAmount.Some?
    ensures r.Some? && (forall k :: 0 <= k < |ls| ==>
                          ls[k].principalAmount >= 0.0 && ls[k].interestAmount.value >= 0.0)
            ==> r.value >= 0.0
  {
    if ls == [] then Some(0.0)
    else
      assert forall k :: 1 <= k < |ls| ==> ls[k] == ls[1..][k - 1];
      match (CalculateInterest(ls[0]), TotalInterest(ls[1..]))
      case (Some(a), Some(t)) => Some(a + t)
      case _ => None
  }

  /** A stored borrower whose legacy loan (if shown) has an interest has a non-negative total
      interest. */
  lemma TotalInterestOfStoredBorrower(b: Borrower)
    requires BorrowerValid(b)
    requires HasLegacyLoan(b) ==> b.interestAmount.Some?
    ensures TotalInterest(GetAllLoans(Some(b))).Some?
    ensures TotalInterest(GetAllLoans(Some(b))).value >= 0.0
  {
    StoredBorrowerTerms(b);
  }

  /** Every loan a stored borrower shows has non-negative terms and, given a legacy interest, an
      interest. */
  lemma StoredBorrowerTerms(b: Borrower)
    requires BorrowerValid(b)
    requires HasLegacyLoan(b) ==> b.interestAmount.Some?
    ensures var all := GetAllLoans(Some(b));
      forall k :: 0 <= k < |all| ==>
        all[k].interestAmount.Some? && all[k].principalAmount >= 0.0 && all[k].interestAmount.value >= 0.0
  {
    var all := GetAllLoans(Some(b));
    forall k | 0 <= k < |all|
      ensures all[k].interestAmount.Some? && all[k].principalAmount >= 0.0 && all[k].interestAmount.value >= 0.0
    {
      if k < LegacyCount(b) {
        LegacyEntry(b);
      } else {
        var l := b.loans[k - LegacyCount(b)];
        ListedEntry(b, k - LegacyCount(b));
        assert LoanValid(l);
      }
    }
  }

  predicate IsActiveView(l: ViewLoan) {
    l.status == Active
  }

  predicate IsActiveLoan(l: Loan) {
    l.status == Active
  }

  lemma {:induction false} ListedActive(ls: seq<Loan>)
    ensures Count(ListedLoans(ls), IsActiveView) == Count(ls, IsActiveLoan)
  {
    if ls != [] {
      assert ListedLoans(ls)[1..] == ListedLoans(ls[1..]);
      ListedActive(ls[1..]);
    }
  }

  /** The active-loan count: the legacy loan always counts, then each listed loan whose status
      is active. */
  lemma ActiveCountOfBorrower(b: Borrower)
    ensures Count(GetAllLoans(Some(b)), IsActiveView) == LegacyCount(b) + Count(b.loans, IsActiveLoan)
  {
    var head := if HasLegacyLoan(b) then [LegacyLoan(b)] else [];
    assert GetAllLoans(Some(b)) == head + ListedLoans(b.loans);
    FilterAppend(head, ListedLoans(b.loans), IsActiveView);
    ListedActive(b.loans);
    if head != [] {
      assert head[1..] == [];
    }
  }

  // ----- renaming on the detail page -----

  datatype NameEdit = Refused | Rename(borrowerName: string)

  /** A name the page may send: not empty and already trimmed. */
  predicate SendableName(name: string) {
    name != "" && Trim(name) == name
  }

  /** `handleUpdateName`: a name that is blank once trimmed is refused without a request;
      otherwise the trimmed name is sent. */
  function HandleUpdateName(newName: string): (r: NameEdit)
    ensures r.Refused? <==> Trim(newName) == ""
    ensures r.Rename? ==> SendableName(r.borrowerName)
  {
    var t := Trim(newName);
    if t == "" then Refused
    else
      TrimIdempotent(newName);
      Rename(t)
  }

  /** The refused names are exactly those made of white space only, the empty one included;
      any other name is sent trimmed. */
  lemma RenameRefusesBlank(newName: string)
    ensures HandleUpdateName(newName).Refused? <==> AllSpace(newName)
    ensures HandleUpdateName(newName).Rename? ==> HandleUpdateName(newName).borrowerName == Trim(newName)
  {
    TrimEmptyIffBlank(newName);
  }

  /** The page's copy of the borrower after the answer: renamed only on success. */
  function AfterRename(b: Borrower, edit: NameEdit, success: bool): Borrower {
    if edit.Rename? && success then b.(borrowerName := edit.borrowerName) else b
  }

  function NamePatch(name: string): Borrowers.BorrowerPatch {
    Borrowers.BorrowerPatch(Some(name), None, None, None, None, None)
  }

  /** A rename request with a name the page sends (see `HandleUpdateName`) always succeeds for
      the owner's borrower; the server then stores the page's renamed copy and changes nothing
      else. */
  lemma RenameAgreesWithServer(s: Store, ownerId: Id, id: Id, name: string)
    requires Borrowers.StoreValid(s)
    requires SendableName(name)
    ensures var r := Borrowers.UpdateBorrower(s, ownerId, id, NamePatch(name));
      var i := FindOwnedBorrower(s.borrowers, ownerId, id);
      i.Some? ==>
        r == Ok(s.(borrowers := s.borrowers[i.value := AfterRename(s.borrowers[i.value], Rename(name), true)]))
  {
    var i := FindOwnedBorrower(s.borrowers, ownerId, id);
    if i.Some? {
      var b := s.borrowers[i.value];
      NamePatchRenames(b, name);
      Borrowers.UpdateFoundBorrower(s, ownerId, id, NamePatch(name), i.value);
    }
  }

  /** A name patch with an already trimmed name renames and keeps everything else. */
  lemma NamePatchRenames(b: Borrower, name: string)
    requires Trim(name) == name
    ensures Borrowers.ApplyPatch(b, NamePatch(name)) == b.(borrowerName := name)
  {
  }

  // ----- the borrowers list -----

  /** `toggleExpanded`: flips whether exactly one borrower is expanded. */
  function ToggleExpanded(expanded: set<Id>, id: Id): (r: set<Id>)
    ensures id in r <==> id !in expanded
    ensures forall x :: x != id ==> (x in r <==> x in expanded)
  {
    if id in expanded then expanded - {id} else expanded + {id}
  }

  /** Toggling twice restores the set. */
  lemma ToggleTwice(expanded: set<Id>, id: Id)
    ensures ToggleExpanded(ToggleExpanded(expanded, id), id) == expanded
  {
  }

  /** The short id a row shows: the last six characters of the id, upper-cased. */
  function ShortId(id: Id): (r: string)
    ensures |r| == if |id| < 6 then |id| else 6
    ensures forall k :: 0 <= k < |r| ==> r[k] == ToUpperAscii(id[|id| - |r| + k])
  {
    var t := TakeLast(id, 6);
    assert forall k :: 0 <= k < |t| ==> t[k] == id[|id| - |t| + k];
    UpperCase(t)
  }

  datatype PrincipalCell = TotalCell(amount: real) | SingleCell(amount: real)

  /** The principal column: the total over all loans when there are several, else the one
      loan's principal (0 when there is none). Either way it shows the total principal. */
  function PrincipalCellOf(b: Borrower): (r: PrincipalCell)
    ensures r.TotalCell? <==> |GetAllLoans(Some(b))| > 1
    ensures r.amount == TotalPrincipal(GetAllLoans(Some(b)))
  {
    var all := GetAllLoans(Some(b));
    if |all| > 1 then TotalCell(TotalPrincipal(all))
    else if all == [] then SingleCell(0.0)
    else
      assert all[1..] == [];
      assert TotalPrincipal(all) == all[0].principalAmount + Sum(all[1..], ViewPrincipal);
      SingleCell(if all[0].principalAmount == 0.0 then 0.0 else all[0].principalAmount)
  }

  datatype InterestCell = MultipleLoans | RateCell(rate: Option<real>, monthly: Option<real>) | FlatCell(amount: real)

  /** The interest column: "Multiple" for several loans; for one rate loan the rate and the
      monthly amount; otherwise the flat amount, 0 when missing. */
  function InterestCellOf(b: Borrower): (r: InterestCell)
    ensures r.MultipleLoans? <==> |GetAllLoans(Some(b))| > 1
    ensures r.RateCell? ==> var all := GetAllLoans(Some(b));
      |all| == 1 && all[0].interestIsPercent && r.rate == all[0].interestAmount
      && r.monthly == CalculateInterest(all[0])
    ensures r.FlatCell? ==> var all := GetAllLoans(Some(b));
      |all| <= 1 && (all == [] || !all[0].interestIsPercent)
      && (all == [] || all[0].interestAmount.None? ==> r.amount == 0.0)
      && (all != [] && all[0].interestAmount.Some? ==> Some(r.amount) == CalculateInterest(all[0]))
  {
    var all := GetAllLoans(Some(b));
    if |all| > 1 then MultipleLoans
    else if all != [] && all[0].interestIsPercent then RateCell(all[0].interestAmount, CalculateInterest(all[0]))
    else if all == [] then FlatCell(0.0)
    else
      match all[0].interestAmount
      case None => FlatCell(0.0)
      case Some(i) => FlatCell(if i == 0.0 then 0.0 else i)
  }

  // ----- the dashboard tables -----

  /** The status of an upcoming row. */
  function UpcomingLabel(daysUntil: int): string {
    if daysUntil == 0 then "Due Today"
    else if daysUntil == 1 then "Due Tomorrow"
    else "In " + IntToString(daysUntil) + " days"
  }

  /** With `now` during `today`, every collection of the dashboard's upcoming window is due in
      0, 1 or 2 whole days, so its label is one of three and never a negative count. */
  lemma UpcomingLabelsWithinTwoDays(due: Instant, now: Instant, today: Date)
    requires ValidDate(today)
    requires Collections.InUpcomingWindow(due, today)
    requires Midnight(today) <= now < Midnight(today) + DAY_MS
    ensures 0 <= DaysUntilDue(due, now) <= 2
    ensures UpcomingLabel(DaysUntilDue(due, now)) in {"Due Today", "Due Tomorrow", "In 2 days"}
  {
    var d := DaysUntilDue(due, now);
    assert DAY_MS == 86_400_000;
    if due >= now {
      assert d * DAY_MS <= due - now;
      assert due - now <= 2 * DAY_MS;
    } else {
      assert (d - 1) * DAY_MS < due - now;
      assert due - now > -DAY_MS;
    }
    if d == 2 {
      assert NatToString(2) == "2";
      assert IntToString(2) == "2";
      assert UpcomingLabel(d) == "In 2 days";
    }
  }

  /** The whole days a collection is overdue by. */
  function OverdueDays(daysUntil: int): nat {
    if daysUntil < 0 then -daysUntil else daysUntil
  }

  /** The status of an overdue row: the day count, singular only for exactly one. */
  function OverdueLabel(daysUntil: int): string {
    var n := OverdueDays(daysUntil);
    NatToString(n) + " day" + (if n != 1 then "s" else "")
  }

  /** The count an overdue row shows is the number of whole days elapsed since the due date. */
  lemma OverdueDaysAreWholeDaysElapsed(due: Instant, now: Instant)
    requires due < now
    ensures var n := OverdueDays(DaysUntilDue(due, now));
      n * DAY_MS <= now - due < (n + 1) * DAY_MS
  {
  }

  /** The "Loan #" badge of a dashboard row: shown only when the borrower has several loans and
      the collection's loan resolves, numbered from 1 by its position. */
  function LoanBadge(b: Option<Borrower>, c: Collection): (r: Option<nat>)
    ensures r.Some? <==> |GetAllLoans(b)| > 1 && GetLoanById(b, c.loanId).Some?
    ensures r.Some? ==> 1 <= r.value <= |GetAllLoans(b)|
    ensures r.Some? ==> GetAllLoans(b)[r.value - 1].id == GetLoanById(b, c.loanId).value.id
  {
    var all := GetAllLoans(b);
    match GetLoanById(b, c.loanId)
    case None => None
    case Some(loan) =>
      if |all| <= 1 then None
      else
        match IndexOfId(all, loan.id)
        case None => None
        case Some(k) => Some(k + 1)
  }

  // ----- the mark-collection dialog -----

  /** The amount input: empty, or the text of a number (`Filled(None)` is "NaN"). */
  datatype AmountField = Blank | Filled(value: Option<real>)

  /** Prefill the amount with the interest of `loan`; unchanged when no loan resolves or the
      interest is `undefined` (rendering it throws before the field is set). */
  function PrefillAmount(current: AmountField, loan: Option<ViewLoan>): (r: AmountField)
    ensures loan.Some? && loan.value.interestAmount.Some? ==> r == Filled(CalculateInterest(loan.value))
    ensures loan.None? ==> r == current
  {
    match loan
    case None => current
    case Some(l) =>
      if !l.interestIsPercent && l.interestAmount.None? then current
      else Filled(CalculateInterest(l))
  }

  datatype ModalState = ModalState(pending: seq<Collection>, selected: Option<Id>, amount: AmountField)

  predicate IsPendingCollection(c: Collection) {
    c.status == Pending
  }

  /** The dialog once the borrower's collections arrive: only the pending ones are offered, in
      fetched order; the first is selected and its loan's interest prefilled. */
  function OpenModal(b: Borrower, fetched: seq<Collection>): (st: ModalState)
    ensures IsSubsequence(st.pending, fetched)
    ensures forall c :: c in st.pending <==> c in fetched && c.status == Pending
    ensures st.selected.None? <==> st.pending == []
    ensures st.pending != [] ==> st.selected == Some(st.pending[0].id)
    ensures st.pending != [] ==> st.amount == PrefillAmount(Blank, GetLoanById(Some(b), st.pending[0].loanId))
    ensures st.pending == [] ==> st.amount == Blank
  {
    var pending := Filter(fetched, IsPendingCollection);
    FilterIsSubsequence(fetched, IsPendingCollection);
    FilterMembers(fetched, IsPendingCollection);
    if pending == [] then ModalState(pending, None, Blank)
    else ModalState(pending, Some(pending[0].id), PrefillAmount(Blank, GetLoanById(Some(b), pending[0].loanId)))
  }

  /** The first offered collection with the id. */
  function FindPending(cs: seq<Collection>, id: Id): (r: Option<Collection>)
    ensures r.Some? ==> r.value in cs && r.value.id == id
    ensures r.None? <==> forall k :: 0 <= k < |cs| ==> cs[k].id != id
    ensures cs != [] && cs[0].id == id ==> r == Some(cs[0])
  {
    if cs == [] then None
    else if cs[0].id == id then Some(cs[0])
    else FindPending(cs[1..], id)
  }

  /** `handleCollectionChange`: select another collection and prefill its loan's interest. */
  function SelectCollection(st: ModalState, b: Borrower, id: Id): (r: ModalState)
    ensures r.pending == st.pending && r.selected == Some(id)
    ensures FindPending(st.pending, id).None? ==> r.amount == st.amount
    ensures FindPending(st.pending, id).Some? ==>
      r.amount == PrefillAmount(st.amount, GetLoanById(Some(b), FindPending(st.pending, id).value.loanId))
  {
    match FindPending(st.pending, id)
    case None => st.(selected := Some(id))
    case Some(c) => st.(selected := Some(id), amount := PrefillAmount(st.amount, GetLoanById(Some(b), c.loanId)))
  }

  /** The expected amount the dialog shows: the interest of the selected collection's loan, or
      0 when nothing is selected or no loan resolves. */
  function ModalExpected(st: ModalState, b: Borrower): (r: Option<real>)
    ensures st.selected.None? ==> r == Some(0.0)
    ensures st.selected.Some? && FindPending(st.pending, st.selected.value).None? ==> r == Some(0.0)
    ensures st.selected.Some? && FindPending(st.pending, st.selected.value).Some? ==>
      var c := FindPending(st.pending, st.selected.value).value;
      && r == ExpectedAmount(Some(b), c)
      && (GetLoanById(Some(b), c.loanId).None? ==> r == Some(0.0))
      && (GetLoanById(Some(b), c.loanId).Some? ==> r == CalculateInterest(GetLoanById(Some(b), c.loanId).value))
  {
    if st.selected.None? then Some(0.0)
    else
      match FindPending(st.pending, st.selected.value)
      case None => Some(0.0)
      case Some(c) => ExpectedAmount(Some(b), c)
  }

  /** When the first pending collection's loan has an interest, the prefilled amount is the
      expected amount the dialog shows. */
  lemma OpenModalPrefillsExpected(b: Borrower, fetched: seq<Collection>)
    ensures var st := OpenModal(b, fetched);
      st.pending != [] && GetLoanById(Some(b), st.pending[0].loanId).Some?
      && GetLoanById(Some(b), st.pending[0].loanId).value.interestAmount.Some?
      ==> st.amount == Filled(ModalExpected(st, b))
  {
  }

  function DueDateOf(c: Collection): int {
    c.dueDate
  }

  /** When the collections arrive sorted by due date (as the server returns them), the
      preselected one is the earliest pending. */
  lemma DefaultIsEarliestPending(b: Borrower, fetched: seq<Collection>)
    requires SortedBy(fetched, DueDateOf)
    ensures var st := OpenModal(b, fetched);
      st.pending != [] ==> forall c :: c in fetched && c.status == Pending ==> st.pending[0].dueDate <= c.dueDate
  {
    var st := OpenModal(b, fetched);
    if st.pending != [] {
      FirstPendingIsEarliest(fetched);
      forall c | c in fetched && c.status == Pending ensures st.pending[0].dueDate <= c.dueDate {
        var j :| 0 <= j < |fetched| && fetched[j] == c;
      }
    }
  }

  /** In a list sorted by due date, the first pending entry is due no later than any pending one. */
  lemma {:induction false} FirstPendingIsEarliest(fetched: seq<Collection>)
    requires SortedBy(fetched, DueDateOf)
    requires Filter(fetched, IsPendingCollection) != []
    ensures forall k :: 0 <= k < |fetched| && fetched[k].status == Pending ==>
      Filter(fetched, IsPendingCollection)[0].dueDate <= fetched[k].dueDate
  {
    var pending := Filter(fetched, IsPendingCollection);
    if fetched[0].status == Pending {
      assert pending[0] == fetched[0];
      assert forall k :: 0 <= k < |fetched| ==> DueDateOf(fetched[0]) <= DueDateOf(fetched[k]);
    } else {
      var rest := fetched[1..];
      assert pending == Filter(rest, IsPendingCollection);
      assert SortedBy(rest, DueDateOf) by {
        forall i, j | 0 <= i < j < |rest| ensures DueDateOf(rest[i]) <= DueDateOf(rest[j]) {
          assert rest[i] == fetched[i + 1] && rest[j] == fetched[j + 1];
        }
      }
      FirstPendingIsEarliest(rest);
      forall k | 0 <= k < |fetched| && fetched[k].status == Pending ensures pending[0].dueDate <= fetched[k].dueDate {
        assert k > 0;
        assert fetched[k] == rest[k - 1];
      }
    }
  }

  /** What the dialog sends to mark a collection collected. */
  datatype MarkPayload = MarkPayload(collectionId: Id, collectedDate: Instant, amountCollected: Option<real>, notes: string)

  /** `handleSubmit`: with nothing selected an error is shown and nothing is sent; otherwise the
      selected collection, the date, the parsed amount (a blank field parses as NaN) and the
      notes. */
  function SubmitModal(st: ModalState, date: Instant, notes: string): (r: Option<MarkPayload>)
    ensures r.None? <==> !Truthy(st.selected)
    ensures r.Some? ==> r.value.collectionId == st.selected.value && r.value.collectedDate == date
    ensures r.Some? ==> r.value.notes == notes
    ensures r.Some? ==> r.value.amountCollected == (if st.amount.Filled? then st.amount.value else None)
  {
    if !Truthy(st.selected) then None
    else
      var amount := match st.amount { case Blank => None case Filled(v) => v };
      Some(MarkPayload(st.selected.value, date, amount, notes))
  }
}

=== FILE: migration.dfy ===
/** The one-off migration that attaches collections created before loans existed (their loan id
    is null) to the first loan of their borrower. */
module Migration {
  import opened Wrappers
  import opened Model
  import opened Seqs

  /** The populated borrower of a collection with a null loan id has at least one listed loan.
      The lookup is by id alone, so a soft-deleted borrower counts. */
  predicate Fixable(bs: seq<Borrower>, c: Collection) {
    c.loanId.None? && FindBorrowerById(bs, c.borrowerId).Some?
    && FindBorrowerById(bs, c.borrowerId).value.loans != []
  }

  function FixableIn(bs: seq<Borrower>): Collection -> bool {
    c => Fixable(bs, c)
  }

  predicate NullLoanId(c: Collection) {
    c.loanId.None?
  }

  /** The collection after the migration looked at it: attached to the first loan and saved at
      `now` when fixable, untouched otherwise. */
  function Fixed(bs: seq<Borrower>, c: Collection, now: Instant): (r: Collection)
    ensures Fixable(bs, c) ==> r.loanId == Some(FindBorrowerById(bs, c.borrowerId).value.loans[0].id)
    ensures !Fixable(bs, c) ==> r == c
    ensures r.id == c.id && r.borrowerId == c.borrowerId && r.ownerId == c.ownerId
    ensures r.dueDate == c.dueDate && r.status == c.status && r.amountCollected == c.amountCollected
    ensures r.collectedDate == c.collectedDate && r.notes == c.notes
  {
    if Fixable(bs, c) then
      c.(loanId := Some(FindBorrowerById(bs, c.borrowerId).value.loans[0].id), updatedAt := now)
    else c
  }

  /** One line of the summary the script prints. */
  datatype UpdateEntry = UpdateEntry(collectionId: Id, borrowerName: string, dueDate: Instant,
                                     status: CollectionStatus, newLoanId: Id)

  function Entry(bs: seq<Borrower>, c: Collection): UpdateEntry
    requires Fixable(bs, c)
  {
    var b := FindBorrowerById(bs, c.borrowerId).value;
    UpdateEntry(c.id, b.borrowerName, c.dueDate, c.status, b.loans[0].id)
  }

  /** The summary lines for `cs`, in processing order. */
  function Entries(bs: seq<Borrower>, cs: seq<Collection>): seq<UpdateEntry>
  {
    if cs == [] then []
    else
      var front := cs[..|cs| - 1];
      Entries(bs, front) + (if Fixable(bs, cs[|cs| - 1]) then [Entry(bs, cs[|cs| - 1])] else [])
  }

  /** One log line per fixable collection, each naming the collection and its new loan. */
  lemma {:induction false} EntriesMatchFixable(bs: seq<Borrower>, cs: seq<Collection>)
    ensures |Entries(bs, cs)| == Count(cs, FixableIn(bs))
  {
    if cs != [] {
      var front := cs[..|cs| - 1];
      var last := cs[|cs| - 1];
      assert cs == front + [last];
      EntriesMatchFixable(bs, front);
      CountSnoc(front, last, FixableIn(bs));
    }
  }

  /** The collections with a null loan id among `cs`, counted from the back. */
  function NullCount(cs: seq<Collection>): nat {
    if cs == [] then 0
    else NullCount(cs[..|cs| - 1]) + (if cs[|cs| - 1].loanId.None? then 1 else 0)
  }

  lemma {:induction false} NullCountIsCount(cs: seq<Collection>)
    ensures NullCount(cs) == Count(cs, NullLoanId)
  {
    if cs != [] {
      var front := cs[..|cs| - 1];
      assert cs == front + [cs[|cs| - 1]];
      NullCountIsCount(front);
      CountSnoc(front, cs[|cs| - 1], NullLoanId);
    }
  }

  /** What one more collection adds to the log and to the count of null loan ids. */
  lemma Step(bs: seq<Borrower>, done: seq<Collection>, c: Collection)
    ensures Entries(bs, done + [c]) == Entries(bs, done) + (if Fixable(bs, c) then [Entry(bs, c)] else [])
    ensures NullCount(done + [c]) == NullCount(done) + (if c.loanId.None? then 1 else 0)
  {
    assert (done + [c])[..|done|] == done;
  }

  /** `fixNullLoanIds`: walk the collections with a null loan id, attach each fixable one to its
      borrower's first loan, count the updated and the skipped, and log the updates. */
  method FixNullLoanIds(s: Store, now: Instant)
    returns (r: Store, updated: nat, skipped: nat, updates: seq<UpdateEntry>)
    ensures r.borrowers == s.borrowers
    ensures |r.collections| == |s.collections|
    ensures forall k :: 0 <= k < |s.collections| ==>
              r.collections[k] == Fixed(s.borrowers, s.collections[k], now)
    ensures updated == Count(s.collections, FixableIn(s.borrowers))
    ensures updated + skipped == Count(s.collections, NullLoanId)
    ensures updates == Entries(s.borrowers, s.collections)
    ensures |updates| == updated
  {
    var bs := s.borrowers;
    var cs := s.collections;
    var out: seq<Collection> := [];
    updated, skipped, updates := 0, 0, [];
    var i := 0;
    while i < |cs|
      invariant 0 <= i <= |cs|
      invariant |out| == i
      invariant forall k :: 0 <= k < i ==> out[k] == Fixed(bs, cs[k], now)
      invariant updated == |updates|
      invariant updated + skipped == NullCount(cs[..i])
      invariant updates == Entries(bs, cs[..i])
    {
      var c := cs[i];
      assert cs[..i + 1] == cs[..i] + [c];
      Step(bs, cs[..i], c);
      var next := c;
      if c.loanId.None? {
        var found := FindBorrowerById(bs, c.borrowerId);
        if found.None? || found.value.loans == [] {
          skipped := skipped + 1;
        } else {
          var b := found.value;
          next := c.(loanId := Some(b.loans[0].id), updatedAt := now);
          updated := updated + 1;
          updates := updates + [UpdateEntry(c.id, b.borrowerName, c.dueDate, c.status, b.loans[0].id)];
        }
      }
      assert next == Fixed(bs, c, now);
      out := out + [next];
      i := i + 1;
    }
    assert cs[..i] == cs;
    EntriesMatchFixable(bs, cs);
    NullCountIsCount(cs);
    r := Store(bs, out);
  }

  /** Running the migration a second time changes nothing: every collection it could attach
      already has a loan id, and the rest still cannot be attached. */
  lemma FixedIdempotent(bs: seq<Borrower>, c: Collection, t1: Instant, t2: Instant)
    ensures !Fixable(bs, Fixed(bs, c, t1))
    ensures Fixed(bs, Fixed(bs, c, t1), t2) == Fixed(bs, c, t1)
  {
  }

  /** After the migration, a collection still has a null loan id exactly when it was skipped. */
  lemma FixedNullIffSkipped(bs: seq<Borrower>, c: Collection, now: Instant)
    ensures Fixed(bs, c, now).loanId.None? <==> c.loanId.None? && !Fixable(bs, c)
  {
  }
}

=== FILE: model.dfy ===
/** The documents the ledger stores: loans embedded in borrowers, and interest collections
    that refer to a borrower, optionally to one of its loans, and to the owning user. */
module Model {
  import opened Wrappers
  import opened Calendar

  /** Document ids (ObjectIds in the store), compared as their string form. */
  type Id = string

  /** Milliseconds on the store's clock. */
  type Instant = int

  datatype LoanStatus = Active | PaidOff | WrittenOff

  datatype CollectionStatus = Pending | Received | Missed | Provided

  function LoanStatusName(s: LoanStatus): string {
    match s
    case Active => "active"
    case PaidOff => "paid_off"
    case WrittenOff => "written_off"
  }

  function CollectionStatusName(s: CollectionStatus): string {
    match s
    case Pending => "pending"
    case Received => "received"
    case Missed => "missed"
    case Provided => "provided"
  }

  /** The status enum check of the collection schema: only the four names are accepted. */
  function ParseCollectionStatus(name: string): (r: Option<CollectionStatus>)
    ensures r.Some? ==> CollectionStatusName(r.value) == name
    ensures (exists s :: CollectionStatusName(s) == name) ==> r.Some?
  {
    if name == "pending" then Some(Pending)
    else if name == "received" then Some(Received)
    else if name == "missed" then Some(Missed)
    else if name == "provided" then Some(Provided)
    else None
  }

  lemma CollectionStatusNameRoundTrip(s: CollectionStatus)
    ensures ParseCollectionStatus(CollectionStatusName(s)) == Some(s)
  {
  }

  /** One loan in a borrower's `loans` list. */
  datatype Loan = Loan(
    id: Id,
    principalAmount: real,
    interestAmount: real,
    interestIsPercent: bool,
    dateProvided: Date,
    notes: string,
    status: LoanStatus)

  /** A borrower. The optional `principalAmount` ... `notes` fields are the legacy single loan
      that predates the `loans` list. */
  datatype Borrower = Borrower(
    id: Id,
    ownerId: Id,
    borrowerName: string,
    loans: seq<Loan>,
    principalAmount: Option<real>,
    interestAmount: Option<real>,
    interestIsPercent: bool,
    dateProvided: Option<Date>,
    notes: string,
    deleted: bool,
    createdAt: Instant)

  /** One scheduled monthly interest payment. `loanId == None` stands for the null loan id of a
      legacy single-loan borrower. */
  datatype Collection = Collection(
    id: Id,
    borrowerId: Id,
    loanId: Option<Id>,
    ownerId: Id,
    dueDate: Instant,
    collectedDate: Option<Instant>,
    status: CollectionStatus,
    amountCollected: real,
    notes: string,
    updatedAt: Instant)

  /** The whole document store as far as the ledger sees it. */
  datatype Store = Store(borrowers: seq<Borrower>, collections: seq<Collection>)

  function LoanPrincipal(l: Loan): real {
    l.principalAmount
  }

  // ----- request validation, as express-validator applies it -----

  /** 10^21 and 10^-6: JavaScript's `String` writes a number of magnitude at least the first,
      or non-zero and below the second, in exponent form ("1e+21", "1e-7"). */
  const EXPONENT_ABOVE: real := 1_000_000_000_000_000_000_000.0
  const EXPONENT_BELOW: real := 0.000001

  /** `isNumeric` on a JSON number: the validator tests the text `String(a)` against a plain
      decimal numeral (an optional sign, digits, at most one point), so exactly the numbers
      written without an exponent pass. */
  predicate NumericText(a: real) {
    a == 0.0 || (EXPONENT_BELOW <= a < EXPONENT_ABOVE) || (EXPONENT_BELOW <= -a < EXPONENT_ABOVE)
  }

  // ----- schema validation, as the store applies it on save -----

  /** Loan schema: both amounts present (always, in this typing) and at least 0. */
  predicate LoanValid(l: Loan) {
    l.principalAmount >= 0.0 && l.interestAmount >= 0.0 && ValidDate(l.dateProvided)
  }

  /** `min: 0` on an optional number: an absent value is not checked. */
  predicate OptionalAtLeastZero(v: Option<real>) {
    v.Some? ==> v.value >= 0.0
  }

  /** Borrower schema: owner and a non-empty name are required (a required string rejects
      the empty string); legacy amounts are optional but at least 0; every loan is valid. */
  predicate BorrowerValid(b: Borrower) {
    && b.ownerId != ""
    && b.borrowerName != ""
    && OptionalAtLeastZero(b.principalAmount)
    && OptionalAtLeastZero(b.interestAmount)
    && (b.dateProvided.Some? ==> ValidDate(b.dateProvided.value))
    && forall k :: 0 <= k < |b.loans| ==> LoanValid(b.loans[k])
  }

  /** Collection schema: borrower and owner references are required, the amount is at least 0. */
  predicate CollectionValid(c: Collection) {
    c.borrowerId != "" && c.ownerId != "" && c.amountCollected >= 0.0
  }

  /** `doc.save()`: the document when it passes validation, otherwise the 500 path. */
  function SaveBorrower(b: Borrower): (r: Result<Borrower>)
    ensures r.Ok? <==> BorrowerValid(b)
    ensures r.Ok? ==> r.value == b
    ensures r.Err? ==> r.error == Invalid
  {
    if BorrowerValid(b) then Ok(b) else Err(Invalid)
  }

  function SaveCollection(c: Collection): (r: Result<Collection>)
    ensures r.Ok? <==> CollectionValid(c)
    ensures r.Ok? ==> r.value == c
    ensures r.Err? ==> r.error == Invalid
  {
    if CollectionValid(c) then Ok(c) else Err(Invalid)
  }

  // ----- construction with schema defaults -----

  /** The fields a caller may give for a new loan; `None` means the field was left out. */
  datatype LoanInput = LoanInput(
    principalAmount: real,
    interestAmount: real,
    interestIsPercent: Option<bool>,
    dateProvided: Date,
    notes: Option<string>)

  /** A new loan with the schema defaults: not a percentage, empty notes, status active. */
  function NewLoan(id: Id, input: LoanInput): (l: Loan)
    ensures l.id == id
    ensures l.principalAmount == input.principalAmount && l.interestAmount == input.interestAmount
    ensures l.dateProvided == input.dateProvided
    ensures l.interestIsPercent <==> input.interestIsPercent == Some(true)
    ensures l.notes == (if input.notes.Some? then input.notes.value else "")
    ensures l.status == Active
    ensures LoanValid(l) <==>
      input.principalAmount >= 0.0 && input.interestAmount >= 0.0 && ValidDate(input.dateProvided)
  {
    Loan(id, input.principalAmount, input.interestAmount,
         match input.interestIsPercent { case Some(p) => p case None => false },
         input.dateProvided,
         match input.notes { case Some(n) => n case None => "" },
         Active)
  }

  /** A new collection with the schema defaults: pending, nothing collected, no notes. */
  function NewCollection(id: Id, borrowerId: Id, loanId: Option<Id>, ownerId: Id,
                         dueDate: Instant, now: Instant): (c: Collection)
    ensures c.id == id && c.borrowerId == borrowerId && c.loanId == loanId && c.ownerId == ownerId
    ensures c.dueDate == dueDate
    ensures c.status == Pending && c.amountCollected == 0.0
    ensures c.collectedDate == None && c.notes == ""
    ensures CollectionValid(c) <==> borrowerId != "" && ownerId != ""
  {
    Collection(id, borrowerId, loanId, ownerId, dueDate, None, Pending, 0.0, "", now)
  }

  // ----- JavaScript truthiness of the legacy fields -----

  /** `if (borrower.principalAmount)`: present and not 0. */
  predicate HasLegacyPrincipal(b: Borrower) {
    b.principalAmount.Some? && b.principalAmount.value != 0.0
  }

  /** `borrower.principalAmount && borrower.dateProvided`: the legacy single loan exists. */
  predicate HasLegacyLoan(b: Borrower) {
    HasLegacyPrincipal(b) && b.dateProvided.Some?
  }

  // ----- lookups -----

  /** `findOne({_id, ownerId, deleted: false})`: index of the first matching borrower. */
  function FindOwnedBorrower(bs: seq<Borrower>, ownerId: Id, id: Id): (r: Option<nat>)
    ensures r.Some? ==> r.value < |bs| && bs[r.value].id == id
                        && bs[r.value].ownerId == ownerId && !bs[r.value].deleted
    ensures r.Some? ==> forall k :: 0 <= k < r.value ==>
                          !(bs[k].id == id && bs[k].ownerId == ownerId && !bs[k].deleted)
    ensures r.None? <==> forall k :: 0 <= k < |bs| ==>
                          !(bs[k].id == id && bs[k].ownerId == ownerId && !bs[k].deleted)
  {
    if bs == [] then None
    else if bs[0].id == id && bs[0].ownerId == ownerId && !bs[0].deleted then Some(0)
    else
      match FindOwnedBorrower(bs[1..], ownerId, id)
      case None => None
      case Some(k) => Some(k + 1)
  }

  /** `findById(id)` (also what `populate` does): the first borrower with the id, deleted or not. */
  function FindBorrowerById(bs: seq<Borrower>, id: Id): (r: Option<Borrower>)
    ensures r.Some? ==> r.value in bs && r.value.id == id
    ensures r.None? <==> forall k :: 0 <= k < |bs| ==> bs[k].id != id
  {
    if bs == [] then None
    else if bs[0].id == id then Some(bs[0])
    else FindBorrowerById(bs[1..], id)
  }

  /** `findOne({_id, ownerId})` on collections: index of the first matching collection. */
  function FindOwnedCollection(cs: seq<Collection>, ownerId: Id, id: Id): (r: Option<nat>)
    ensures r.Some? ==> r.value < |cs| && cs[r.value].id == id && cs[r.value].ownerId == ownerId
    ensures r.None? <==> forall k :: 0 <= k < |cs| ==> !(cs[k].id == id && cs[k].ownerId == ownerId)
  {
    if cs == [] then None
    else if cs[0].id == id && cs[0].ownerId == ownerId then Some(0)
    else
      match FindOwnedCollection(cs[1..], ownerId, id)
      case None => None
      case Some(k) => Some(k + 1)
  }
}

=== FILE: reminders.dfy ===
/** The daily reminder job: pending collections due in two days, due today and overdue,
    grouped by owner, with at most one e-mail per owner and kind. */
module Reminders {
  import opened Calendar
  import opened Model
  import opened Seqs

  datatype ReminderKind = TwoDays | DueToday | Overdue

  /** The e-mail subject of each kind. */
  function Subject(k: ReminderKind): (r: string)
    ensures |r| > 0
  {
    match k
    case TwoDays => "Reminder: Interest Collections Due in 2 Days"
    case DueToday => "Reminder: Interest Collections Due Today"
    case Overdue => "Overdue: Interest Collections"
  }

  /** The subjects tell the three kinds apart. */
  lemma SubjectInjective(a: ReminderKind, b: ReminderKind)
    ensures Subject(a) == Subject(b) <==> a == b
  {
    if a != b {
      assert |Subject(a)| != |Subject(b)|;
    }
  }

  /** The two-day window as the job computes it: from 23:59:59.999 two days after today's
      midnight, for 24 hours. */
  predicate TwoDayWindowAsWritten(t: Instant, today: Date)
    requires ValidDate(today)
  {
    var from := Midnight(today) + 2 * DAY_MS + (DAY_MS - 1);
    from <= t < from + DAY_MS
  }

  /** Due dates are midnights, so the window as written holds the midnight three days ahead and
      misses the one two days ahead. */
  lemma TwoDayWindowAsWrittenSkipsDayTwo(today: Date)
    requires ValidDate(today)
    ensures !TwoDayWindowAsWritten(Midnight(today) + 2 * DAY_MS, today)
    ensures TwoDayWindowAsWritten(Midnight(today) + 3 * DAY_MS, today)
  {
    assert DAY_MS == 86_400_000;
  }

  /** The intended window: the whole calendar day two days after today. */
  predicate DueInTwoDays(t: Instant, today: Date)
    requires ValidDate(today)
  {
    Midnight(today) + 2 * DAY_MS <= t < Midnight(today) + 3 * DAY_MS
  }

  /** The corrected window holds exactly the instants of the day two days ahead. */
  lemma DueInTwoDaysIsDayTwo(t: Instant, today: Date)
    requires ValidDate(today)
    ensures DueInTwoDays(t, today) <==> t / DAY_MS == DayNumber(today) + 2
  {
    assert DAY_MS == 86_400_000;
  }

  /** Which two-day window the job uses: the one the job computes, or the intended one. */
  datatype TwoDayRule = AsWritten | Intended

  /** Where the two-day window starts, relative to today's midnight `start`: 23:59:59.999 two
      days ahead as written, that day's midnight as intended. Either window lasts 24 hours. */
  function TwoDayStart(rule: TwoDayRule, start: Instant): Instant {
    match rule
    case AsWritten => start + 2 * DAY_MS + (DAY_MS - 1)
    case Intended => start + 2 * DAY_MS
  }

  /** The job's three queries, relative to `start`, today's local midnight: pending, with a due
      date in the kind's window. None of them filters by owner. */
  predicate InBucket(c: Collection, k: ReminderKind, start: Instant, rule: TwoDayRule) {
    c.status == Pending &&
    match k
    case TwoDays => TwoDayStart(rule, start) <= c.dueDate < TwoDayStart(rule, start) + DAY_MS
    case DueToday => start <= c.dueDate < start + DAY_MS
    case Overdue => c.dueDate < start
  }

  /** With today's midnight as the start, the job's two-day bucket is the window as written, and
      the intended bucket is the calendar day two days ahead. */
  lemma TwoDayBucketWindows(c: Collection, today: Date)
    requires ValidDate(today)
    ensures InBucket(c, TwoDays, Midnight(today), AsWritten) <==>
      c.status == Pending && TwoDayWindowAsWritten(c.dueDate, today)
    ensures InBucket(c, TwoDays, Midnight(today), Intended) <==>
      c.status == Pending && DueInTwoDays(c.dueDate, today)
  {
  }

  /** A collection falls in at most one bucket. */
  lemma BucketsDisjoint(c: Collection, a: ReminderKind, b: ReminderKind, start: Instant, rule: TwoDayRule)
    requires InBucket(c, a, start, rule) && InBucket(c, b, start, rule)
    ensures a == b
  {
  }

  /** One of the job's three query results, in stored order. */
  function Bucket(cs: seq<Collection>, k: ReminderKind, start: Instant, rule: TwoDayRule): (r: seq<Collection>)
    ensures forall c :: c in r <==> c in cs && InBucket(c, k, start, rule)
  {
    if cs == [] then []
    else
      var rest := Bucket(cs[1..], k, start, rule);
      if InBucket(cs[0], k, start, rule) then [cs[0]] + rest else rest
  }

  /** One owner's share of one bucket, in stored order. */
  function OwnerBucket(cs: seq<Collection>, ownerId: Id, k: ReminderKind, start: Instant, rule: TwoDayRule)
    : (r: seq<Collection>)
    ensures forall c :: c in r <==> c in cs && c.ownerId == ownerId && InBucket(c, k, start, rule)
  {
    if cs == [] then []
    else
      var rest := OwnerBucket(cs[1..], ownerId, k, start, rule);
      if cs[0].ownerId == ownerId && InBucket(cs[0], k, start, rule) then [cs[0]] + rest else rest
  }

  /** An owner's share is the query result narrowed to that owner: in query order, each stored
      copy once, nothing added. */
  lemma {:induction false} OwnerBucketIsFilter(cs: seq<Collection>, ownerId: Id, k: ReminderKind,
                                               start: Instant, rule: TwoDayRule)
    ensures OwnerBucket(cs, ownerId, k, start, rule) ==
      Filter(cs, (c: Collection) => c.ownerId == ownerId && InBucket(c, k, start, rule))
  {
    if cs != [] {
      var p := (c: Collection) => c.ownerId == ownerId && InBucket(c, k, start, rule);
      OwnerBucketIsFilter(cs[1..], ownerId, k, start, rule);
      FilterCons(cs[0], cs[1..], p);
      assert [cs[0]] + cs[1..] == cs;
    }
  }

  function OwnerIds(cs: seq<Collection>): (r: seq<Id>)
    ensures |r| == |cs|
    ensures forall k :: 0 <= k < |cs| ==> r[k] == cs[k].ownerId
  {
    if cs == [] then [] else [cs[0].ownerId] + OwnerIds(cs[1..])
  }

  predicate Distinct<T(==)>(s: seq<T>) {
    forall i, j :: 0 <= i < j < |s| ==> s[i] != s[j]
  }

  /** The keys of the grouping object, in the order they were first inserted. */
  function Dedup(s: seq<Id>): (r: seq<Id>)
    ensures Distinct(r)
    ensures forall x :: x in r <==> x in s
  {
    if s == [] then []
    else
      var front := Dedup(s[..|s| - 1]);
      assert forall x :: x in s <==> x in s[..|s| - 1] || x == s[|s| - 1] by {
        assert s == s[..|s| - 1] + [s[|s| - 1]];
      }
      if s[|s| - 1] in front then front else front + [s[|s| - 1]]
  }

  datatype Reminder = Reminder(ownerId: Id, kind: ReminderKind, collections: seq<Collection>)

  /** A mail for `ownerId` of kind `k` carries the owner's whole, non-empty share of that bucket. */
  predicate MailFits(e: Reminder, cs: seq<Collection>, start: Instant, rule: TwoDayRule)
  {
    e.collections == OwnerBucket(cs, e.ownerId, e.kind, start, rule) && e.collections != []
  }

  /** The order in which one owner's mails go out. */
  function SendOrder(k: ReminderKind): nat {
    match k
    case TwoDays => 0
    case DueToday => 1
    case Overdue => 2
  }

  /** The mail of kind `k` for a bucket share: one mail when the share is non-empty, none otherwise. */
  function MailIf(ownerId: Id, k: ReminderKind, share: seq<Collection>): seq<Reminder> {
    if share != [] then [Reminder(ownerId, k, share)] else []
  }

  /** The mails of one owner: two-day, today, overdue, each only when its list is non-empty. */
  function MailsFor(cs: seq<Collection>, ownerId: Id, start: Instant, rule: TwoDayRule): (r: seq<Reminder>)
    ensures forall i :: 0 <= i < |r| ==> r[i].ownerId == ownerId && MailFits(r[i], cs, start, rule)
    ensures forall k :: OwnerBucket(cs, ownerId, k, start, rule) != [] ==>
      Reminder(ownerId, k, OwnerBucket(cs, ownerId, k, start, rule)) in r
  {
    var two := MailIf(ownerId, TwoDays, OwnerBucket(cs, ownerId, TwoDays, start, rule));
    var due := MailIf(ownerId, DueToday, OwnerBucket(cs, ownerId, DueToday, start, rule));
    var late := MailIf(ownerId, Overdue, OwnerBucket(cs, ownerId, Overdue, start, rule));
    var r := two + due + late;
    assert forall i :: 0 <= i < |r| ==> r[i] in two || r[i] in due || r[i] in late;
    assert forall k :: OwnerBucket(cs, ownerId, k, start, rule) != [] ==>
      Reminder(ownerId, k, OwnerBucket(cs, ownerId, k, start, rule)) in r by {
      forall k | OwnerBucket(cs, ownerId, k, start, rule) != []
        ensures Reminder(ownerId, k, OwnerBucket(cs, ownerId, k, start, rule)) in r
      {
        assert k == TwoDays || k == DueToday || k == Overdue;
      }
    }
    r
  }

  /** One owner's mails go out two-day first, then today, then overdue, so no kind repeats. */
  lemma MailsForInOrder(cs: seq<Collection>, ownerId: Id, start: Instant, rule: TwoDayRule)
    ensures var r := MailsFor(cs, ownerId, start, rule);
      forall i, j :: 0 <= i < j < |r| ==> SendOrder(r[i].kind) < SendOrder(r[j].kind)
    ensures var r := MailsFor(cs, ownerId, start, rule);
      forall i, j :: 0 <= i < j < |r| ==> r[i].kind != r[j].kind
  {
    var two := MailIf(ownerId, TwoDays, OwnerBucket(cs, ownerId, TwoDays, start, rule));
    var due := MailIf(ownerId, DueToday, OwnerBucket(cs, ownerId, DueToday, start, rule));
    var late := MailIf(ownerId, Overdue, OwnerBucket(cs, ownerId, Overdue, start, rule));
    var r := two + due + late;
    assert r == MailsFor(cs, ownerId, start, rule);
    forall i, j | 0 <= i < j < |r| ensures SendOrder(r[i].kind) < SendOrder(r[j].kind) {
      assert SendOrder(r[i].kind) == if i < |two| then 0 else if i < |two| + |due| then 1 else 2;
      assert SendOrder(r[j].kind) == if j < |two| then 0 else if j < |two| + |due| then 1 else 2;
    }
  }

  /** Every owner's mails, owner by owner. */
  function AllMails(cs: seq<Collection>, owners: seq<Id>, start: Instant, rule: TwoDayRule): (r: seq<Reminder>)
    ensures forall i :: 0 <= i < |r| ==> r[i].ownerId in owners && MailFits(r[i], cs, start, rule)
  {
    if owners == [] then []
    else
      var head := MailsFor(cs, owners[0], start, rule);
      var rest := AllMails(cs, owners[1..], start, rule);
      var r := head + rest;
      assert forall i :: 0 <= i < |r| ==> r[i].ownerId in owners && MailFits(r[i], cs, start, rule) by {
        forall i | 0 <= i < |r| ensures r[i].ownerId in owners && MailFits(r[i], cs, start, rule) {
          if i < |head| {
            assert r[i] == head[i];
          } else {
            assert r[i] == rest[i - |head|];
            assert rest[i - |head|].ownerId in owners[1..];
          }
        }
      }
      r
  }

  /** Each listed owner's mail for each non-empty bucket share is among the mails. */
  lemma {:induction false} AllMailsCover(cs: seq<Collection>, owners: seq<Id>, start: Instant, rule: TwoDayRule, o: Id, k: ReminderKind)
    requires o in owners && OwnerBucket(cs, o, k, start, rule) != []
    ensures Reminder(o, k, OwnerBucket(cs, o, k, start, rule)) in AllMails(cs, owners, start, rule)
  {
    var head := MailsFor(cs, owners[0], start, rule);
    var rest := AllMails(cs, owners[1..], start, rule);
    assert AllMails(cs, owners, start, rule) == head + rest;
    if o != owners[0] {
      assert o in owners[1..];
      AllMailsCover(cs, owners[1..], start, rule, o, k);
    }
  }

  /** Distinct owners get no two mails of the same kind. */
  lemma {:induction false} AllMailsUnique(cs: seq<Collection>, owners: seq<Id>, start: Instant, rule: TwoDayRule)
    requires Distinct(owners)
    ensures UniqueMails(AllMails(cs, owners, start, rule))
  {
    if owners != [] {
      var head := MailsFor(cs, owners[0], start, rule);
      var rest := AllMails(cs, owners[1..], start, rule);
      DistinctTail(owners);
      AllMailsUnique(cs, owners[1..], start, rule);
      MailsForInOrder(cs, owners[0], start, rule);
      UniqueJoin(head, rest, owners[0], owners[1..]);
    }
  }

  lemma DistinctTail(s: seq<Id>)
    requires s != [] && Distinct(s)
    ensures Distinct(s[1..]) && s[0] !in s[1..]
  {
  }

  /** No two mails go to the same owner with the same kind. */
  predicate UniqueMails(r: seq<Reminder>) {
    forall i, j :: 0 <= i < j < |r| ==> r[i].ownerId != r[j].ownerId || r[i].kind != r[j].kind
  }

  lemma UniqueJoin(head: seq<Reminder>, rest: seq<Reminder>, owner: Id, others: seq<Id>)
    requires forall i :: 0 <= i < |head| ==> head[i].ownerId == owner
    requires forall i, j :: 0 <= i < j < |head| ==> head[i].kind != head[j].kind
    requires forall i :: 0 <= i < |rest| ==> rest[i].ownerId in others
    requires owner !in others
    requires UniqueMails(rest)
    ensures UniqueMails(head + rest)
  {
    var r := head + rest;
    forall i, j | 0 <= i < j < |r| ensures r[i].ownerId != r[j].ownerId || r[i].kind != r[j].kind {
      if j >= |head| {
        assert r[j] == rest[j - |head|];
        if i >= |head| {
          assert r[i] == rest[i - |head|];
        }
      }
    }
  }

  /** `checkAndSendReminders`: mails for every owner met in the three result lists, in the
      order first met. Without mail credentials the job sends nothing. The program runs it
      with `rule == AsWritten`. */
  function CheckAndSendReminders(cs: seq<Collection>, start: Instant, rule: TwoDayRule, configured: bool)
    : (r: seq<Reminder>)
    ensures !configured ==> r == []
    ensures forall i :: 0 <= i < |r| ==> MailFits(r[i], cs, start, rule)
    ensures UniqueMails(r)
  {
    if !configured then []
    else
      var owners := Dedup(OwnerIds(Bucket(cs, TwoDays, start, rule) + Bucket(cs, DueToday, start, rule)
                                   + Bucket(cs, Overdue, start, rule)));
      AllMailsUnique(cs, owners, start, rule);
      AllMails(cs, owners, start, rule)
  }

  /** Every collection in one of the three buckets reaches its owner, in the mail of its kind. */
  lemma RemindersCoverBuckets(cs: seq<Collection>, start: Instant, rule: TwoDayRule, c: Collection, k: ReminderKind)
    requires c in cs && InBucket(c, k, start, rule)
    ensures Reminder(c.ownerId, k, OwnerBucket(cs, c.ownerId, k, start, rule)) in CheckAndSendReminders(cs, start, rule, true)
    ensures c in OwnerBucket(cs, c.ownerId, k, start, rule)
  {
    var all := Bucket(cs, TwoDays, start, rule) + Bucket(cs, DueToday, start, rule) + Bucket(cs, Overdue, start, rule);
    assert c in Bucket(cs, k, start, rule);
    assert c in all;
    var i :| 0 <= i < |all| && all[i] == c;
    assert OwnerIds(all)[i] == c.ownerId;
    var owners := Dedup(OwnerIds(all));
    assert c.ownerId in owners;
    AllMailsCover(cs, owners, start, rule, c.ownerId, k);
  }

  /** The job as written sends no two-day reminder for a collection due at midnight two days
      after today: no two-day mail carries it. */
  lemma JobSkipsDayTwo(cs: seq<Collection>, today: Date, c: Collection, m: Reminder)
    requires ValidDate(today)
    requires c.dueDate == Midnight(today) + 2 * DAY_MS
    requires m in CheckAndSendReminders(cs, Midnight(today), AsWritten, true) && m.kind == TwoDays
    ensures c !in m.collections
  {
    var r := CheckAndSendReminders(cs, Midnight(today), AsWritten, true);
    var i :| 0 <= i < |r| && r[i] == m;
    assert MailFits(r[i], cs, Midnight(today), AsWritten);
  }

  /** With the intended window, every pending collection due on the day two days after today
      reaches its owner in a two-day mail. */
  lemma IntendedJobRemindsDayTwo(cs: seq<Collection>, today: Date, c: Collection)
    requires ValidDate(today)
    requires c in cs && c.status == Pending && DueInTwoDays(c.dueDate, today)
    ensures exists m :: m in CheckAndSendReminders(cs, Midnight(today), Intended, true) &&
                        m.kind == TwoDays && m.ownerId == c.ownerId && c in m.collections
  {
    TwoDayBucketWindows(c, today);
    RemindersCoverBuckets(cs, Midnight(today), Intended, c, TwoDays);
  }
}

=== FILE: schedule.dfy ===
/** The monthly schedule generator: one pending collection per month after a loan's start. */
module Schedule {
  import opened Wrappers
  import opened Calendar
  import opened Model

  /** Months generated when the caller does not say otherwise. */
  const DEFAULT_MONTHS: nat := 12

  /** The records `generateMonthlyCollections` inserts for a borrower (or one of its loans)
      whose funds were provided on `start`. `ids` are the ids the store assigns on insert and
      `now` the insert time. Due dates are midnights of the computed days. */
  function GenerateMonthlyCollections(borrowerId: Id, ownerId: Id, start: Date, monthsCount: nat,
                                      loanId: Option<Id>, ids: seq<Id>, now: Instant)
    : (r: seq<Collection>)
    requires ValidDate(start)
    requires |ids| == monthsCount
    ensures |r| == monthsCount
    ensures forall i :: 0 <= i < |r| ==>
      r[i] == NewCollection(ids[i], borrowerId, loanId, ownerId,
                            Midnight(AddMonthsClamped(start, i + 1)), now)
  {
    assert forall i :: 0 <= i < monthsCount ==>
      ScheduleDueDate(start, i) == AddMonthsClamped(start, i + 1) by {
      forall i | 0 <= i < monthsCount
        ensures ScheduleDueDate(start, i) == AddMonthsClamped(start, i + 1)
      {
        ScheduleDueDateIsClamped(start, i);
      }
    }
    seq(monthsCount, i requires 0 <= i < monthsCount =>
      NewCollection(ids[i], borrowerId, loanId, ownerId, Midnight(ScheduleDueDate(start, i)), now))
  }

  /** The calendar day of due date `i`. */
  function DueDay(start: Date, i: nat): Date
    requires ValidDate(start)
  {
    AddMonthsClamped(start, i + 1)
  }

  /** Each record is pending with nothing collected, and carries the given loan, borrower and
      owner; due date `i` lies in the `(i + 1)`-th month after the start, on the start's day if
      that month has it and on its last day otherwise. */
  lemma ScheduleShape(borrowerId: Id, ownerId: Id, start: Date, monthsCount: nat,
                      loanId: Option<Id>, ids: seq<Id>, now: Instant, i: nat)
    requires ValidDate(start) && |ids| == monthsCount && i < monthsCount
    ensures var c := GenerateMonthlyCollections(borrowerId, ownerId, start, monthsCount, loanId, ids, now)[i];
      && c.status == Pending && c.amountCollected == 0.0 && c.collectedDate == None
      && c.loanId == loanId && c.borrowerId == borrowerId && c.ownerId == ownerId
      && c.dueDate == Midnight(DueDay(start, i))
    ensures var d := DueDay(start, i);
      && ValidDate(d)
      && MonthIndex(d.year, d.month) == MonthIndex(start.year, start.month) + i + 1
      && d.day == (if start.day <= DaysInMonth(d.year, d.month) then start.day
                   else DaysInMonth(d.year, d.month))
  {
  }

  /** Due dates strictly increase, by exactly one calendar month from one record to the next. */
  lemma ScheduleStrictlyIncreasing(borrowerId: Id, ownerId: Id, start: Date, monthsCount: nat,
                                   loanId: Option<Id>, ids: seq<Id>, now: Instant)
    requires ValidDate(start) && |ids| == monthsCount
    ensures var r := GenerateMonthlyCollections(borrowerId, ownerId, start, monthsCount, loanId, ids, now);
      forall i, j :: 0 <= i < j < |r| ==> r[i].dueDate < r[j].dueDate
    ensures forall i :: 0 <= i < monthsCount - 1 ==>
      MonthIndex(DueDay(start, i + 1).year, DueDay(start, i + 1).month)
        == MonthIndex(DueDay(start, i).year, DueDay(start, i).month) + 1
  {
    var r := GenerateMonthlyCollections(borrowerId, ownerId, start, monthsCount, loanId, ids, now);
    forall i, j | 0 <= i < j < |r|
      ensures r[i].dueDate < r[j].dueDate
    {
      var a, b := DueDay(start, i), DueDay(start, j);
      EarlierMonthEarlierDay(a, b);
      MidnightOrder(a, b);
      DayNumberOrder(a, b);
    }
  }

  /** A loan provided on 31 January 2024 is due on 29 February (a leap year), 31 March and
      30 April. */
  lemma EndOfMonthExample()
    ensures DueDay(Date(2024, 1, 31), 0) == Date(2024, 2, 29)
    ensures DueDay(Date(2024, 1, 31), 1) == Date(2024, 3, 31)
    ensures DueDay(Date(2024, 1, 31), 2) == Date(2024, 4, 30)
    ensures DueDay(Date(2023, 1, 31), 0) == Date(2023, 2, 28)
  {
    var mi := MonthIndex(2024, 1);
    assert mi == 24288;
    assert YearOfIndex(mi + 1) == 2024 && MonthOfIndex(mi + 1) == 2;
    assert YearOfIndex(mi + 2) == 2024 && MonthOfIndex(mi + 2) == 3;
    assert YearOfIndex(mi + 3) == 2024 && MonthOfIndex(mi + 3) == 4;
    assert IsLeapYear(2024) && !IsLeapYear(2023);
    assert YearOfIndex(MonthIndex(2023, 1) + 1) == 2023 && MonthOfIndex(MonthIndex(2023, 1) + 1) == 2;
  }
}

=== FILE: seqs.dfy ===
/** The query primitives the document store supplies (filter, sort by a key, limit, sum),
    written once over sequences and reused by every controller. */
module Seqs {

  /** `find(filter)`: the elements satisfying `p`, in their stored order. */
  function Filter<T(!new)>(s: seq<T>, p: T -> bool): (r: seq<T>)
    ensures |r| <= |s|
    ensures forall k :: 0 <= k < |r| ==> p(r[k])
  {
    if s == [] then []
    else
      assert s == [s[0]] + s[1..];
      (if p(s[0]) then [s[0]] else []) + Filter(s[1..], p)
  }

  /** The filtered sequence holds exactly the matching elements. */
  lemma {:induction false} FilterMembers<T(!new)>(s: seq<T>, p: T -> bool)
    ensures forall x :: x in Filter(s, p) <==> x in s && p(x)
  {
    if s != [] {
      FilterMembers(s[1..], p);
      assert s == [s[0]] + s[1..];
    }
  }

  /** Nothing passes a filter no element satisfies. */
  lemma {:induction false} FilterNone<T(!new)>(s: seq<T>, p: T -> bool)
    requires forall k :: 0 <= k < |s| ==> !p(s[k])
    ensures Filter(s, p) == []
  {
    if s != [] {
      FilterNone(s[1..], p);
    }
  }

  /** Filtering keeps every copy of a matching element and no copy of any other. */
  lemma {:induction false} FilterMultiset<T(!new)>(s: seq<T>, p: T -> bool, x: T)
    ensures multiset(Filter(s, p))[x] == if p(x) then multiset(s)[x] else 0
  {
    if s != [] {
      FilterMultiset(s[1..], p, x);
      assert s == [s[0]] + s[1..];
    }
  }

  /** One unfolding of `Filter` on a sequence written as head and tail. */
  lemma FilterCons<T(!new)>(h: T, t: seq<T>, p: T -> bool)
    ensures Filter([h] + t, p) == (if p(h) then [h] else []) + Filter(t, p)
  {
    var s := [h] + t;
    assert s[0] == h && s[1..] == t;
  }

  lemma {:induction false} FilterAppend<T(!new)>(a: seq<T>, b: seq<T>, p: T -> bool)
    ensures Filter(a + b, p) == Filter(a, p) + Filter(b, p)
  {
    if a == [] {
      assert a + b == b;
    } else {
      var h, t := a[0], a[1..];
      assert a == [h] + t;
      assert a + b == [h] + (t + b);
      FilterAppend(t, b, p);
      FilterCons(h, t + b, p);
      FilterCons(h, t, p);
      var head := if p(h) then [h] else [];
      assert head + (Filter(t, p) + Filter(b, p)) == (head + Filter(t, p)) + Filter(b, p);
    }
  }

  /** `a` can be obtained from `b` by deleting elements, keeping the order of the rest. */
  predicate IsSubsequence<T(==)>(a: seq<T>, b: seq<T>)
    decreases |b|
  {
    if a == [] then true
    else if b == [] then false
    else if a[0] == b[0] then IsSubsequence(a[1..], b[1..])
    else IsSubsequence(a, b[1..])
  }

  lemma {:induction false} FilterIsSubsequence<T(!new)>(s: seq<T>, p: T -> bool)
    ensures IsSubsequence(Filter(s, p), s)
  {
    if s != [] {
      FilterIsSubsequence(s[1..], p);
      var rest := Filter(s[1..], p);
      if p(s[0]) {
        assert Filter(s, p) == [s[0]] + rest;
        assert (Filter(s, p))[1..] == rest;
      } else {
        assert Filter(s, p) == rest;
        if rest != [] {
          assert IsSubsequence(rest, s[1..]);
        }
      }
    }
  }

  lemma {:induction false} IsSubsequenceOfItself<T>(s: seq<T>)
    ensures IsSubsequence(s, s)
  {
    if s != [] {
      IsSubsequenceOfItself(s[1..]);
    }
  }

  /** Filters that agree on the elements keep the same elements. */
  lemma {:induction false} FilterCongruent<T(!new)>(s: seq<T>, p: T -> bool, q: T -> bool)
    requires forall k :: 0 <= k < |s| ==> p(s[k]) == q(s[k])
    ensures Filter(s, p) == Filter(s, q)
  {
    if s != [] {
      FilterCongruent(s[1..], p, q);
    }
  }

  /** `countDocuments(filter)`. */
  function Count<T(!new)>(s: seq<T>, p: T -> bool): (n: nat)
    ensures n <= |s|
  {
    |Filter(s, p)|
  }

  /** Counting one more element adds one exactly when it satisfies `p`. */
  lemma CountSnoc<T(!new)>(s: seq<T>, x: T, p: T -> bool)
    ensures Count(s + [x], p) == Count(s, p) + (if p(x) then 1 else 0)
  {
    FilterAppend(s, [x], p);
    assert [x][1..] == [];
  }

  /** Two orderings of the same elements hold the same elements. */
  lemma SameElements<T>(a: seq<T>, b: seq<T>)
    requires multiset(a) == multiset(b)
    ensures forall x :: x in a <==> x in b
  {
    forall x ensures x in a <==> x in b {
      assert x in a <==> x in multiset(a);
      assert x in b <==> x in multiset(b);
    }
  }

  /** `$sum` of `f` over the elements (0 for none). */
  function Sum<T>(s: seq<T>, f: T -> real): real {
    if s == [] then 0.0 else f(s[0]) + Sum(s[1..], f)
  }

  lemma {:induction false} SumAppend<T>(a: seq<T>, b: seq<T>, f: T -> real)
    ensures Sum(a + b, f) == Sum(a, f) + Sum(b, f)
  {
    if a == [] {
      assert a + b == b;
    } else {
      assert (a + b)[0] == a[0];
      assert (a + b)[1..] == a[1..] + b;
      SumAppend(a[1..], b, f);
    }
  }

  lemma {:induction false} SumNonNegative<T>(s: seq<T>, f: T -> real)
    requires forall k :: 0 <= k < |s| ==> f(s[k]) >= 0.0
    ensures Sum(s, f) >= 0.0
  {
    if s != [] {
      SumNonNegative(s[1..], f);
    }
  }

  /** A sum of non-negative terms is at least each of its terms. */
  lemma {:induction false} SumAtLeastMember<T>(s: seq<T>, f: T -> real, x: T)
    requires forall k :: 0 <= k < |s| ==> f(s[k]) >= 0.0
    requires x in s
    ensures Sum(s, f) >= f(x)
  {
    if s[0] == x {
      SumNonNegative(s[1..], f);
    } else {
      SumAtLeastMember(s[1..], f, x);
    }
  }

  /** `.limit(n)`: the first `n` elements, or all of them when there are fewer. */
  function Take<T>(s: seq<T>, n: nat): (r: seq<T>)
    ensures |r| == if |s| < n then |s| else n
    ensures r == s[..|r|]
  {
    if |s| <= n then s else s[..n]
  }

  predicate SortedBy<T>(s: seq<T>, key: T -> int) {
    forall i, j :: 0 <= i < j < |s| ==> key(s[i]) <= key(s[j])
  }

  /** Putting a key no larger than the first one in front keeps a sequence sorted. */
  lemma ConsSorted<T>(h: T, s: seq<T>, key: T -> int)
    requires SortedBy(s, key)
    requires s != [] ==> key(h) <= key(s[0])
    ensures SortedBy([h] + s, key)
  {
    var r := [h] + s;
    forall i, j | 0 <= i < j < |r| ensures key(r[i]) <= key(r[j]) {
      if i == 0 {
        assert r[j] == s[j - 1];
        if j > 1 {
          assert key(s[0]) <= key(s[j - 1]);
        }
      } else {
        assert r[i] == s[i - 1] && r[j] == s[j - 1];
      }
    }
  }

  function Insert<T>(x: T, s: seq<T>, key: T -> int): (r: seq<T>)
    requires SortedBy(s, key)
    ensures SortedBy(r, key)
    ensures multiset(r) == multiset(s) + multiset{x}
    ensures |r| == |s| + 1
    ensures r[0] == x || (s != [] && r[0] == s[0])
  {
    if s == [] || key(x) <= key(s[0]) then
      ConsSorted(x, s, key);
      [x] + s
    else
      var tail := s[1..];
      assert SortedBy(tail, key) by {
        forall i, j | 0 <= i < j < |tail| ensures key(tail[i]) <= key(tail[j]) {
          assert tail[i] == s[i + 1] && tail[j] == s[j + 1];
        }
      }
      var rest := Insert(x, tail, key);
      assert key(s[0]) <= key(rest[0]) by {
        if rest[0] != x {
          assert rest[0] == s[1];
        }
      }
      ConsSorted(s[0], rest, key);
      assert s == [s[0]] + tail;
      [s[0]] + rest
  }

  /** `.sort({key: 1})`: the same elements, in non-decreasing order of `key`. */
  function SortBy<T>(s: seq<T>, key: T -> int): (r: seq<T>)
    ensures SortedBy(r, key)
    ensures multiset(r) == multiset(s)
    ensures |r| == |s|
  {
    if s == [] then []
    else
      assert s == [s[0]] + s[1..];
      Insert(s[0], SortBy(s[1..], key), key)
  }

  /** `.sort({key: -1})`: the same elements, newest (largest key) first. */
  function SortByDescending<T>(s: seq<T>, key: T -> int): (r: seq<T>)
    ensures forall i, j :: 0 <= i < j < |r| ==> key(r[i]) >= key(r[j])
    ensures multiset(r) == multiset(s)
    ensures |r| == |s|
  {
    SortBy(s, x => -key(x))
  }

  /** `r` is what `.sort({key: 1}).limit(n)` returns for the matches `s`: `n` of them (all when
      there are fewer), none more often than it matches, in key order, and no match left out
      has a smaller key than one returned. */
  predicate LeastBy<T(==)>(r: seq<T>, s: seq<T>, n: nat, key: T -> int) {
    && multiset(r) <= multiset(s)
    && |r| == (if |s| < n then |s| else n)
    && SortedBy(r, key)
    && forall x, y :: x in r && y in multiset(s) - multiset(r) ==> key(x) <= key(y)
  }

  /** Limiting a sorted arrangement of the matches to its first `n` keeps the `n` least. */
  lemma TakeSortedIsLeast<T>(s: seq<T>, sorted: seq<T>, n: nat, key: T -> int)
    requires SortedBy(sorted, key) && multiset(sorted) == multiset(s)
    ensures LeastBy(Take(sorted, n), s, n, key)
  {
    var r := Take(sorted, n);
    var rest := sorted[|r|..];
    assert sorted == r + rest;
    assert multiset(s) - multiset(r) == multiset(rest);
    assert |s| == |sorted| by {
      assert |multiset(s)| == |s| && |multiset(sorted)| == |sorted|;
    }
    forall x, y | x in r && y in multiset(s) - multiset(r) ensures key(x) <= key(y) {
      assert y in rest;
      var i :| 0 <= i < |r| && r[i] == x;
      var j :| 0 <= j < |rest| && rest[j] == y;
      assert sorted[i] == x && sorted[|r| + j] == y;
    }
    assert SortedBy(r, key) by {
      forall i, j | 0 <= i < j < |r| ensures key(r[i]) <= key(r[j]) {
        assert r[i] == sorted[i] && r[j] == sorted[j];
      }
    }
  }

  /** `r` is what `.sort({key: -1}).limit(n)` returns for the matches `s`: `n` of them (all
      when there are fewer), none more often than it matches, largest key first, and no match
      left out has a larger key than one returned. */
  predicate GreatestBy<T(==)>(r: seq<T>, s: seq<T>, n: nat, key: T -> int) {
    && multiset(r) <= multiset(s)
    && |r| == (if |s| < n then |s| else n)
    && (forall i, j :: 0 <= i < j < |r| ==> key(r[i]) >= key(r[j]))
    && forall x, y :: x in r && y in multiset(s) - multiset(r) ==> key(x) >= key(y)
  }

  /** Limiting the descending sort of the matches to its first `n` keeps the `n` greatest. */
  lemma TakeDescendingIsGreatest<T>(s: seq<T>, n: nat, key: T -> int)
    ensures GreatestBy(Take(SortByDescending(s, key), n), s, n, key)
  {
    var neg := (x: T) => -key(x);
    var sorted := SortByDescending(s, key);
    assert SortedBy(sorted, neg);
    TakeSortedIsLeast(s, sorted, n, neg);
  }
}

=== FILE: signup.dfy ===
/** The sign-up form: its field rules, the e-mail pattern, and the request body, which is the
    form without the confirmation field. */
module Signup {
  import opened Wrappers
  import opened Forms

  datatype SignupForm = SignupForm(name: string, email: string, password: string, confirmPassword: string)

  // ----- the e-mail pattern `^[A-Z0-9._%+-]+@[A-Z0-9.-]+\.[A-Z]{2,}$`, case-insensitive -----

  predicate IsLetter(c: char) {
    ('A' <= c <= 'Z') || ('a' <= c <= 'z')
  }

  predicate IsAsciiDigit(c: char) {
    '0' <= c <= '9'
  }

  /** `[A-Z0-9._%+-]` under the `i` flag. */
  predicate LocalChar(c: char) {
    IsLetter(c) || IsAsciiDigit(c) || c == '.' || c == '_' || c == '%' || c == '+' || c == '-'
  }

  /** `[A-Z0-9.-]` under the `i` flag. */
  predicate DomainChar(c: char) {
    IsLetter(c) || IsAsciiDigit(c) || c == '.' || c == '-'
  }

  predicate AllLocal(s: string) {
    forall k :: 0 <= k < |s| ==> LocalChar(s[k])
  }

  predicate AllDomain(s: string) {
    forall k :: 0 <= k < |s| ==> DomainChar(s[k])
  }

  predicate AllLetters(s: string) {
    forall k :: 0 <= k < |s| ==> IsLetter(s[k])
  }

  /** One way the pattern matches `e`: the `@` at `at`, the last dot at `dot`, a non-empty local
      part, a non-empty domain and a top-level part of at least two letters. */
  predicate EmailSplit(e: string, at: int, dot: int) {
    && 0 < at < dot < |e| - 2
    && e[at] == '@' && e[dot] == '.'
    && at + 1 < dot
    && AllLocal(e[..at]) && AllDomain(e[at + 1..dot]) && AllLetters(e[dot + 1..])
  }

  /** The pattern's meaning: some split of `e` matches it. */
  predicate EmailPattern(e: string) {
    exists at, dot :: 0 < at < dot < |e| && EmailSplit(e, at, dot)
  }

  function IndexOfChar(s: string, c: char): (r: Option<nat>)
    ensures r.Some? ==> r.value < |s| && s[r.value] == c
    ensures r.Some? ==> forall k :: 0 <= k < r.value ==> s[k] != c
    ensures r.None? <==> forall k :: 0 <= k < |s| ==> s[k] != c
  {
    if s == [] then None
    else if s[0] == c then Some(0)
    else
      match IndexOfChar(s[1..], c)
      case None => None
      case Some(k) => Some(k + 1)
  }

  function LastIndexOfChar(s: string, c: char): (r: Option<nat>)
    ensures r.Some? ==> r.value < |s| && s[r.value] == c
    ensures r.Some? ==> forall k :: r.value < k < |s| ==> s[k] != c
    ensures r.None? <==> forall k :: 0 <= k < |s| ==> s[k] != c
  {
    if s == [] then None
    else if s[|s| - 1] == c then Some(|s| - 1)
    else LastIndexOfChar(s[..|s| - 1], c)
  }

  /** The pattern as a scan: the first `@` ends the local part, the last dot after it starts
      the top-level part. */
  function MatchesEmail(e: string): bool {
    match IndexOfChar(e, '@')
    case None => false
    case Some(at) =>
      var rest := e[at + 1..];
      match LastIndexOfChar(rest, '.')
      case None => false
      case Some(d) =>
        at > 0 && d > 0 && |rest| - d - 1 >= 2
        && AllLocal(e[..at]) && AllDomain(rest[..d]) && AllLetters(rest[d + 1..])
  }

  /** The scan accepts exactly what the pattern matches. */
  lemma MatchesEmailIffPattern(e: string)
    ensures MatchesEmail(e) <==> EmailPattern(e)
  {
    if MatchesEmail(e) {
      var at := IndexOfChar(e, '@').value;
      var rest := e[at + 1..];
      var d := LastIndexOfChar(rest, '.').value;
      var dot := at + 1 + d;
      assert e[dot] == rest[d];
      assert e[at + 1..dot] == rest[..d];
      assert e[dot + 1..] == rest[d + 1..];
      assert EmailSplit(e, at, dot);
    }
    if EmailPattern(e) {
      var at, dot :| EmailSplit(e, at, dot);
      ScanFindsSplit(e, at, dot);
    }
  }

  /** The first occurrence of `c` is at `i` when `s[i]` is `c` and nothing before it is. */
  lemma IndexOfCharAt(s: string, c: char, i: nat)
    requires i < |s| && s[i] == c
    requires forall k :: 0 <= k < i ==> s[k] != c
    ensures IndexOfChar(s, c) == Some(i)
  {
  }

  /** The last occurrence of `c` is at `i` when `s[i]` is `c` and nothing after it is. */
  lemma LastIndexOfCharAt(s: string, c: char, i: nat)
    requires i < |s| && s[i] == c
    requires forall k :: i < k < |s| ==> s[k] != c
    ensures LastIndexOfChar(s, c) == Some(i)
  {
  }

  /** In a matching split the local part holds no `@`, so the scan's `@` is the split's. */
  lemma SplitAtIsFirstAt(e: string, at: int, dot: int)
    requires EmailSplit(e, at, dot)
    ensures IndexOfChar(e, '@') == Some(at)
  {
    var local := e[..at];
    forall k | 0 <= k < at ensures e[k] != '@' {
      assert e[k] == local[k] && LocalChar(local[k]);
    }
    IndexOfCharAt(e, '@', at);
  }

  /** In a matching split the top-level part holds no dot, so the scan's last dot is the split's. */
  lemma SplitDotIsLastDot(e: string, at: int, dot: int)
    requires EmailSplit(e, at, dot)
    ensures LastIndexOfChar(e[at + 1..], '.') == Some(dot - at - 1)
  {
    var rest := e[at + 1..];
    var top := e[dot + 1..];
    var d := dot - at - 1;
    assert rest[d] == e[dot];
    forall k | d < k < |rest| ensures rest[k] != '.' {
      assert rest[k] == top[k - d - 1] && IsLetter(top[k - d - 1]);
    }
    LastIndexOfCharAt(rest, '.', d);
  }

  /** A matching split is the one the scan finds: no `@` before it, no dot after the last one. */
  lemma ScanFindsSplit(e: string, at: int, dot: int)
    requires EmailSplit(e, at, dot)
    ensures MatchesEmail(e)
  {
    SplitAtIsFirstAt(e, at, dot);
    SplitDotIsLastDot(e, at, dot);
    var rest := e[at + 1..];
    var d := dot - at - 1;
    assert rest[..d] == e[at + 1..dot];
    assert rest[d + 1..] == e[dot + 1..];
    assert AllDomain(rest[..d]) && AllLetters(rest[d + 1..]);
  }

  /** The pattern rule applies only to a non-empty value; `required` reports the empty one. */
  function EmailError(e: string): (r: Option<string>)
    ensures r.None? <==> EmailPattern(e)
    ensures e == "" ==> r == Some("Email is required")
    ensures e != "" && r.Some? ==> r == Some("Invalid email address")
  {
    MatchesEmailIffPattern(e);
    if e == "" then Some("Email is required")
    else if !MatchesEmail(e) then Some("Invalid email address")
    else None
  }

  /** `required`, then equality with the password field. */
  function ConfirmError(confirm: string, password: string): (r: Option<string>)
    ensures r.None? <==> confirm != "" && confirm == password
    ensures confirm == "" ==> r == Some("Please confirm your password")
    ensures confirm != "" && r.Some? ==> r == Some("Passwords do not match")
  {
    if confirm == "" then Some("Please confirm your password")
    else if confirm != password then Some("Passwords do not match")
    else None
  }

  datatype SignupErrors = SignupErrors(
    name: Option<string>,
    email: Option<string>,
    password: Option<string>,
    confirmPassword: Option<string>)

  function ValidateSignup(f: SignupForm): SignupErrors {
    SignupErrors(
      RequiredMinLength(f.name, 2, "Name is required", "Name must be at least 2 characters"),
      EmailError(f.email),
      RequiredMinLength(f.password, 6, "Password is required", "Password must be at least 6 characters"),
      ConfirmError(f.confirmPassword, f.password))
  }

  /** The sign-up request body. */
  datatype SignupPayload = SignupPayload(name: string, email: string, password: string)

  /** `onSubmit`, reached only when no field shows a message: post the form without the
      confirmation field. */
  function SubmitSignup(f: SignupForm): (r: Option<SignupPayload>)
    ensures r.Some? <==> ValidateSignup(f) == SignupErrors(None, None, None, None)
    ensures r.Some? ==> r.value == SignupPayload(f.name, f.email, f.password)
  {
    if ValidateSignup(f) == SignupErrors(None, None, None, None)
    then Some(SignupPayload(f.name, f.email, f.password))
    else None
  }

  /** The rules in one line each: a name of at least two characters, an e-mail the pattern
      matches, a password of at least six characters, and the same password typed twice. */
  lemma SignupAcceptedIff(f: SignupForm)
    ensures SubmitSignup(f).Some? <==>
      |f.name| >= 2 && EmailPattern(f.email) && |f.password| >= 6 && f.confirmPassword == f.password
  {
  }

  /** The body never carries the confirmation, and only the typed password is sent. */
  lemma PayloadDropsConfirmation(f: SignupForm, g: SignupForm)
    requires f.name == g.name && f.email == g.email && f.password == g.password
    requires SubmitSignup(f).Some? && SubmitSignup(g).Some?
    ensures SubmitSignup(f) == SubmitSignup(g)
    ensures f.confirmPassword == g.confirmPassword
  {
  }

  /** A plain address matches the pattern. */
  lemma PlainAddressMatches()
    ensures EmailPattern("asha@example.com")
  {
    var e := "asha@example.com";
    assert e[..4] == "asha" && e[5..12] == "example" && e[13..] == "com";
    assert EmailSplit(e, 4, 12);
  }

  /** A one-letter top-level part does not match. */
  lemma ShortTopLevelFails()
    ensures !EmailPattern("asha@example.c")
  {
    var e := "asha@example.c";
    assert forall k :: 0 <= k < |e| - 2 ==> e[k] != '.';
  }

  /** A matching address holds exactly one `@`. */
  lemma PatternHasOneAt(e: string, i: int, j: int)
    requires EmailPattern(e)
    requires 0 <= i < j < |e|
    ensures !(e[i] == '@' && e[j] == '@')
  {
    var at, dot :| 0 < at < dot < |e| && EmailSplit(e, at, dot);
    forall k | 0 <= k < |e| && k != at ensures e[k] != '@' {
      if k < at {
        assert LocalChar(e[..at][k]);
      } else if k < dot {
        assert DomainChar(e[at + 1..dot][k - at - 1]);
      } else if k > dot {
        assert IsLetter(e[dot + 1..][k - dot - 1]);
      }
    }
  }

  /** A second `@` does not match. */
  lemma SecondAtFails()
    ensures !EmailPattern("a@b@example.com")
  {
    var e := "a@b@example.com";
    if EmailPattern(e) {
      PatternHasOneAt(e, 1, 3);
    }
  }
}

=== FILE: text.dfy ===
/** String helpers that the JavaScript runtime supplies to the ledger:
    `String.prototype.trim`, ASCII case mapping, and decimal rendering of counts. */
module Text {

  /** The characters `trim` removes: ECMAScript WhiteSpace and LineTerminator. */
  predicate IsSpace(c: char) {
    || c == ' ' || c == '\t' || c == '\n' || c == '\r'
    || c == '\U{000B}' || c == '\U{000C}' || c == '\U{00A0}' || c == '\U{1680}'
    || ('\U{2000}' <= c <= '\U{200A}')
    || c == '\U{2028}' || c == '\U{2029}' || c == '\U{202F}' || c == '\U{205F}'
    || c == '\U{3000}' || c == '\U{FEFF}'
  }

  predicate AllSpace(s: string) {
    forall k :: 0 <= k < |s| ==> IsSpace(s[k])
  }

  /** Drops leading white space: the result is a suffix of `s` that does not start with a space. */
  function TrimStart(s: string): (r: string)
    ensures |r| <= |s| && r == s[|s| - |r|..]
    ensures AllSpace(s[..|s| - |r|])
    ensures r == [] || !IsSpace(r[0])
  {
    if s == [] || !IsSpace(s[0]) then s else TrimStart(s[1..])
  }

  /** Drops trailing white space: the result is a prefix of `s` that does not end with a space. */
  function TrimEnd(s: string): (r: string)
    ensures |r| <= |s| && r == s[..|r|]
    ensures AllSpace(s[|r|..])
    ensures r == [] || !IsSpace(r[|r| - 1])
  {
    if s == [] || !IsSpace(s[|s| - 1]) then s else TrimEnd(s[..|s| - 1])
  }

  /** `s.trim()`: the longest infix of `s` that neither starts nor ends with white space. */
  function Trim(s: string): (r: string)
    ensures |r| <= |s|
    ensures r == [] || (!IsSpace(r[0]) && !IsSpace(r[|r| - 1]))
  {
    TrimEnd(TrimStart(s))
  }

  /** A string trims to nothing exactly when it is made of white space only. */
  lemma TrimEmptyIffBlank(s: string)
    ensures Trim(s) == [] <==> AllSpace(s)
  {
    var t := TrimStart(s);
    if t != [] {
      assert t[0] == s[|s| - |t|];
    }
    assert t[0..] == t;
    assert s[..|s|] == s;
  }

  /** Trimming twice is trimming once. */
  lemma TrimIdempotent(s: string)
    ensures Trim(Trim(s)) == Trim(s)
  {
    var t := Trim(s);
    assert TrimStart(t) == t;
  }

  function ToUpperAscii(c: char): (u: char)
    ensures 'a' <= c <= 'z' ==> 'A' <= u <= 'Z'
    ensures !('a' <= c <= 'z') ==> u == c
  {
    if 'a' <= c <= 'z' then (c as int - 32) as char else c
  }

  function ToLowerAscii(c: char): (l: char)
    ensures 'A' <= c <= 'Z' ==> 'a' <= l <= 'z'
    ensures !('A' <= c <= 'Z') ==> l == c
  {
    if 'A' <= c <= 'Z' then (c as int + 32) as char else c
  }

  function UpperCase(s: string): (r: string)
    ensures |r| == |s|
    ensures forall k :: 0 <= k < |s| ==> r[k] == ToUpperAscii(s[k])
  {
    seq(|s|, k requires 0 <= k < |s| => ToUpperAscii(s[k]))
  }

  /** Case-insensitive equality under ASCII case folding. */
  predicate EqualsIgnoreCase(a: string, b: string) {
    |a| == |b| && forall k :: 0 <= k < |a| ==> ToLowerAscii(a[k]) == ToLowerAscii(b[k])
  }

  lemma EqualsIgnoreCaseSymmetric(a: string, b: string)
    ensures EqualsIgnoreCase(a, b) <==> EqualsIgnoreCase(b, a)
  {
  }

  /** `s.slice(-n)`: the last `n` characters, or all of `s` when it is shorter. */
  function TakeLast(s: string, n: nat): (r: string)
    ensures |r| == if |s| < n then |s| else n
    ensures r == s[|s| - |r|..]
  {
    if |s| < n then s else s[|s| - n..]
  }

  predicate IsDigit(c: char) {
    '0' <= c <= '9'
  }

  function DigitChar(d: nat): (c: char)
    requires d < 10
    ensures IsDigit(c) && c as int - '0' as int == d
  {
    ('0' as int + d) as char
  }

  /** Decimal rendering of a natural number, as template literals print it. */
  function NatToString(n: nat): (r: string)
    ensures r != []
    ensures forall k :: 0 <= k < |r| ==> IsDigit(r[k])
    ensures n > 0 ==> r[0] != '0'
  {
    if n < 10 then [DigitChar(n)] else NatToString(n / 10) + [DigitChar(n % 10)]
  }

  /** Decimal rendering of an integer, with a leading minus sign when negative. */
  function IntToString(n: int): (r: string)
    ensures r != []
    ensures n >= 0 ==> r == NatToString(n)
    ensures n < 0 ==> r == "-" + NatToString(-n)
  {
    if n < 0 then "-" + NatToString(-n) else NatToString(n)
  }

  /** Reads a string of decimal digits back as a number. */
  function DigitsValue(s: string): nat
    requires forall k :: 0 <= k < |s| ==> IsDigit(s[k])
  {
    if s == [] then 0
    else
      var last := s[|s| - 1];
      assert IsDigit(last);
      10 * DigitsValue(s[..|s| - 1]) + (last as int - '0' as int)
  }

  /** Rendering a count and reading it back gives the count. */
  lemma {:induction false} NatToStringRoundTrip(n: nat)
    ensures DigitsValue(NatToString(n)) == n
  {
    if n >= 10 {
      var p := NatToString(n / 10);
      var r := NatToString(n);
      assert r[..|r| - 1] == p;
      NatToStringRoundTrip(n / 10);
    }
  }
}

=== FILE: wrappers.dfy ===
/** Failure-carrying results shared by every operation of the ledger. */
module Wrappers {

  datatype Option<+T> = None | Some(value: T)

  /** The failure kinds the controllers answer with. */
  datatype Error =
    | NotFound         // 404: missing, foreign or soft-deleted record
    | BadRequest       // 400: a guard in the controller itself refused the request
    | Invalid          // 500: the document store refused to save (schema validation or cast)

  datatype Result<+T> = Ok(value: T) | Err(error: Error) {
    predicate IsFailure() {
      Err?
    }

    function PropagateFailure<U>(): Result<U>
      requires Err?
    {
      Err(error)
    }

    function Extract(): T
      requires Ok?
    {
      value
    }
  }
}
